=== FILE: README.md ===
# Chatbot trainer: crawling, chunking and onboarding, modelled in Dafny

This project models the core of a chatbot-training web application. The application crawls a
customer's web site, lets the customer choose which pages to train on, prices that choice,
crawls the chosen site again to store page text, and cuts the text into chunks for embedding.
The model covers eight parts of it.

- **Server crawler** (`crawl-website` edge function), module `ServerCrawler`.
  - Breadth-first crawl to depth 6, stopping at 1000 discovered URLs.
  - Honours robots.txt `Disallow` rules for agents `*` or any agent containing `bot`.
  - Takes a non-empty sitemap as the whole answer.
  - Reports as a stream of `log`, `urls`, `progress` and `error` events.
  - Modelled as a method that returns the events in order.
- **Browser crawler** (`public/crawler.worker.js`), class `CrawlerWorker.WebCrawler`.
  - Its fields are the crawler's own: `discovered`, `visited`, `queue`, `disallowedPaths`,
    `baseUrl`, `baseDomain`.
  - The messages it posts are collected in `outbox`.
  - It differs from the server crawler in six ways:
    - the file-extension test matches a substring, not a suffix;
    - the robots agent test asks that the agent equal `bot` after lower-casing, where the server asks that it contain `bot`;
    - the robots rules are part of its skip test (crawler.worker.js:48-57), so they also filter the
      sitemap entries (crawler.worker.js:126-134), which the server's sitemap reader does not do;
    - the message texts;
    - a progress report every 5 pages instead of every 3;
    - the progress report is posted before the page is fetched, with the counts from before that
      page's links are added (crawler.worker.js:240-253); the server reports after discovery.
- **Training crawler** (`crawl-and-train`), module `TrainCrawler`.
  - Breadth-first crawl to depth 3.
  - Stores the cleaned text of every page with more than 50 words, until a page budget is spent.
- **`splitIntoChunks`** (`generate-embeddings`), module `Embeddings`.
  - Greedy word packing under a token budget.
  - A 12-word overlap between chunks.
  - A final filter on chunk length.
- **Stream client** (`src/lib/crawler.ts`), module `SseClient`.
  - Buffers the response chunks and splits them into `data: ` frames.
  - Returns the URL list of the last `urls` event.
- **Price table** (`src/lib/pricing.ts`), module `Pricing`.
- **Saved onboarding state** (`src/lib/storage.ts`), class `Storage.OnboardingStore`.
  - One storage slot whose contents expire after 24 hours.
- **Onboarding page handlers** (`src/pages/Onboarding.tsx`), class `Onboarding.OnboardingPage`.
  - Its fields are the React state.
  - Its methods are the handlers.

## Modelling choices

**Outside effects.** Several things the program does are not computed in the model. Each becomes a
value the caller passes in; the code around them is modelled. In `Web.Env` they are:

- URL parsing (`new URL(s)`, as `parse`);
- URL resolution against a base (`new URL(h, base)`, as `resolve`);
- fetching a page (`fetch`), together with its HTML parsing into title, body text and anchors;
- the ETA computed from the clock (`eta`).

Other outside effects appear as parameters of the operations:

- the robots.txt and sitemap responses, of type `Fetched`;
- the stream chunks the client reads;
- the current time;
- whether storage is writable;
- the URL validity test of the onboarding page;
- whether a user is signed in;
- the crawl the onboarding page starts.

**Collections.**

- A JavaScript `Set` that the code lists with `Array.from` is a duplicate-free `seq`, kept in
  insertion order.
- A `Set` that the code only tests is a `set`.

**Correctness claims.** Each crawler's loop is proved against a predicate that states what a whole
run promises: `ServerCrawler.CrawlOutcome`, `CrawlerWorker.WorkerOutcome` and
`TrainCrawler.TrainOutcome`.

For the server and browser crawlers the outcome states:

- every discovered URL passes that crawler's link test;
- the discovered list is duplicate-free and capped at 1000;
- pages are requested at most once each;
- without a sitemap, the pages are requested breadth-first (`CrawlEvents.BreadthFirst`). Each page
  is requested at the depth it was queued with, never deeper than 6. Each was found on an earlier
  page one level up, and depths never decrease;
- without a sitemap, unless the list reached 1000 URLs, every link of every requested page is
  discovered (`CrawlEvents.Covered`);
- exactly one `urls` event with `complete: true` is sent, and it is the second-to-last message;
- the number of `progress` events is the number of pages requested divided by 3 (server) or by 5
  (browser).

Their manual crawls (`ServerCrawler.ManualCrawl`, `CrawlerWorker.WebCrawler.CrawlManually`) also
state that pages are requested in the order they were discovered.

For the training crawler the outcome states:

- the stored rows are exactly those the requested pages yield, in request order
  (`TrainCrawler.StoredRows`);
- no page is requested once `maxPages` rows are stored;
- the pages requested are discovered URLs, taken in discovery order;
- unless `maxPages` rows were stored, every discovered URL was requested;
- the discovered list is duplicate-free, starts with the start URL and holds at most `maxPages`
  URLs. Every other URL in it passes the training crawler's link test.

## Model

| member | source | states |
|---|---|---|
| Text.SplitOnJoin | supabase/functions/crawl-website/index.ts:67-68 | `text.split('\n')` gives pieces without a line feed that join back to the text |
| Text.TrimIsSlice | supabase/functions/crawl-website/index.ts:72 | `trim()` removes exactly the leading and trailing white space: the result is a slice whose ends are not white space |
| Text.Utf16Length | supabase/functions/generate-embeddings/index.ts:20 | `length` counts between one and two code units per character |
| Words.CollapseRunsSingleSpaced | supabase/functions/crawl-and-train/index.ts:28-31 | replacing white-space runs by one space leaves no two spaces in a row and no other white space |
| Words.SplitWsCollapseRuns | supabase/functions/crawl-and-train/index.ts:33 | collapsing white-space runs does not change the words `split(/\s+/)` finds |
| Words.WordsOfTrim | supabase/functions/crawl-and-train/index.ts:31-33 | trimming does not change the list of non-empty words |
| Web.HtmlPage | supabase/functions/crawl-website/index.ts:142-149 | a page is used only when the response is ok, its content type contains `text/html`, and a document was parsed |
| Web.NormalizeUrlEffect | supabase/functions/crawl-website/index.ts:21-32 | `normalizeUrl` is null exactly when resolution fails; otherwise it drops the fragment, drops one trailing `/` from a path longer than one character, and keeps scheme, host and query |
| Web.NormalizeUrlIdempotent | supabase/functions/crawl-website/index.ts:21-32 | normalizing twice equals normalizing once, provided the path does not end in `//` |
| Web.NormalizeUrlNotIdempotent | supabase/functions/crawl-website/index.ts:25-27 | for a path ending in `//`, a second normalization removes another slash, so the function is not idempotent |
| Filters.SkipIgnoresCase | supabase/functions/crawl-website/index.ts:43-56 | each crawler's skip test gives the same answer on the lower-cased URL, because `toLowerCase` is idempotent |
| Filters.ToLowerIdempotent | supabase/functions/crawl-website/index.ts:44 | lower-casing twice equals lower-casing once |
| Filters.TrainSkipImpliesServerSkip | supabase/functions/crawl-and-train/index.ts:51-61 | every URL the training crawler skips, the server crawler skips too (its 20 extensions are among the server's 23) |
| Filters.ServerSkipImpliesWorkerSkip | public/crawler.worker.js:36-47 | apart from `.css` and `.js` URLs, what the server skips by suffix the browser skips by substring |
| Filters.StylesheetSkipped | supabase/functions/crawl-website/index.ts:45-49 | a `.css` URL is skipped by the server and training crawlers |
| Filters.StylesheetPassesWorkerExtensions | public/crawler.worker.js:38-42 | the same `.css` URL passes the browser crawler's extension test, whose list has no `.css` |
| Filters.WorkerSkipsSubstring | public/crawler.worker.js:42 | the browser skips `https://www.movies.com/team`, whose host merely contains `.mov` |
| Filters.ServerKeepsSubstring | supabase/functions/crawl-website/index.ts:49 | the server keeps that page, because it tests only the suffix |
| Robots.Directives | supabase/functions/crawl-website/index.ts:68-73 | each line of robots.txt is trimmed and classified as a `User-agent:` line, a `Disallow:` line or other |
| Robots.ParseRobotsTxt | supabase/functions/crawl-website/index.ts:58-86 | the parsing loop collects exactly the rules of `RobotsRules`; every collected path is non-empty and trimmed |
| Robots.RulesSnoc | supabase/functions/crawl-website/index.ts:71-81 | one more line adds its rule, if any, at the end; only a `User-agent:` line changes whether later rules apply |
| Robots.RulesAppend | supabase/functions/crawl-website/index.ts:71-82 | rules accumulate in file order: the rules of `a + b` are those of `a`, then those of `b` read in the state `a` leaves |
| Robots.RulesMember | supabase/functions/crawl-website/index.ts:76-80 | a path is a rule exactly when some `Disallow:` line gives it non-empty while the latest `User-agent:` before it applies |
| Robots.RelevantAfterLatestAgent | supabase/functions/crawl-website/index.ts:69-75 | whether rules apply is decided by the latest `User-agent:` line alone, and holds at the start of the file |
| Robots.RulesAreTrimmedNonEmpty | supabase/functions/crawl-website/index.ts:77-79 | every collected path is non-empty and trimmed |
| Robots.AppliesWorkerImpliesServer | public/crawler.worker.js:84 | an agent the browser crawler obeys (`*`, or `bot` after lower-casing) is one the server obeys (`*` or containing `bot`) |
| Robots.WorkerRulesWithinServerRules | public/crawler.worker.js:62-102 | every rule the browser collects from a file, the server collects too |
| Robots.IsDisallowedMonotone | supabase/functions/crawl-website/index.ts:88-96 | more rules never allow more, and no rules disallow nothing |
| Robots.PrivatePathDisallowed | supabase/functions/crawl-website/index.ts:88-96 | the rule `/private` disallows `/private/page` |
| CrawlEvents.ProcessLinks | supabase/functions/crawl-website/index.ts:237-251 | the discovery loop adds each new link while fewer than 1000 are known, queues it one level deeper when the page's depth is below 6, and sends a log and a `urls` snapshot per link |
| CrawlEvents.QueueUrlsPush | supabase/functions/crawl-website/index.ts:245-247 | links are queued only from pages whose depth is below the limit, in discovery order |
| CrawlEvents.CountProgressAppend | supabase/functions/crawl-website/index.ts:253-266 | progress events of a concatenated stream add up |
| CrawlEvents.OngoingDiscovery | supabase/functions/crawl-website/index.ts:237-251 | discovery events keep the stream error-free, with growing incomplete snapshots, and add no progress events |
| CrawlEvents.Complete | supabase/functions/crawl-website/index.ts:271-272 | the final snapshot and log close an ongoing stream: it then has exactly one complete snapshot, holding the discovered list |
| CrawlEvents.CompletedFacts | supabase/functions/crawl-website/index.ts:271-272 | a completed stream has no error; its snapshots only grow and lie within the final list; the complete one is the second-to-last event |
| CrawlEvents.CompletedAfterLogs | supabase/functions/crawl-website/index.ts:193-213 | log lines sent before the crawl keep a completed stream completed, with no extra progress |
| CrawlEvents.FrontierDone | supabase/functions/crawl-website/index.ts:221-222 | pages are taken off the queue in discovery order: the fetched pages are discovered URLs at strictly increasing positions |
| CrawlEvents.FrontierVisit | supabase/functions/crawl-website/index.ts:222-228 | taking the front entry moves its position from the queue to the requested pages |
| CrawlEvents.FrontierDiscover | supabase/functions/crawl-website/index.ts:237-251 | new links take the next positions, and are queued exactly when the page's depth is below 6 |
| CrawlEvents.CoveredVisit | supabase/functions/crawl-website/index.ts:231-251 | discovering every not-yet-known link of a requested page keeps every link of every requested page discovered, unless the list is full |
| CrawlEvents.BreadthVisit | supabase/functions/crawl-website/index.ts:222-247 | taking the front entry keeps the breadth-first shape: it is requested at its queued depth, found on an earlier page one level up |
| CrawlEvents.BreadthPush | supabase/functions/crawl-website/index.ts:245-247 | links queued from the page just requested are one level deeper and keep the queue sorted by depth |
| CrawlEvents.ShapeVisit | supabase/functions/crawl-website/index.ts:222-251 | a whole visit keeps the discovery order, the breadth-first shape and the coverage |
| CrawlEvents.ShapeDone | supabase/functions/crawl-website/index.ts:221 | at loop exit: requests in discovery order, breadth-first and within depth 6, every link of a requested page discovered unless the list is full |
| CrawlEvents.DiscoveryStep | supabase/functions/crawl-website/index.ts:237-251 | discovery keeps the list duplicate-free, at most 1000 long, and extended only by the page's links |
| CrawlEvents.DiscoveryStepFrontier | supabase/functions/crawl-website/index.ts:237-251 | discovery keeps the queue in discovery order and every new URL passing the link test |
| ServerCrawler.PageLinksMember | supabase/functions/crawl-website/index.ts:151-166 | a URL is among a page's links exactly when some anchor normalizes to it and it passes the link test; such a URL is same-host, not skipped, not disallowed, and not yet discovered |
| ServerCrawler.PageLinksFound | supabase/functions/crawl-website/index.ts:151-166 | the discovered list only removes links: a page's links are among those it yields at all, and every such link not yet discovered is among them |
| ServerCrawler.FetchAndParse | supabase/functions/crawl-website/index.ts:127-173 | the anchor loop returns the page's passing links in anchor order, none already discovered |
| ServerCrawler.SitemapUrlsSound | supabase/functions/crawl-website/index.ts:98-125 | at most 1000 sitemap URLs, each non-empty, trimmed, on the start host and not skipped |
| ServerCrawler.FetchSitemap | supabase/functions/crawl-website/index.ts:98-125 | the `<loc>` loop returns the sitemap URLs, with `[]` for a failed or non-ok response or no document |
| ServerCrawler.ReportProgress | supabase/functions/crawl-website/index.ts:253-266 | after every 3rd page, a progress event with the discovered, visited and queued counts and the ETA (0 for an empty queue) |
| ServerCrawler.VisitPage | supabase/functions/crawl-website/index.ts:231-266 | the list becomes the capped insertion of the page's links, the queue gains them one level deeper, and the stream gains exactly the `Crawling` line, the discovery events and the report |
| ServerCrawler.ManualSkip | supabase/functions/crawl-website/index.ts:224 | dropping a visited or too-deep entry keeps the crawl invariant |
| ServerCrawler.ManualVisitShape | supabase/functions/crawl-website/index.ts:222-251 | a visit keeps discovery order, the breadth-first shape and the coverage |
| ServerCrawler.Round | supabase/functions/crawl-website/index.ts:221-269 | one round keeps the invariant; a skipped entry changes only the queue, a visited one is requested and handled by `VisitPage` exactly |
| ServerCrawler.ManualCrawl | supabase/functions/crawl-website/index.ts:213-272 | the manual crawl ends completed; the start URL comes first; the list is distinct, at most 1000 long, and every other URL passes the link test; progress events number the pages visited divided by 3; pages are requested in discovery order and breadth-first within depth 6; every link of a requested page is discovered unless the list is full |
| ServerCrawler.Prelude | supabase/functions/crawl-website/index.ts:193-203 | the opening log lines, including the robots rule count only when there are rules |
| ServerCrawler.SitemapOutcome | supabase/functions/crawl-website/index.ts:205-211 | a non-empty sitemap answers with one complete snapshot of its URLs, without fetching any page |
| ServerCrawler.ManualOutcome | supabase/functions/crawl-website/index.ts:213-272 | without a sitemap, the manual crawl's facts give the outcome of the whole run |
| ServerCrawler.CrawlWebsite | supabase/functions/crawl-website/index.ts:175-273 | an unparsable start URL gives the single event `Invalid URL provided`; otherwise the run meets `CrawlOutcome`, including the breadth-first shape and the coverage of the manual crawl |
| CrawlerWorker.WorkerPageLinksMember | public/crawler.worker.js:163-177 | a URL is among a page's links exactly when some anchor normalizes to it and it passes the browser's test, which includes the robots rules |
| CrawlerWorker.WorkerPageLinksFound | public/crawler.worker.js:163-177 | the discovered list only removes links: every link the page yields that is not yet discovered is among its links |
| CrawlerWorker.WorkerSitemapUrlsSound | public/crawler.worker.js:123-137 | at most 1000 sitemap URLs, each passing the browser's link test |
| CrawlerWorker.RobotsMessages | public/crawler.worker.js:64-101 | robots.txt handling posts one or two log messages |
| CrawlerWorker.SitemapMessages | public/crawler.worker.js:106-143 | sitemap handling posts one or two log messages |
| CrawlerWorker.WorkerDiscoveryStep | public/crawler.worker.js:259-282 | discovery keeps the list distinct, capped and in queue order, adds only passing links, and adds no progress events |
| CrawlerWorker.GreetedMessages | public/crawler.worker.js:198-202 | the opening messages are logs, starting with `Starting crawl of` and the host |
| CrawlerWorker.WorkerSitemapOutcome | public/crawler.worker.js:204-220 | a non-empty sitemap is answered with one complete snapshot and no page fetches |
| CrawlerWorker.WorkerManualOutcome | public/crawler.worker.js:222-294 | the manual crawl's facts give the outcome of the whole run |
| CrawlerWorker.CrawlingSkip | public/crawler.worker.js:233-236 | dropping a visited or too-deep entry keeps the crawl invariant |
| CrawlerWorker.CrawlingVisit | public/crawler.worker.js:230-282 | a visit keeps the stream, discovery order, the breadth-first shape and the coverage |
| CrawlerWorker.WebCrawler.constructor | public/crawler.worker.js:5-12 | empty collections and empty base URL and host |
| CrawlerWorker.WebCrawler.FetchRobotsTxt | public/crawler.worker.js:62-102 | appends the file's rules to `disallowedPaths` and posts the robots messages |
| CrawlerWorker.WebCrawler.FetchSitemap | public/crawler.worker.js:104-144 | returns the filtered sitemap URLs (at most 1000) and posts the count found before the cut |
| CrawlerWorker.WebCrawler.FilterSitemap | public/crawler.worker.js:123-129 | the `<loc>` loop keeps exactly the entries that pass the link test, in order |
| CrawlerWorker.WebCrawler.FetchAndParse | public/crawler.worker.js:146-183 | returns the page's passing links not yet discovered |
| CrawlerWorker.WebCrawler.ReportProgress | public/crawler.worker.js:240-253 | every 5th page posts a progress message with the counts and the ETA |
| CrawlerWorker.WebCrawler.VisitPage | public/crawler.worker.js:230-282 | the front entry is marked visited and requested; the list becomes the capped insertion of its links, the queue gains them one level deeper, and the outbox gains exactly the report and the discovery messages |
| CrawlerWorker.WebCrawler.Discover | public/crawler.worker.js:259-282 | the list becomes the capped insertion of the links, each new one queued one level deeper when the page's depth is below 6, and the outbox gains exactly a log and a snapshot per new link |
| CrawlerWorker.WebCrawler.Round | public/crawler.worker.js:230-283 | one round keeps the crawl invariant; a skipped entry changes only the queue, a visited one is handled by `VisitPage` exactly |
| CrawlerWorker.WebCrawler.CrawlManually | public/crawler.worker.js:222-294 | the manual crawl ends completed: start URL first, list distinct, at most 1000 long, others passing; progress count = visited / 5; requests in discovery order, breadth-first within depth 6; every link of a requested page discovered unless the list is full |
| CrawlerWorker.WebCrawler.StartManually | public/crawler.worker.js:222-225 | seeds the list and the queue with the start URL and posts `Crawling` with it |
| CrawlerWorker.WebCrawler.FinishManually | public/crawler.worker.js:285-294 | the final snapshot and log complete the stream |
| CrawlerWorker.WebCrawler.AddAll | public/crawler.worker.js:205-207 | adding the sitemap URLs inserts each one not yet present, in order |
| CrawlerWorker.WebCrawler.Begin | public/crawler.worker.js:198-202 | the rules kept are those of `fetchRobotsTxt`, the sitemap URLs those of `fetchSitemap`, and the outbox is exactly `Opening`: the greeting, then the robots.txt messages, then the sitemap messages |
| CrawlerWorker.WebCrawler.FinishFromSitemap | public/crawler.worker.js:204-220 | the sitemap branch meets `WorkerOutcome` and posts exactly the complete snapshot and the `Crawling complete: N URLs found from sitemap` line |
| CrawlerWorker.WebCrawler.Crawl | public/crawler.worker.js:185-295 | an unparsable start URL posts only `Invalid URL provided`; otherwise the run meets `WorkerOutcome`, its messages are exactly `Opening` and the two closing events in the sitemap way, and start with `Opening` and `Crawling <url>` in the manual way |
| CrawlerWorker.OnMessage | public/crawler.worker.js:298-305 | only a `start` message creates a crawler, which crawls the given URL; its messages start with `Opening` |
| TrainCrawler.MaxPages | supabase/functions/crawl-and-train/index.ts:162 | the page budget never exceeds 100 |
| TrainCrawler.MaxPagesCases | supabase/functions/crawl-and-train/index.ts:162 | a missing or zero setting gives 50, otherwise the setting capped at 100 |
| TrainCrawler.ExtractTextContentShape | supabase/functions/crawl-and-train/index.ts:14-36 | the stored text is trimmed and single-spaced, and its word count is the number of words of the body |
| TrainCrawler.CrawlPage | supabase/functions/crawl-and-train/index.ts:63-113 | `null` unless the response is ok, HTML and parsed; otherwise the links that normalize to an unskipped same-host URL, in anchor order |
| TrainCrawler.CrawlPageLinksMember | supabase/functions/crawl-and-train/index.ts:91-106 | a URL is a crawled link exactly when some anchor normalizes to it and it passes the test |
| TrainCrawler.Enqueue | supabase/functions/crawl-and-train/index.ts:199-206 | the set becomes the capped insertion of the links, and each link added is queued one level deeper, in the order added |
| TrainCrawler.StoredRowsFacts | supabase/functions/crawl-and-train/index.ts:179-197 | every stored row is the cleaned text of a requested HTML page with more than 50 words; with each page requested once, no page is stored twice |
| TrainCrawler.StoredRowsSnoc | supabase/functions/crawl-and-train/index.ts:176-197 | one more request adds its row, if it yields one, at the end |
| TrainCrawler.EnqueuedLinks | supabase/functions/crawl-and-train/index.ts:176-206 | links are enqueued only from a crawled page whose depth is below 3 while fewer than `maxPages` rows are stored, and all of them pass the link test |
| TrainCrawler.CrawlPageLinksOk | supabase/functions/crawl-and-train/index.ts:91-106 | every link of a crawled page passes the link test |
| TrainCrawler.TrainStart | supabase/functions/crawl-and-train/index.ts:164-168 | the start URL discovered and queued at depth 0, nothing requested or stored, meets the loop invariant |
| TrainCrawler.TrainStateFetched | supabase/functions/crawl-and-train/index.ts:170-174 | under the invariant, pages are requested once each and all of them were discovered |
| TrainCrawler.TrainSkipped | supabase/functions/crawl-and-train/index.ts:173 | dropping a visited or too-deep entry keeps the invariant, including the positions of the queued URLs |
| TrainCrawler.TrainVisited | supabase/functions/crawl-and-train/index.ts:173-206 | requesting the front entry, storing its row if it yields one and discovering its links keeps the invariant: rows equal `StoredRows` of the requests, every request made below the budget, every discovered URL requested or queued, discovery order kept |
| TrainCrawler.TrainVisitedSets | supabase/functions/crawl-and-train/index.ts:199-206 | enqueueing keeps every discovered URL passing the test, every queued entry within depth 3, and every discovered URL requested or queued |
| TrainCrawler.BudgetSnoc | supabase/functions/crawl-and-train/index.ts:170-176 | a request made while fewer than `maxPages` rows are stored keeps every request below the budget |
| TrainCrawler.CrawlItem | supabase/functions/crawl-and-train/index.ts:176-206 | the rows gain exactly `StoredRow` of the page, and the set and queue gain exactly the capped insertion of `EnqueuedLinks` |
| TrainCrawler.TrainRound | supabase/functions/crawl-and-train/index.ts:170-209 | one round keeps the invariant and visits a new page or shortens the queue; a skipped entry changes only the queue, and a visited one is requested, stored by `StoredRow` and its `EnqueuedLinks` added |
| TrainCrawler.TrainStateOutcome | supabase/functions/crawl-and-train/index.ts:170-209 | at loop exit the invariant gives the outcome; with the budget unspent the queue is empty, so every discovered URL was requested |
| TrainCrawler.TrainLoop | supabase/functions/crawl-and-train/index.ts:164-209 | the rows are `StoredRows` of the requests; no request once `maxPages` rows are stored; requests in discovery order, the start URL first; every discovered URL requested unless the budget was spent |
| TrainCrawler.TrainOutcomeRows | supabase/functions/crawl-and-train/index.ts:170-197 | pages are requested once each, every one but the start URL passing the link test; each row is a requested page with more than 50 words, none stored twice |
| TrainCrawler.CrawlAndTrain | supabase/functions/crawl-and-train/index.ts:160-226 | an unparsable start URL is an error; otherwise `pages_crawled` is the number of stored rows and the run meets `TrainOutcome` |
| Embeddings.TokenCost | supabase/functions/generate-embeddings/index.ts:20 | a word costs the least `r` with `4r` at least its length in UTF-16 code units, so 0 only for the empty word |
| Embeddings.EmojiCost | supabase/functions/generate-embeddings/index.ts:20 | five emoji cost three tokens and five ASCII letters two |
| Embeddings.Overlap | supabase/functions/generate-embeddings/index.ts:24-25 | the last `min(12, n)` words of the flushed chunk |
| Embeddings.CostSumSnoc | supabase/functions/generate-embeddings/index.ts:26-30 | the running length is the sum of the chunk's word costs |
| Embeddings.FlushPacked | supabase/functions/generate-embeddings/index.ts:22-30 | flushing when a word does not fit keeps the packing invariant |
| Embeddings.PushPacked | supabase/functions/generate-embeddings/index.ts:29-30 | adding a word that fits keeps the packing invariant |
| Embeddings.FlushGreedy | supabase/functions/generate-embeddings/index.ts:22-30 | a flush happens only when the word that then starts the next chunk after its overlap does not fit |
| Embeddings.PushGreedy | supabase/functions/generate-embeddings/index.ts:29-30 | pushing a word onto the current chunk keeps every earlier flush justified |
| Embeddings.PackPacked | supabase/functions/generate-embeddings/index.ts:19-35 | the packing loop meets its invariant for every word list |
| Embeddings.PackGreedy | supabase/functions/generate-embeddings/index.ts:19-31 | the packing is greedy: every chunk but the last was flushed only because the first word after the overlap in the next chunk would have taken it past `maxTokens` |
| Embeddings.ChunkGroups | supabase/functions/generate-embeddings/index.ts:13-35 | chunks are non-empty; the first fits the budget; each later one starts with the overlap of the previous one and fits unless it is that overlap plus one word; a chunk is flushed only when the next word would exceed `maxTokens`; the new words of the chunks are the text's words in order |
| Embeddings.LinkedAll | supabase/functions/generate-embeddings/index.ts:22-30 | the chunk chain property holds between every pair of neighbours |
| Embeddings.ChunksMember | supabase/functions/generate-embeddings/index.ts:33-37 | a string is a result exactly when it is a joined group whose trimmed text is longer than 50 characters |
| Embeddings.BlankTextNoChunks | supabase/functions/generate-embeddings/index.ts:14-37 | a text of white space alone gives no chunks |
| Embeddings.PageChunks | supabase/functions/generate-embeddings/index.ts:128 | a page is chunked under the default budget `CHUNK_SIZE` of 512 tokens; every chunk kept is longer than 50 characters once trimmed, and there are no more chunks than word groups |
| Embeddings.SplitIntoChunks | supabase/functions/generate-embeddings/index.ts:13-38 | the loop computes `Chunks`, the packed, joined and filtered groups |
| SseClient.SplitFramesJoin | src/lib/crawler.ts:53 | `split('\n\n')` loses nothing: the pieces joined with the separator give back the buffer |
| SseClient.SplitFramesShape | src/lib/crawler.ts:53-54 | no piece contains the separator, and no piece before the last ends with a line feed |
| SseClient.SplitFramesFramed | src/lib/crawler.ts:53 | complete frames followed by a rest split back into those frames and the split of the rest |
| SseClient.FeedAllSplits | src/lib/crawler.ts:47-54 | after any chunking, the frames read so far plus the buffer are the split of the whole text received |
| SseClient.BufferNoSep | src/lib/crawler.ts:54 | the kept buffer never contains a separator |
| SseClient.LastUrlsAt | src/lib/crawler.ts:62-64 | the result is the list of the last `urls` event |
| SseClient.LastUrlsAppend | src/lib/crawler.ts:56-64 | the last `urls` list of a concatenated stream is read in order |
| SseClient.DispatchFrames | src/lib/crawler.ts:56-73 | the frame loop hands each `data: ` frame's event to the callback and keeps the last list |
| SseClient.ReadChunk | src/lib/crawler.ts:52-73 | a chunk is appended, split, the last piece kept, and the complete frames dispatched |
| SseClient.ClientCrawl | src/lib/crawler.ts:14-81 | a non-ok response throws `Failed to start crawl`; no body throws `No response body`; otherwise the last `urls` list of the dispatched events is returned |
| SseClient.ServerFrames | supabase/functions/crawl-website/index.ts:301-304 | each event is sent as `data: ` plus its encoding |
| SseClient.DispatchedServerFrames | supabase/functions/crawl-website/index.ts:301-304 | the client parses the server's frames back into the server's events |
| SseClient.ClientReadsServer | src/lib/crawler.ts:47-74 | however the server's text is chunked, the client dispatches exactly the server's events and ends with an empty buffer |
| SseClient.ClientReturnsFinalSet | src/lib/crawler.ts:62-76 | for a stream ending in a complete snapshot and a log, the client returns the snapshot's list |
| SseClient.ClientErrorStream | src/lib/crawler.ts:66-71 | an `error` event is dispatched and swallowed by the parse `catch`, so the client returns `[]` |
| Pricing.CalculatePrice | src/lib/pricing.ts:1-8 | no price (-1) exactly above 1000 pages, otherwise one of the five tier prices |
| Pricing.PricingTier | src/lib/pricing.ts:14-21 | the over-limit label exactly when there is no price, otherwise one of the tier labels |
| Pricing.Tier | src/lib/pricing.ts:1-8 | the tier index is the first bound not below the count |
| Pricing.PriceFromTable | src/lib/pricing.ts:1-8 | the price is the table's price for the tier |
| Pricing.TierFromTable | src/lib/pricing.ts:14-21 | the label is the table's label for the tier |
| Pricing.SameThresholds | src/lib/pricing.ts:1-21 | two counts have the same price exactly when they have the same label |
| Pricing.PriceMonotone | src/lib/pricing.ts:1-8 | up to 1000 pages, more pages never cost less, and every price is positive |
| Pricing.NonPositiveLowestTier | src/lib/pricing.ts:2 | zero or fewer pages fall in the lowest tier |
| Storage.LoadResult | src/lib/storage.ts:23-40 | a load gives the saved state exactly when the slot holds a parsable record at most 24 hours old |
| Storage.SlotAfterLoad | src/lib/storage.ts:30-33 | a load changes the slot only by removing an expired record |
| Storage.OnboardingStore.Save | src/lib/storage.ts:11-21 | the slot holds the fields stamped with the current time; a refused write changes nothing |
| Storage.OnboardingStore.Load | src/lib/storage.ts:23-40 | returns `LoadResult` and leaves `SlotAfterLoad` |
| Storage.OnboardingStore.Clear | src/lib/storage.ts:42-48 | empties the slot |
| Storage.SaveThenLoad | src/lib/storage.ts:11-40 | a load within 24 hours of a save returns the saved fields and keeps them |
| Storage.LoadAfterExpiry | src/lib/storage.ts:30-33 | after more than 24 hours a load returns nothing and clears; at exactly 24 hours it still returns |
| Storage.LoadAfterClear | src/lib/storage.ts:25-26 | after a clear, a load returns nothing |
| Storage.LoadTwice | src/lib/storage.ts:23-40 | loading twice equals loading once |
| Storage.LoadUnparseable | src/lib/storage.ts:36-39 | unparsable text returns nothing and stays in the slot |
| Onboarding.WithScheme | src/pages/Onboarding.tsx:89-92 | the address starts with `http://` or `https://` and ends with the trimmed input; input that already has a scheme is kept as is |
| Onboarding.WithSchemeIdempotent | src/pages/Onboarding.tsx:89-92 | prefixing twice equals prefixing once |
| Onboarding.SetOf | src/pages/Onboarding.tsx:121 | `new Set(urls)` holds exactly the list's URLs |
| Onboarding.Toggled | src/pages/Onboarding.tsx:131-139 | toggling flips the URL's membership and leaves every other URL as it was |
| Onboarding.ToggleTwice | src/pages/Onboarding.tsx:131-139 | toggling twice restores the selection |
| Onboarding.ToggledAll | src/pages/Onboarding.tsx:141-147 | toggle-all gives either nothing or all listed URLs |
| Onboarding.ToggleAllMeansAll | src/pages/Onboarding.tsx:141-147 | for a duplicate-free list and a selection within it, toggle-all clears exactly when everything is selected |
| Onboarding.ToggleAllComparesSizes | src/pages/Onboarding.tsx:142 | the test compares sizes only: with a duplicated list it reselects all, and a foreign selection of the same size is cleared |
| Onboarding.Without | src/pages/Onboarding.tsx:176 | removal drops every copy of the URL and keeps every other URL |
| Onboarding.WithoutAbsent | src/pages/Onboarding.tsx:176 | removing an absent URL leaves the list unchanged |
| Onboarding.WithoutDistinct | src/pages/Onboarding.tsx:176 | removal keeps a duplicate-free list duplicate-free |
| Onboarding.RemoveUndoesAdd | src/pages/Onboarding.tsx:165-181 | removing a URL just added by hand restores the list and the selection |
| Onboarding.AddOutcomeOf | src/pages/Onboarding.tsx:149-173 | blank input does nothing; the URL is added exactly when the prefixed address is valid and not yet listed |
| Onboarding.CrawledConsistent | src/pages/Onboarding.tsx:120-121 | after a crawl, every listed URL is selected and the selection lies within the list |
| Onboarding.HandlersConsistent | src/pages/Onboarding.tsx:131-181 | toggle, toggle-all, add and remove keep the list duplicate-free and the selection within it |
| Onboarding.ProceedOutcome | src/pages/Onboarding.tsx:183-208 | checkout exactly when 1 to 1000 pages are selected and a user is signed in, at the tier price; more than 1000 is refused |
| Onboarding.CanProceedBound | src/pages/Onboarding.tsx:210-211 | `canProceed` holds exactly when at most 1000 pages are selected; the proceed button (Onboarding.tsx:517) is enabled exactly for 1 to 1000 pages, and an enabled button takes a signed-in user to checkout |
| Onboarding.OnboardingPage.constructor | src/pages/Onboarding.tsx:14-26 | the initial React state: input step, empty address, list and selection, dialogs closed |
| Onboarding.OnboardingPage.Restore | src/pages/Onboarding.tsx:30-38 | a saved state with a non-empty list restores the address, the list and the selection, and opens the selection step; otherwise nothing changes |
| Onboarding.OnboardingPage.Reset | src/pages/Onboarding.tsx:76-84 | back to the input step with an empty address, list and selection |
| Onboarding.OnboardingPage.StartCrawl | src/pages/Onboarding.tsx:86-129 | an empty address does nothing; otherwise the prefixed address is crawled; success lists and selects all returned URLs; failure returns to input |
| Onboarding.OnboardingPage.ToggleUrl | src/pages/Onboarding.tsx:131-139 | the selection becomes `Toggled`; nothing else changes |
| Onboarding.OnboardingPage.ToggleAll | src/pages/Onboarding.tsx:141-147 | the selection becomes `ToggledAll`; nothing else changes |
| Onboarding.OnboardingPage.AddManualUrl | src/pages/Onboarding.tsx:149-173 | an added URL is appended and selected, and the input is cleared and closed; otherwise nothing changes |
| Onboarding.OnboardingPage.RemoveUrl | src/pages/Onboarding.tsx:175-181 | the URL leaves the list and the selection |
| Onboarding.OnboardingPage.ProceedToPayment | src/pages/Onboarding.tsx:183-208 | returns `ProceedOutcome`, and opens the sign-in dialog exactly when that outcome is `SignIn` |

## Notes on the code

These are observations about the code as written. The model follows the code in each case.

- `normalizeUrl` (crawl-website/index.ts:21-32 and its two copies) removes only one trailing `/`.
  - A path ending in `//` therefore loses one more slash when it is normalized again, so the
    function is not idempotent.
  - `Web.NormalizeUrlNotIdempotent` shows this.
  - `Web.NormalizeUrlIdempotent` proves idempotence for every other path.
- The training crawler's extension list (crawl-and-train/index.ts:53-55) has 20 entries. The
  server's list has 23.
- The browser crawler's robots agent test is the exact match `=== 'bot'` (crawler.worker.js:84).
  The server's test is a substring match.
- The browser crawler tests extensions by substring (`includes`), not by suffix. Its list has no
  `.css` or `.js`.
- JavaScript's `length` counts UTF-16 code units. The token estimate and the final chunk filter of
  `splitIntoChunks` therefore count a character outside the Basic Multilingual Plane twice
  (`Embeddings.EmojiCost`).

## Left out

- **Outside effects kept as parameters:**
  - HTML and XML parsing, tag stripping, the WHATWG URL parser, `fetch`, request timeouts and the
    delays between requests.
  - Floating-point ETA arithmetic (`Math.ceil(remaining / rate)` from the clock). It is the
    parameter `Env.eta`.
- **Not modelled:**
  - `formatPrice` (pricing.ts:10-12), which only formats a number for display.
  - React rendering, the auto-scroll effects, the crawl log, the discovered-URL display and the
    crawl statistics. They do not affect the data the handlers produce.
  - The save effect of the onboarding page (Onboarding.tsx:40-48). It is `Storage.OnboardingStore.Save`, called after every change of the step, the address, the selection or the URL list while the selection step is shown.
  - The edge functions' HTTP handling: CORS, the authorization check, the request body, the
    project lookup and status updates of the training function, and the embedding API calls and
    database inserts of `generate-embeddings`.
- **Weaker than the source:**
  - Onboarding.OnboardingPage.ProceedToPayment: the checkout state carries the selection as a set. The order `Array.from` gives a `Set` is not modelled.
  - Onboarding.OnboardingPage.Restore: the selection is a set. The order of the saved list is not kept.
  - Storage.OnboardingStore.Load: a record without a numeric `timestamp` is counted as unparseable. The source compares against `NaN`, so it keeps and returns such a record.
  - Storage.OnboardingStore.Clear: the failure of `removeItem`, which the source only logs, is not modelled.
  - Storage.OnboardingStore.Save: the JSON text is not modelled. A record is stored and read back as a value.
  - TrainCrawler.CrawlAndTrain: an unparsable start URL gives an error result. The exact error message and status of the handler's `catch` are not modelled.
  - SseClient.ClientCrawl: JSON parsing of a frame is the parameter `parse`. A frame that does not parse, or a `urls` event without a `urls` field, must be mapped by it to no event. The source would still pass such an event to the callback.
  - Text.ToLower: `toLowerCase` is modelled for ASCII letters only.
  - SseClient.ClientCrawl: the body is a finite list of chunks that always ends normally. A reader that rejects part-way through the stream, which the `catch` at crawler.ts:77-80 rethrows, is not modelled.
  - TrainCrawler.TrainLoop: the outcome does not state the breadth-first depths or the link coverage stated for the other two crawlers. Only the loop invariant bounds the queued depths, at 3.
  - CrawlerWorker.WebCrawler.Crawl: the worker's posted messages are collected in `outbox`. Asynchronous interleaving with other worker messages is not modelled.

=== FILE: crawl_and_train.dfy ===
/** The training crawler of the `crawl-and-train` edge function: a breadth-first crawl to depth 3
    that stores the text of every page with more than 50 words, until `maxPages` pages are stored.
    The handler keeps its state in local variables, as the methods below do; the stored pages are
    the upserts into `crawled_pages`, collected in order. */
module TrainCrawler {
  import opened Wrappers
  import opened Text
  import opened Seqs
  import opened Words
  import opened Web
  import opened Filters
  import opened CrawlEvents

  const MAX_PAGES: int := 100
  const TRAIN_MAX_DEPTH: nat := 3
  /** A page is stored when its word count exceeds this. */
  const MIN_WORDS: nat := 50

  /** `Math.min(project.max_pages || 50, MAX_PAGES)`: a missing or zero setting means 50. */
  function MaxPages(setting: Option<int>): (r: int)
    ensures r <= MAX_PAGES
  {
    var v := if setting.None? || setting.value == 0 then 50 else setting.value;
    if v < MAX_PAGES then v else MAX_PAGES
  }

  /** The page budget is the setting capped at 100, with 50 for a missing or zero setting. */
  lemma MaxPagesCases(setting: Option<int>)
    ensures setting.None? ==> MaxPages(setting) == 50
    ensures setting == Some(0) ==> MaxPages(setting) == 50
    ensures setting.Some? && setting.value != 0 && setting.value <= MAX_PAGES ==> MaxPages(setting) == setting.value
    ensures setting.Some? && setting.value > MAX_PAGES ==> MaxPages(setting) == MAX_PAGES
  {
  }

  /** What `extractTextContent` returns. */
  datatype Extracted = Extracted(title: string, content: string, wordCount: nat)

  /** `extractTextContent` after the tag stripping: the trimmed title, the body text with its white
      space runs collapsed to single spaces (and line-feed runs squashed) and trimmed, and its number
      of words. */
  function ExtractTextContent(p: Page): (r: Extracted)
  {
    var content := Trim(SquashNewlines(CollapseRuns(p.bodyText)));
    Extracted(Trim(p.title), content, |WordsOf(content)|)
  }

  /** The stored text has no white space at either end and only single spaces between words, and
      the word count counts the words of the page body itself. */
  lemma ExtractTextContentShape(p: Page)
    ensures var r := ExtractTextContent(p);
      && SingleSpaced(r.content)
      && (r.content == [] || (!IsWhitespace(r.content[0]) && !IsWhitespace(r.content[|r.content| - 1])))
      && r.wordCount == |WordsOf(p.bodyText)|
  {
    var c := CollapseRuns(p.bodyText);
    CollapseRunsSingleSpaced(p.bodyText);
    assert '\n' !in c by {
      forall i | 0 <= i < |c| ensures c[i] != '\n' {
        if IsWhitespace(c[i]) {
          assert c[i] == ' ';
        }
      }
    }
    assert SquashNewlines(c) == c;
    var lo := TrimIsSlice(c);
    SingleSpacedSlice(c, lo, lo + |Trim(c)|);
    WordsOfTrim(c);
    SplitWsCollapseRuns(p.bodyText);
  }

  /** What the training crawler asks of a link: not skipped, and on the start URL's host. */
  predicate TrainLinkOk(env: Env, domain: string, n: string) {
    !TrainSkip(n) && IsSameDomain(env, n, domain)
  }

  /** The test `crawlPage` applies to one `href` of page `page`. */
  function TrainLinkOf(env: Env, page: string, domain: string, href: string): Option<string> {
    if href == "" then None
    else
      match NormalizeUrl(env, href, page)
      case None => None
      case Some(n) => if TrainLinkOk(env, domain, n) then Some(n) else None
  }

  function TrainLinkFilter(env: Env, page: string, domain: string): string -> Option<string> {
    href => TrainLinkOf(env, page, domain, href)
  }

  /** What `crawlPage` returns: the page and its passing links, or `null`. */
  datatype Crawled = Crawled(page: Page, links: seq<string>)

  function CrawlPageSpec(env: Env, url: string, domain: string): Option<Crawled> {
    match HtmlPage(env, url)
    case None => None
    case Some(p) => Some(Crawled(p, FilterMap(p.anchors.value, TrainLinkFilter(env, url, domain))))
  }

  /** `crawlPage(url, baseDomain)`: `null` for a failed request, a non-ok response, a non-HTML
      content type or no document; otherwise the links of the page that normalise to an unskipped
      URL on the host, in anchor order and with any repetitions. */
  method CrawlPage(env: Env, url: string, domain: string) returns (r: Option<Crawled>)
    ensures r == CrawlPageSpec(env, url, domain)
    ensures r.Some? ==> r.value.page.ok && IsHtml(r.value.page) && forall n | n in r.value.links :: TrainLinkOk(env, domain, n)
  {
    var response := env.fetch(url);
    if response.None? || !response.value.ok || !IsHtml(response.value) || response.value.anchors.None? {
      return None;
    }
    var anchors := response.value.anchors.value;
    ghost var f := TrainLinkFilter(env, url, domain);
    var links := [];
    for i := 0 to |anchors|
      invariant links == FilterMap(anchors[..i], f)
    {
      FilterMapSnoc(anchors, f, i);
      var href := anchors[i];
      if href == "" {
        continue;
      }
      var normalized := NormalizeUrl(env, href, url);
      if normalized.Some? && !TrainSkip(normalized.value) && IsSameDomain(env, normalized.value, domain) {
        links := links + [normalized.value];
      }
    }
    assert anchors[..|anchors|] == anchors;
    forall n | n in links ensures TrainLinkOk(env, domain, n) {
      FilterMapMember(anchors, f, n);
    }
    return Some(Crawled(response.value, links));
  }

  /** The links of a crawled page are exactly those of its anchors that pass the test. */
  lemma CrawlPageLinksMember(env: Env, url: string, domain: string, n: string)
    requires CrawlPageSpec(env, url, domain).Some?
    ensures var anchors := HtmlPage(env, url).value.anchors.value;
      n in CrawlPageSpec(env, url, domain).value.links <==>
        exists i | 0 <= i < |anchors| :: TrainLinkOf(env, url, domain, anchors[i]) == Some(n)
  {
    FilterMapMember(HtmlPage(env, url).value.anchors.value, TrainLinkFilter(env, url, domain), n);
  }

  /** A row of `crawled_pages` as the handler upserts it. */
  datatype Stored = Stored(url: string, title: string, content: string, wordCount: nat)

  /** The row stored for a crawled page. */
  function StoredOf(url: string, p: Page): Stored {
    var x := ExtractTextContent(p);
    Stored(url, x.title, x.content, x.wordCount)
  }

  /** The row the handler stores for a page it requested: the page's text when the request gives
      an HTML page with more than 50 words, and nothing otherwise. */
  function StoredRow(env: Env, url: string): seq<Stored> {
    match HtmlPage(env, url)
    case None => []
    case Some(p) => if StoredOf(url, p).wordCount > MIN_WORDS then [StoredOf(url, p)] else []
  }

  /** The rows stored for the pages requested, in the order of the requests. */
  function StoredRows(env: Env, fetched: seq<string>): (r: seq<Stored>)
    ensures |r| <= |fetched|
  {
    if fetched == [] then [] else StoredRows(env, fetched[..|fetched| - 1]) + StoredRow(env, fetched[|fetched| - 1])
  }

  /** One more request adds its row, if any, at the end. */
  lemma StoredRowsSnoc(env: Env, fetched: seq<string>, url: string)
    ensures StoredRows(env, fetched + [url]) == StoredRows(env, fetched) + StoredRow(env, url)
  {
    assert (fetched + [url])[..|fetched|] == fetched;
  }

  /** The urls of the stored rows. */
  function StoredUrls(saved: seq<Stored>): (r: seq<string>)
    ensures |r| == |saved| && forall k | 0 <= k < |r| :: r[k] == saved[k].url
  {
    seq(|saved|, k requires 0 <= k < |saved| => saved[k].url)
  }

  /** `row` is the row of one of the pages `fetched`: the text of an HTML page with more than 50
      words. */
  ghost predicate StoredFrom(env: Env, fetched: seq<string>, row: Stored) {
    && row.url in fetched && HtmlPage(env, row.url).Some?
    && row == StoredOf(row.url, HtmlPage(env, row.url).value) && row.wordCount > MIN_WORDS
  }

  /** Every stored row is the text of a requested page with more than 50 words; with every page
      requested once, no page is stored twice. */
  lemma {:induction false} StoredRowsFacts(env: Env, fetched: seq<string>)
    ensures forall j | 0 <= j < |StoredRows(env, fetched)| :: StoredFrom(env, fetched, StoredRows(env, fetched)[j])
    ensures Distinct(fetched) ==> Distinct(StoredUrls(StoredRows(env, fetched)))
  {
    if fetched != [] {
      var init, url := fetched[..|fetched| - 1], fetched[|fetched| - 1];
      assert fetched == init + [url];
      StoredRowsFacts(env, init);
      var rows := StoredRows(env, init);
      var row := StoredRow(env, url);
      assert StoredRows(env, fetched) == rows + row;
      forall j | 0 <= j < |rows + row| ensures StoredFrom(env, fetched, (rows + row)[j]) {
        if j < |rows| {
          assert StoredFrom(env, init, rows[j]);
        }
      }
      if Distinct(fetched) {
        assert Distinct(init);
        assert url !in init;
        var urls := StoredUrls(rows + row);
        forall i, j | 0 <= i < j < |urls| ensures urls[i] != urls[j] {
          assert StoredFrom(env, init, rows[i]);
          if j >= |rows| {
            assert urls[j] == url && urls[i] in init;
          } else {
            assert StoredUrls(rows)[i] == urls[i] && StoredUrls(rows)[j] == urls[j];
          }
        }
      }
    }
  }

  /** The enqueueing loop for a page at a `depth` below 3: each link not yet discovered is added and
      queued one level deeper while fewer than `cap` URLs are discovered. */
  method Enqueue(links: seq<string>, depth: nat, cap: nat, discovered: seq<string>, queue: seq<Item>)
      returns (discovered': seq<string>, queue': seq<Item>)
    requires depth < TRAIN_MAX_DEPTH
    ensures discovered <= discovered' && discovered' == InsertCapped(discovered, links, cap)
    ensures queue' == queue + Pushed(discovered'[|discovered|..], depth)
  {
    discovered', queue' := discovered, queue;
    ghost var ns: seq<string> := [];
    for i := 0 to |links|
      invariant discovered' == discovered + ns
      invariant discovered' == InsertCapped(discovered, links[..i], cap)
      invariant queue' == queue + Pushed(ns, depth)
    {
      InsertCappedSnoc(discovered, links, i, cap);
      var link := links[i];
      if link !in discovered' && |discovered'| < cap {
        PushedSnoc(queue, ns, link, depth);
        discovered' := discovered' + [link];
        queue' := queue' + [Item(link, depth + 1)];
        ns := ns + [link];
      }
    }
    assert links[..|links|] == links;
    assert ns == discovered'[|discovered|..];
  }

  /** What holds between two rounds of the training crawl from `startUrl` on `domain`, with at most
      `cap` URLs to discover and `maxPages` pages to store:
      - the set is duplicate-free, starts with `startUrl`, holds at most `cap` URLs (the start URL
        aside) and otherwise links that pass the test;
      - every queued entry is at most three levels deep, and every discovered URL was requested or
        is still queued;
      - `visited` holds the pages requested, the first of them `startUrl`, and `order` and `slots`
        place the requested and the queued URLs at increasing positions of the set;
      - the rows are those the requests yield, `processed` of them, and before each request fewer
        than `maxPages` rows were stored. */
  ghost predicate TrainState(env: Env, startUrl: string, domain: string, cap: nat, maxPages: int,
                             discovered: seq<string>, visited: set<string>, queue: seq<Item>,
                             processed: nat, saved: seq<Stored>, fetched: seq<string>,
                             slots: seq<nat>, order: seq<nat>) {
    && Distinct(discovered) && 1 <= |discovered| && (|discovered| <= cap || |discovered| == 1) && discovered[0] == startUrl
    && (forall k | 1 <= k < |discovered| :: TrainLinkOk(env, domain, discovered[k]))
    && (forall i | 0 <= i < |queue| :: queue[i].depth <= TRAIN_MAX_DEPTH)
    && (forall u | u in discovered :: u in fetched || u in QueueUrls(queue))
    && (forall u :: u in visited <==> u in fetched)
    && (|fetched| == 0 ==> queue == [Item(startUrl, 0)] && visited == {})
    && (|fetched| > 0 ==> fetched[0] == startUrl)
    && Frontier(discovered, queue, slots, fetched, order)
    && saved == StoredRows(env, fetched) && processed == |saved| && (processed <= maxPages || processed == 0)
    && (forall k | 0 <= k < |fetched| :: |StoredRows(env, fetched[..k])| < maxPages)
  }

  /** The state before the first round. */
  lemma TrainStart(env: Env, startUrl: string, domain: string, cap: nat, maxPages: int)
    ensures TrainState(env, startUrl, domain, cap, maxPages, [startUrl], {}, [Item(startUrl, 0)], 0, [], [], [0], [])
  {
    assert QueueUrls([Item(startUrl, 0)]) == [startUrl];
  }

  /** The requested pages are discovered, so there are no more of them, and requested once each. */
  lemma TrainStateFetched(env: Env, startUrl: string, domain: string, cap: nat, maxPages: int,
                          discovered: seq<string>, visited: set<string>, queue: seq<Item>,
                          processed: nat, saved: seq<Stored>, fetched: seq<string>,
                          slots: seq<nat>, order: seq<nat>)
    requires TrainState(env, startUrl, domain, cap, maxPages, discovered, visited, queue, processed, saved, fetched, slots, order)
    ensures Distinct(fetched) && (forall u | u in fetched :: u in discovered) && |visited| <= |discovered|
  {
    FrontierDone(discovered, queue, slots, fetched, order);
    PicksDistinct(discovered, order, fetched);
    VisitedWithin(visited, fetched, discovered);
  }

  /** The links a page requested at `item` has the handler enqueue once `stored` pages are stored:
      those of a crawled page whose depth is below 3 while fewer than `maxPages` pages are stored, and none
      otherwise. */
  function EnqueuedLinks(env: Env, domain: string, item: Item, stored: nat, maxPages: int): (r: seq<string>)
    ensures r == [] || item.depth < TRAIN_MAX_DEPTH
    ensures forall n | n in r :: TrainLinkOk(env, domain, n)
  {
    var c := CrawlPageSpec(env, item.url, domain);
    if c.Some? && item.depth < TRAIN_MAX_DEPTH && stored < maxPages then
      CrawlPageLinksOk(env, item.url, domain);
      c.value.links
    else []
  }

  /** The links of a crawled page all pass the test. */
  lemma CrawlPageLinksOk(env: Env, url: string, domain: string)
    requires CrawlPageSpec(env, url, domain).Some?
    ensures forall n | n in CrawlPageSpec(env, url, domain).value.links :: TrainLinkOk(env, domain, n)
  {
    var anchors := HtmlPage(env, url).value.anchors.value;
    forall n | n in CrawlPageSpec(env, url, domain).value.links ensures TrainLinkOk(env, domain, n) {
      CrawlPageLinksMember(env, url, domain, n);
      var i :| 0 <= i < |anchors| && TrainLinkOf(env, url, domain, anchors[i]) == Some(n);
    }
  }

  /** One round of the loop: the front of the queue is taken off and, unless it was visited or is
      more than three levels deep, marked visited and crawled; a page with more than 50 words is
      stored, and while fewer than `maxPages` pages are stored the links of a page whose depth is below 3 are
      enqueued. */
  method TrainRound(env: Env, ghost startUrl: string, domain: string, cap: nat, maxPages: int,
                    discovered: seq<string>, visited: set<string>, queue: seq<Item>,
                    processed: nat, saved: seq<Stored>, ghost fetched: seq<string>,
                    ghost slots: seq<nat>, ghost order: seq<nat>)
      returns (discovered': seq<string>, visited': set<string>, queue': seq<Item>,
               processed': nat, saved': seq<Stored>, ghost fetched': seq<string>,
               ghost slots': seq<nat>, ghost order': seq<nat>)
    requires TrainState(env, startUrl, domain, cap, maxPages, discovered, visited, queue, processed, saved, fetched, slots, order)
    requires |queue| > 0 && processed < maxPages && cap as int == maxPages
    ensures TrainState(env, startUrl, domain, cap, maxPages, discovered', visited', queue', processed', saved', fetched', slots', order')
    ensures |visited| < |visited'| || (visited' == visited && |queue'| < |queue|)
    ensures visited <= visited' && |visited'| <= |visited| + 1 && discovered <= discovered'
    ensures var item := queue[0];
      if item.url in visited || item.depth > TRAIN_MAX_DEPTH then
        discovered' == discovered && visited' == visited && queue' == queue[1..] && saved' == saved && fetched' == fetched
      else
        && visited' == visited + {item.url} && fetched' == fetched + [item.url]
        && saved' == saved + StoredRow(env, item.url)
        && discovered' == InsertCapped(discovered, EnqueuedLinks(env, domain, item, |saved'|, maxPages), cap)
        && queue' == queue[1..] + Pushed(discovered'[|discovered|..], item.depth)
  {
    var item := queue[0];
    if item.url in visited || item.depth > TRAIN_MAX_DEPTH {
      TrainSkipped(env, startUrl, domain, cap, maxPages, discovered, visited, queue, processed, saved, fetched, slots, order);
      return discovered, visited, queue[1..], processed, saved, fetched, slots[1..], order;
    }
    visited', fetched' := visited + {item.url}, fetched + [item.url];
    discovered', queue', processed', saved' := CrawlItem(env, domain, cap, maxPages, item, discovered, queue[1..], processed, saved);
    ghost var links := EnqueuedLinks(env, domain, item, processed', maxPages);
    TrainVisited(env, startUrl, domain, cap, maxPages, discovered, visited, queue, processed, saved, fetched, slots, order, links);
    slots', order' := slots[1..] + NewSlots(|discovered|, discovered'[|discovered|..], item.depth), order + [slots[0]];
  }

  /** The visiting half of a round once `item` is marked visited: `crawlPage`, the upsert of a page
      with more than 50 words, and the enqueueing of its links. */
  method CrawlItem(env: Env, domain: string, cap: nat, maxPages: int, item: Item,
                   discovered: seq<string>, queue: seq<Item>, processed: nat, saved: seq<Stored>)
      returns (discovered': seq<string>, queue': seq<Item>, processed': nat, saved': seq<Stored>)
    ensures saved' == saved + StoredRow(env, item.url) && processed' == processed + |StoredRow(env, item.url)|
    ensures discovered <= discovered'
    ensures discovered' == InsertCapped(discovered, EnqueuedLinks(env, domain, item, processed', maxPages), cap)
    ensures queue' == queue + Pushed(discovered'[|discovered|..], item.depth)
  {
    discovered', queue', processed', saved' := discovered, queue, processed, saved;
    var result := CrawlPage(env, item.url, domain);
    if result.None? {
      return;
    }
    var x := ExtractTextContent(result.value.page);
    if x.wordCount > MIN_WORDS {
      saved' := saved + [Stored(item.url, x.title, x.content, x.wordCount)];
      processed' := processed + 1;
    }
    if item.depth < TRAIN_MAX_DEPTH && processed' < maxPages {
      discovered', queue' := Enqueue(result.value.links, item.depth, cap, discovered, queue);
    }
  }

  /** Dropping the front of the queue keeps the state. */
  lemma TrainSkipped(env: Env, startUrl: string, domain: string, cap: nat, maxPages: int,
                     discovered: seq<string>, visited: set<string>, queue: seq<Item>,
                     processed: nat, saved: seq<Stored>, fetched: seq<string>,
                     slots: seq<nat>, order: seq<nat>)
    requires TrainState(env, startUrl, domain, cap, maxPages, discovered, visited, queue, processed, saved, fetched, slots, order)
    requires |queue| > 0 && (queue[0].url in visited || queue[0].depth > TRAIN_MAX_DEPTH)
    ensures |slots| > 0
    ensures TrainState(env, startUrl, domain, cap, maxPages, discovered, visited, queue[1..], processed, saved, fetched, slots[1..], order)
  {
    FrontierSkip(discovered, queue, slots, fetched, order);
    QueueUrlsPop(queue);
    assert |fetched| > 0;
  }

  /** Requesting the front of the queue, storing its row if it yields one, and discovering `links`
      (none for a page at depth 3) keeps the state. */
  lemma TrainVisited(env: Env, startUrl: string, domain: string, cap: nat, maxPages: int,
                     discovered: seq<string>, visited: set<string>, queue: seq<Item>,
                     processed: nat, saved: seq<Stored>, fetched: seq<string>,
                     slots: seq<nat>, order: seq<nat>, links: seq<string>)
    requires TrainState(env, startUrl, domain, cap, maxPages, discovered, visited, queue, processed, saved, fetched, slots, order)
    requires |queue| > 0 && queue[0].url !in visited && queue[0].depth <= TRAIN_MAX_DEPTH && processed < maxPages
    requires links == [] || queue[0].depth < TRAIN_MAX_DEPTH
    requires forall n | n in links :: TrainLinkOk(env, domain, n)
    ensures |slots| > 0 && |visited + {queue[0].url}| == |visited| + 1
    ensures discovered <= InsertCapped(discovered, links, cap)
    ensures var url, depth, row := queue[0].url, queue[0].depth, StoredRow(env, queue[0].url);
      var d := InsertCapped(discovered, links, cap);
      var ns := d[|discovered|..];
      TrainState(env, startUrl, domain, cap, maxPages, d, visited + {url}, queue[1..] + Pushed(ns, depth),
                 processed + |row|, saved + row, fetched + [url],
                 slots[1..] + NewSlots(|discovered|, ns, depth), order + [slots[0]])
  {
    var url, depth, row := queue[0].url, queue[0].depth, StoredRow(env, queue[0].url);
    assert url !in fetched;
    FrontierVisit(discovered, queue, slots, fetched, order);
    InsertCappedFacts(discovered, links, cap);
    var d := InsertCapped(discovered, links, cap);
    var ns := d[|discovered|..];
    assert d == discovered + ns;
    assert links == [] ==> ns == [];
    FrontierDiscover(discovered, queue[1..], slots[1..], fetched + [url], order + [slots[0]], ns, depth);
    TrainVisitedSets(env, startUrl, domain, cap, discovered, queue, fetched, links, d);
    StoredRowsSnoc(env, fetched, url);
    BudgetSnoc(env, fetched, url, maxPages);
  }

  /** A request made while fewer than `maxPages` rows are stored keeps every request within the
      budget. */
  lemma BudgetSnoc(env: Env, fetched: seq<string>, url: string, maxPages: int)
    requires forall k | 0 <= k < |fetched| :: |StoredRows(env, fetched[..k])| < maxPages
    requires |StoredRows(env, fetched)| < maxPages
    ensures forall k | 0 <= k < |fetched + [url]| :: |StoredRows(env, (fetched + [url])[..k])| < maxPages
  {
    var f := fetched + [url];
    forall k | 0 <= k < |f| ensures |StoredRows(env, f[..k])| < maxPages {
      if k < |fetched| {
        assert f[..k] == fetched[..k];
      } else {
        assert f[..k] == fetched;
      }
    }
  }

  /** The set and queue half of a visit: the new URLs pass the test, the queue stays within depth
      3, and every discovered URL is requested or queued. */
  lemma TrainVisitedSets(env: Env, startUrl: string, domain: string, cap: nat,
                         discovered: seq<string>, queue: seq<Item>, fetched: seq<string>,
                         links: seq<string>, d: seq<string>)
    requires |queue| > 0 && queue[0].depth <= TRAIN_MAX_DEPTH
    requires forall i | 0 <= i < |queue| :: queue[i].depth <= TRAIN_MAX_DEPTH
    requires forall u | u in discovered :: u in fetched || u in QueueUrls(queue)
    requires forall k | 1 <= k < |discovered| :: TrainLinkOk(env, domain, discovered[k])
    requires links == [] || queue[0].depth < TRAIN_MAX_DEPTH
    requires forall n | n in links :: TrainLinkOk(env, domain, n)
    requires d == InsertCapped(discovered, links, cap) && discovered <= d
    requires forall k | |discovered| <= k < |d| :: d[k] in links
    ensures var ns, depth := d[|discovered|..], queue[0].depth;
      var q := queue[1..] + Pushed(ns, depth);
      && (forall k | 1 <= k < |d| :: TrainLinkOk(env, domain, d[k]))
      && (forall i | 0 <= i < |q| :: q[i].depth <= TRAIN_MAX_DEPTH)
      && (forall u | u in d :: u in fetched + [queue[0].url] || u in QueueUrls(q))
  {
    var ns, depth := d[|discovered|..], queue[0].depth;
    var q := queue[1..] + Pushed(ns, depth);
    assert links == [] ==> ns == [];
    QueueUrlsPop(queue);
    QueueUrlsPush(queue[1..], ns, depth);
    assert QueueUrls(q) == QueueUrls(queue[1..]) + ns;
    forall k | 1 <= k < |d| ensures TrainLinkOk(env, domain, d[k]) {
      if k >= |discovered| {
        assert d[k] in links;
      }
    }
    forall i | 0 <= i < |q| ensures q[i].depth <= TRAIN_MAX_DEPTH {
      if i >= |queue| - 1 {
        assert q[i] == Item(ns[i - (|queue| - 1)], depth + 1);
      }
    }
    forall u | u in d ensures u in fetched + [queue[0].url] || u in QueueUrls(q) {
      if u !in discovered {
        var k :| 0 <= k < |d| && d[k] == u;
        assert ns[k - |discovered|] == u;
      }
    }
  }

  /** The outcome of a run: the stored rows and, as the response says, their number. */
  datatype Run = Run(pagesCrawled: nat, saved: seq<Stored>)

  /** The crawl loop of the handler from `startUrl` on `domain` with the page budget `maxPages`;
      `seen` is its final set of discovered URLs, and `order` their positions it requested. */
  method TrainLoop(env: Env, startUrl: string, domain: string, maxPages: int)
      returns (saved: seq<Stored>, ghost seen: seq<string>, ghost fetched: seq<string>, ghost order: seq<nat>)
    ensures TrainOutcome(env, startUrl, domain, maxPages, seen, saved, fetched, order)
  {
    var cap: nat := if maxPages < 0 then 0 else maxPages;
    var discovered := [startUrl];
    var visited: set<string> := {};
    var queue := [Item(startUrl, 0)];
    var processed: nat := 0;
    saved, fetched, order := [], [], [];
    ghost var slots: seq<nat> := [0];
    TrainStart(env, startUrl, domain, cap, maxPages);
    while |queue| > 0 && processed < maxPages
      invariant TrainState(env, startUrl, domain, cap, maxPages, discovered, visited, queue, processed, saved, fetched, slots, order)
      decreases (if cap == 0 then 1 else cap) - |visited|, |queue|
    {
      TrainStateFetched(env, startUrl, domain, cap, maxPages, discovered, visited, queue, processed, saved, fetched, slots, order);
      discovered, visited, queue, processed, saved, fetched, slots, order :=
        TrainRound(env, startUrl, domain, cap, maxPages, discovered, visited, queue, processed, saved, fetched, slots, order);
      TrainStateFetched(env, startUrl, domain, cap, maxPages, discovered, visited, queue, processed, saved, fetched, slots, order);
    }
    TrainStateOutcome(env, startUrl, domain, cap, maxPages, discovered, visited, queue, processed, saved, fetched, slots, order);
    seen := discovered;
  }

  /** The visited pages are among the discovered ones, so there are no more of them. */
  lemma VisitedWithin(visited: set<string>, fetched: seq<string>, discovered: seq<string>)
    requires forall u :: u in visited <==> u in fetched
    requires forall u | u in fetched :: u in discovered
    ensures |visited| <= |discovered|
  {
    var all := set x | x in discovered;
    SetOfSeqSize(discovered);
    assert |visited| <= |all| by { SubsetSize(visited, all); }
  }

  /** What a run of the training crawl promises:
      - the rows are exactly those the requests yield, in request order, so at most `maxPages`
        (none for a budget below one), and no page is requested once `maxPages` rows are stored;
      - the discovered set is duplicate-free, starts with `startUrl`, holds at most `maxPages` URLs
        (the start URL aside) and otherwise links that pass the test;
      - the pages requested are discovered URLs taken in discovery order, the start URL first when
        the budget allows any request;
      - unless the budget ran out, every discovered URL was requested. */
  ghost predicate TrainOutcome(env: Env, startUrl: string, domain: string, maxPages: int,
                               seen: seq<string>, saved: seq<Stored>, fetched: seq<string>, order: seq<nat>) {
    && saved == StoredRows(env, fetched)
    && (|saved| <= maxPages || saved == [])
    && (forall k | 0 <= k < |fetched| :: |StoredRows(env, fetched[..k])| < maxPages)
    && Distinct(seen) && 1 <= |seen| && seen[0] == startUrl && (|seen| <= maxPages || |seen| == 1)
    && (forall k | 1 <= k < |seen| :: TrainLinkOk(env, domain, seen[k]))
    && Picks(seen, order, fetched) && Increasing(order)
    && (maxPages > 0 ==> |fetched| > 0 && fetched[0] == startUrl)
    && (|saved| < maxPages ==> forall u | u in seen :: u in fetched)
  }

  /** The loop invariant at the loop's exit gives the outcome. */
  lemma TrainStateOutcome(env: Env, startUrl: string, domain: string, cap: nat, maxPages: int,
                          discovered: seq<string>, visited: set<string>, queue: seq<Item>,
                          processed: nat, saved: seq<Stored>, fetched: seq<string>,
                          slots: seq<nat>, order: seq<nat>)
    requires TrainState(env, startUrl, domain, cap, maxPages, discovered, visited, queue, processed, saved, fetched, slots, order)
    requires cap == if maxPages < 0 then 0 else maxPages
    requires !(|queue| > 0 && processed < maxPages)
    ensures TrainOutcome(env, startUrl, domain, maxPages, discovered, saved, fetched, order)
  {
    FrontierDone(discovered, queue, slots, fetched, order);
  }

  /** What the outcome gives about the rows and requests: pages are requested once each and every
      one but the start URL passes the link test; each row is the text of a requested page with
      more than 50 words, and no page is stored twice. */
  lemma TrainOutcomeRows(env: Env, startUrl: string, domain: string, maxPages: int,
                         seen: seq<string>, saved: seq<Stored>, fetched: seq<string>, order: seq<nat>)
    requires TrainOutcome(env, startUrl, domain, maxPages, seen, saved, fetched, order)
    ensures Distinct(fetched) && forall u | u in fetched && u != startUrl :: TrainLinkOk(env, domain, u)
    ensures Distinct(StoredUrls(saved))
    ensures forall j | 0 <= j < |saved| :: StoredFrom(env, fetched, saved[j])
  {
    PicksDistinct(seen, order, fetched);
    StoredRowsFacts(env, fetched);
    forall u | u in fetched && u != startUrl ensures TrainLinkOk(env, domain, u) {
      var k :| 0 <= k < |fetched| && fetched[k] == u;
      assert seen[order[k]] == u;
    }
  }

  /** The handler from `const startUrl = project.website_url`: a start URL that does not parse
      throws, and the handler answers with an error; otherwise the crawl runs on the start URL's
      host and the response reports the number of stored pages. */
  method CrawlAndTrain(env: Env, startUrl: string, setting: Option<int>)
      returns (r: Result<Run>, ghost seen: seq<string>, ghost fetched: seq<string>, ghost order: seq<nat>)
    ensures env.parse(startUrl).None? <==> r.Failure?
    ensures r.Success? ==>
      && r.value.pagesCrawled == |r.value.saved|
      && TrainOutcome(env, startUrl, env.parse(startUrl).value.hostname, MaxPages(setting), seen, r.value.saved, fetched, order)
  {
    if env.parse(startUrl).None? {
      return Failure("Invalid URL"), [], [], [];
    }
    var domain := env.parse(startUrl).value.hostname;
    var saved;
    saved, seen, fetched, order := TrainLoop(env, startUrl, domain, MaxPages(setting));
    return Success(Run(|saved|, saved)), seen, fetched, order;
  }
}

=== FILE: crawl_events.dfy ===
/** What the two discovery crawlers share: the crawl budgets, the `(url, depth)` queue item, the
    events they report (yielded by the server, posted by the worker), and the discovery step that
    both run for each link of a fetched page. */
module CrawlEvents {
  import opened Text
  import opened Seqs
  import opened Web

  const MAX_DEPTH: nat := 6
  const MAX_URLS: nat := 1000

  /** An entry of the FIFO queue. */
  datatype Item = Item(url: string, depth: nat)

  /** One event of the stream: `{type: 'log', message}`, `{type: 'urls', urls, complete}`,
      `{type: 'progress', discovered, visited, queued, eta}` or `{type: 'error', message}`. */
  datatype Event =
    | Log(message: string)
    | Urls(urls: seq<string>, complete: bool)
    | Progress(discovered: nat, visited: nat, queued: nat, eta: nat)
    | Error(message: string)

  /** The log line for a newly discovered link; `path === '/' ? '/' : path` is just the path. */
  function DiscoveredLog(env: Env, link: string): Event {
    Log("Discovered \U{2192} " + PathOf(env, link))
  }

  /** The queue entries pushed for the links `ns` found at `depth`: one per link, one level deeper,
      and none at all once `depth` has reached `MAX_DEPTH`. */
  function Pushed(ns: seq<string>, depth: nat): (r: seq<Item>)
    ensures |r| == if depth < MAX_DEPTH then |ns| else 0
    ensures forall k | 0 <= k < |r| :: r[k] == Item(ns[k], depth + 1) && r[k].depth <= MAX_DEPTH
  {
    if depth < MAX_DEPTH then seq(|ns|, k requires 0 <= k < |ns| => Item(ns[k], depth + 1)) else []
  }

  /** The URLs waiting in the queue, front first. */
  function QueueUrls(q: seq<Item>): (r: seq<string>)
    ensures |r| == |q| && forall k | 0 <= k < |q| :: r[k] == q[k].url
  {
    seq(|q|, k requires 0 <= k < |q| => q[k].url)
  }

  /** Taking the front item off the queue. */
  lemma QueueUrlsPop(q: seq<Item>)
    requires |q| > 0
    ensures QueueUrls(q) == [q[0].url] + QueueUrls(q[1..])
  {
  }

  /** Queueing the links `ns` of a page fetched at `depth`. */
  lemma QueueUrlsPush(q: seq<Item>, ns: seq<string>, depth: nat)
    ensures QueueUrls(q + Pushed(ns, depth)) == QueueUrls(q) + if depth < MAX_DEPTH then ns else []
  {
  }

  /** The events of the discovery step that added the links `ns` to the set `d`, in order: for each
      new link a log line, then a snapshot of the whole set so far. */
  function DiscoveryEvents(env: Env, d: seq<string>, ns: seq<string>): (r: seq<Event>)
    ensures |r| == 2 * |ns|
  {
    if ns == [] then []
    else
      DiscoveryEvents(env, d, ns[..|ns| - 1]) + [DiscoveredLog(env, ns[|ns| - 1]), Urls(d + ns, false)]
  }

  /** Queueing one more link behind the queue `q`. */
  lemma PushedSnoc(q: seq<Item>, ns: seq<string>, link: string, depth: nat)
    ensures q + Pushed(ns + [link], depth) ==
      q + Pushed(ns, depth) + if depth < MAX_DEPTH then [Item(link, depth + 1)] else []
  {
    if depth < MAX_DEPTH {
      assert Pushed(ns + [link], depth) == Pushed(ns, depth) + [Item(link, depth + 1)];
    }
  }

  /** Discovering one more link after the events `e`. */
  lemma DiscoveryEventsSnoc(env: Env, e: seq<Event>, d: seq<string>, ns: seq<string>, link: string)
    ensures e + DiscoveryEvents(env, d, ns + [link]) ==
      e + DiscoveryEvents(env, d, ns) + [DiscoveredLog(env, link)] + [Urls(d + ns + [link], false)]
  {
    assert (ns + [link])[..|ns|] == ns;
    assert d + (ns + [link]) == d + ns + [link];
  }

  /** Discovering one more link: the set, the queue and the stream each grow at their end. */
  lemma DiscoverOne(env: Env, d: seq<string>, ns: seq<string>, q: seq<Item>, e: seq<Event>, link: string, depth: nat)
    ensures d + (ns + [link]) == d + ns + [link]
    ensures q + Pushed(ns + [link], depth) ==
      q + Pushed(ns, depth) + if depth < MAX_DEPTH then [Item(link, depth + 1)] else []
    ensures e + DiscoveryEvents(env, d, ns + [link]) ==
      e + DiscoveryEvents(env, d, ns) + [DiscoveredLog(env, link)] + [Urls(d + ns + [link], false)]
  {
    PushedSnoc(q, ns, link, depth);
    DiscoveryEventsSnoc(env, e, d, ns, link);
  }

  /** The discovery step of the crawl loop for the links of a page fetched at `depth`: each link
      not yet discovered is added while the set holds fewer than `MAX_URLS`, logged, queued one
      level deeper unless `depth` is `MAX_DEPTH`, and followed by a snapshot of the set. */
  method ProcessLinks(env: Env, links: seq<string>, depth: nat, discovered: seq<string>, queue: seq<Item>, events: seq<Event>)
      returns (discovered': seq<string>, queue': seq<Item>, events': seq<Event>)
    ensures discovered <= discovered' && discovered' == InsertCapped(discovered, links, MAX_URLS)
    ensures queue' == queue + Pushed(discovered'[|discovered|..], depth)
    ensures events' == events + DiscoveryEvents(env, discovered, discovered'[|discovered|..])
  {
    discovered', queue', events' := discovered, queue, events;
    ghost var ns: seq<string> := [];
    for i := 0 to |links|
      invariant discovered' == discovered + ns
      invariant discovered' == InsertCapped(discovered, links[..i], MAX_URLS)
      invariant queue' == queue + Pushed(ns, depth)
      invariant events' == events + DiscoveryEvents(env, discovered, ns)
    {
      InsertCappedSnoc(discovered, links, i, MAX_URLS);
      var link := links[i];
      if link !in discovered' && |discovered'| < MAX_URLS {
        DiscoverOne(env, discovered, ns, queue, events, link, depth);
        discovered' := discovered' + [link];
        events' := events' + [DiscoveredLog(env, link)];
        if depth < MAX_DEPTH {
          queue' := queue' + [Item(link, depth + 1)];
        }
        events' := events' + [Urls(discovered', false)];
        ns := ns + [link];
      }
    }
    assert links[..|links|] == links;
    assert ns == discovered'[|discovered|..];
  }

  /** No event of the stream is an error. */
  predicate NoErrors(events: seq<Event>) {
    forall i | 0 <= i < |events| :: !events[i].Error?
  }

  /** When events `i` and `j` are both `urls` snapshots, the later one extends the earlier one. */
  predicate Extends(events: seq<Event>, i: int, j: int) {
    0 <= i < j < |events| && events[i].Urls? && events[j].Urls? ==> events[i].urls <= events[j].urls
  }

  /** Each `urls` snapshot extends every earlier one. */
  predicate SnapshotsGrow(events: seq<Event>) {
    forall i, j | 0 <= i < j < |events| :: Extends(events, i, j)
  }

  /** A crawl in progress whose insertion-ordered set is `d`: no error, growing snapshots, each a
      prefix of `d`, none marked complete. */
  predicate Ongoing(events: seq<Event>, d: seq<string>) {
    && NoErrors(events)
    && SnapshotsGrow(events)
    && forall i | 0 <= i < |events| && events[i].Urls? :: events[i].urls <= d && !events[i].complete
  }

  /** A finished crawl whose final set is `d`: an ongoing stream, then the one snapshot of `d` marked
      complete, then a closing log line. */
  predicate Completed(events: seq<Event>, d: seq<string>) {
    && |events| >= 2
    && Ongoing(events[..|events| - 2], d)
    && events[|events| - 2] == Urls(d, true)
    && events[|events| - 1].Log?
  }

  /** How many `progress` events the stream holds. */
  function CountProgress(events: seq<Event>): nat {
    if events == [] then 0
    else CountProgress(events[..|events| - 1]) + (if events[|events| - 1].Progress? then 1 else 0)
  }

  /** Appending one event: the count grows by one exactly for a `progress` event. */
  lemma CountProgressSnoc(events: seq<Event>, e: Event)
    ensures CountProgress(events + [e]) == CountProgress(events) + (if e.Progress? then 1 else 0)
  {
    assert (events + [e])[..|events|] == events;
  }

  /** A stream of log lines holds no `progress` event. */
  lemma {:induction false} CountProgressLogs(events: seq<Event>)
    requires forall i | 0 <= i < |events| :: events[i].Log?
    ensures CountProgress(events) == 0
  {
    if events != [] {
      CountProgressLogs(events[..|events| - 1]);
    }
  }

  /** Counting distributes over concatenation. */
  lemma {:induction false} CountProgressAppend(a: seq<Event>, b: seq<Event>)
    ensures CountProgress(a + b) == CountProgress(a) + CountProgress(b)
  {
    if b == [] {
      assert a + b == a;
    } else {
      var b' := b[..|b| - 1];
      CountProgressAppend(a, b');
      assert (a + b)[..|a + b| - 1] == a + b';
      assert (a + b)[|a + b| - 1] == b[|b| - 1];
    }
  }

  /** A log line or a progress event keeps a crawl ongoing, and the set may have grown meanwhile. */
  lemma OngoingQuiet(events: seq<Event>, d: seq<string>, d': seq<string>, e: Event)
    requires Ongoing(events, d) && d <= d'
    requires e.Log? || e.Progress?
    ensures Ongoing(events + [e], d')
  {
    forall i, j | 0 <= i < j < |events + [e]| ensures Extends(events + [e], i, j) {
      if j < |events| {
        assert Extends(events, i, j);
      }
    }
  }

  /** A snapshot of a grown set keeps a crawl ongoing. */
  lemma OngoingSnapshot(events: seq<Event>, d: seq<string>, d': seq<string>)
    requires Ongoing(events, d) && d <= d'
    ensures Ongoing(events + [Urls(d', false)], d')
  {
    forall i, j | 0 <= i < j < |events| + 1 ensures Extends(events + [Urls(d', false)], i, j) {
      if j < |events| {
        assert Extends(events, i, j);
      }
    }
  }

  /** The discovery step keeps a crawl ongoing, with the new links appended to its set, and adds no
      `progress` event. */
  lemma {:induction false} OngoingDiscovery(env: Env, events: seq<Event>, d: seq<string>, ns: seq<string>)
    requires Ongoing(events, d)
    ensures Ongoing(events + DiscoveryEvents(env, d, ns), d + ns)
    ensures CountProgress(events + DiscoveryEvents(env, d, ns)) == CountProgress(events)
  {
    if ns == [] {
      assert events + DiscoveryEvents(env, d, ns) == events;
      assert d + ns == d;
    } else {
      var ns' := ns[..|ns| - 1];
      var pre := events + DiscoveryEvents(env, d, ns');
      OngoingDiscovery(env, events, d, ns');
      assert d + ns' <= d + ns;
      OngoingQuiet(pre, d + ns', d + ns, DiscoveredLog(env, ns[|ns| - 1]));
      OngoingSnapshot(pre + [DiscoveredLog(env, ns[|ns| - 1])], d + ns, d + ns);
      assert events + DiscoveryEvents(env, d, ns) == pre + [DiscoveredLog(env, ns[|ns| - 1])] + [Urls(d + ns, false)];
      CountProgressSnoc(pre, DiscoveredLog(env, ns[|ns| - 1]));
      CountProgressSnoc(pre + [DiscoveredLog(env, ns[|ns| - 1])], Urls(d + ns, false));
    }
  }

  /** Closing an ongoing crawl with the complete snapshot and a log line completes it. */
  lemma Complete(events: seq<Event>, d: seq<string>, message: string)
    requires Ongoing(events, d)
    ensures Completed(events + [Urls(d, true), Log(message)], d)
    ensures CountProgress(events + [Urls(d, true), Log(message)]) == CountProgress(events)
  {
    var e := events + [Urls(d, true), Log(message)];
    assert e[..|e| - 2] == events;
    CountProgressSnoc(events, Urls(d, true));
    CountProgressSnoc(events + [Urls(d, true)], Log(message));
    assert events + [Urls(d, true)] + [Log(message)] == e;
  }

  /** What a completed stream guarantees: no error, every snapshot extends the earlier ones and is a
      prefix of the final set, and exactly one snapshot — the last but one event — is complete. */
  lemma CompletedFacts(events: seq<Event>, d: seq<string>)
    requires Completed(events, d)
    ensures NoErrors(events)
    ensures SnapshotsGrow(events)
    ensures forall i | 0 <= i < |events| && events[i].Urls? :: events[i].urls <= d
    ensures forall i | 0 <= i < |events| && events[i].Urls? && events[i].complete :: i == |events| - 2
  {
    var n := |events| - 2;
    assert forall i | 0 <= i < n :: events[..n][i] == events[i];
    forall i, j | 0 <= i < j < |events| ensures Extends(events, i, j) {
      if j < n {
        assert Extends(events[..n], i, j);
      }
    }
  }

  /** Log lines emitted before a completed stream leave it completed and add no progress. */
  lemma CompletedAfterLogs(pre: seq<Event>, events: seq<Event>, d: seq<string>)
    requires forall i | 0 <= i < |pre| :: pre[i].Log?
    requires Completed(events, d)
    ensures Completed(pre + events, d)
    ensures CountProgress(pre + events) == CountProgress(events)
  {
    var n := |events| - 2;
    var all := pre + events;
    assert all[..|all| - 2] == pre + events[..n];
    assert forall i | 0 <= i < |pre| + n :: all[i] == if i < |pre| then pre[i] else events[..n][i - |pre|];
    forall i, j | 0 <= i < j < |pre| + n ensures Extends(pre + events[..n], i, j) {
      if i >= |pre| {
        assert Extends(events[..n], i - |pre|, j - |pre|);
      }
    }
    CountProgressLogs(pre);
    CountProgressAppend(pre, events);
  }

  /** The crawl's bookkeeping of positions: `order` holds the positions in `discovered` of the
      pages `fetched` so far and `slots` those of the URLs still queued, together increasing. */
  ghost predicate Frontier(discovered: seq<string>, queue: seq<Item>, slots: seq<nat>, fetched: seq<string>, order: seq<nat>) {
    |order| == |fetched| && Picks(discovered, order + slots, fetched + QueueUrls(queue)) && Increasing(order + slots)
  }

  /** Dropping the front of the queue unvisited. */
  lemma FrontierSkip(discovered: seq<string>, queue: seq<Item>, slots: seq<nat>, fetched: seq<string>, order: seq<nat>)
    requires Frontier(discovered, queue, slots, fetched, order) && |queue| > 0
    ensures |slots| > 0 && Frontier(discovered, queue[1..], slots[1..], fetched, order)
  {
    QueueUrlsPop(queue);
    PicksDrop(discovered, order, slots, fetched, QueueUrls(queue));
  }

  /** Taking the front of the queue to fetch it. */
  lemma FrontierVisit(discovered: seq<string>, queue: seq<Item>, slots: seq<nat>, fetched: seq<string>, order: seq<nat>)
    requires Frontier(discovered, queue, slots, fetched, order) && |queue| > 0
    ensures |slots| > 0 && Frontier(discovered, queue[1..], slots[1..], fetched + [queue[0].url], order + [slots[0]])
  {
    QueueUrlsPop(queue);
    PicksMove(discovered, order, slots, fetched, QueueUrls(queue));
  }

  /** The positions of the links `ns` a page at `depth` adds: queued exactly when they are. */
  function NewSlots(before: nat, ns: seq<string>, depth: nat): seq<nat> {
    if depth < MAX_DEPTH then Range(before, before + |ns|) else []
  }

  /** Discovering the links `ns` of a page fetched at `depth`. */
  lemma FrontierDiscover(discovered: seq<string>, queue: seq<Item>, slots: seq<nat>, fetched: seq<string>, order: seq<nat>, ns: seq<string>, depth: nat)
    requires Frontier(discovered, queue, slots, fetched, order)
    ensures Frontier(discovered + ns, queue + Pushed(ns, depth), slots + NewSlots(|discovered|, ns, depth), fetched, order)
  {
    QueueUrlsPush(queue, ns, depth);
    var r := NewSlots(|discovered|, ns, depth);
    if depth < MAX_DEPTH {
      PicksExtend(discovered, order + slots, fetched + QueueUrls(queue), ns);
      assert order + (slots + r) == order + slots + r;
      assert fetched + QueueUrls(queue + Pushed(ns, depth)) == fetched + QueueUrls(queue) + ns;
    } else {
      PicksGrow(discovered, ns, order + slots, fetched + QueueUrls(queue));
      assert slots + r == slots;
      assert queue + Pushed(ns, depth) == queue;
    }
  }

  /** What the bookkeeping gives once the crawl stops: `fetched` is picked from `discovered` at
      increasing positions. */
  lemma FrontierDone(discovered: seq<string>, queue: seq<Item>, slots: seq<nat>, fetched: seq<string>, order: seq<nat>)
    requires Frontier(discovered, queue, slots, fetched, order)
    ensures Picks(discovered, order, fetched) && Increasing(order)
  {
    PicksPrefix(discovered, order, slots, fetched, QueueUrls(queue));
  }

  /** The discovery step for the links of a page: the set grows by some of them, stays
      duplicate-free and within `MAX_URLS`, and the stream stays ongoing without a new `progress`. */
  lemma DiscoveryStep(env: Env, links: seq<string>, discovered: seq<string>, events: seq<Event>)
    requires Ongoing(events, discovered) && Distinct(discovered) && |discovered| <= MAX_URLS
    ensures var d := InsertCapped(discovered, links, MAX_URLS);
      && discovered <= d && Distinct(d) && |d| <= MAX_URLS
      && (forall k | |discovered| <= k < |d| :: d[k] in links)
      && var e := events + DiscoveryEvents(env, discovered, d[|discovered|..]);
      && Ongoing(e, d) && CountProgress(e) == CountProgress(events)
  {
    var d := InsertCapped(discovered, links, MAX_URLS);
    InsertCappedFacts(discovered, links, MAX_URLS);
    var ns := d[|discovered|..];
    assert d == discovered + ns;
    OngoingDiscovery(env, events, discovered, ns);
  }

  /** The discovery step together with the bookkeeping, for links that all pass the test `ok`: the
      new links pass it too, and they take their positions in the bookkeeping. */
  lemma DiscoveryStepFrontier(env: Env, ok: string -> bool, links: seq<string>, depth: nat,
                              discovered: seq<string>, queue: seq<Item>, events: seq<Event>,
                              slots: seq<nat>, fetched: seq<string>, order: seq<nat>)
    requires Ongoing(events, discovered) && Distinct(discovered) && |discovered| <= MAX_URLS
    requires Frontier(discovered, queue, slots, fetched, order)
    requires forall n | n in links :: ok(n)
    ensures var d := InsertCapped(discovered, links, MAX_URLS);
      && discovered <= d && Distinct(d) && |d| <= MAX_URLS
      && (forall k | |discovered| <= k < |d| :: ok(d[k]))
      && var ns := d[|discovered|..];
      && Frontier(d, queue + Pushed(ns, depth), slots + NewSlots(|discovered|, ns, depth), fetched, order)
      && Ongoing(events + DiscoveryEvents(env, discovered, ns), d)
      && CountProgress(events + DiscoveryEvents(env, discovered, ns)) == CountProgress(events)
  {
    DiscoveryStep(env, links, discovered, events);
    var d := InsertCapped(discovered, links, MAX_URLS);
    var ns := d[|discovered|..];
    assert d == discovered + ns;
    FrontierDiscover(discovered, queue, slots, fetched, order, ns, depth);
  }

  /** Every link that `found` says page `u` can yield, for every fetched page `u`, is discovered,
      unless the set has reached `MAX_URLS`. */
  ghost predicate Covered(found: string -> seq<string>, discovered: seq<string>, fetched: seq<string>) {
    |discovered| >= MAX_URLS || forall u, n | u in fetched && n in found(u) :: n in discovered
  }

  /** Fetching page `u` and running the discovery step on `links`, which hold every link of `u`
      not yet discovered, keeps every fetched page covered. */
  lemma CoveredVisit(found: string -> seq<string>, discovered: seq<string>, fetched: seq<string>, u: string, links: seq<string>)
    requires Covered(found, discovered, fetched)
    requires forall n | n in found(u) && n !in discovered :: n in links
    ensures Covered(found, InsertCapped(discovered, links, MAX_URLS), fetched + [u])
  {
    var d := InsertCapped(discovered, links, MAX_URLS);
    InsertCappedFacts(discovered, links, MAX_URLS);
    if |d| < MAX_URLS {
      forall v, n | v in fetched + [u] && n in found(v) ensures n in d {
        if n in discovered {
          var k :| 0 <= k < |discovered| && discovered[k] == n;
          assert d[k] == n;
        }
      }
    }
  }

  /** The depth of the last page fetched, 0 before the first. */
  function LastDepth(depths: seq<nat>): nat {
    if depths == [] then 0 else depths[|depths| - 1]
  }

  /** How a URL at `depth` was reached from `start`: at depth 0 it is `start` itself, deeper it is
      one of the links `found` on the page `fetched[parent]`, one of the first `before` pages
      fetched, which was one level shallower. */
  ghost predicate Reached(found: string -> seq<string>, start: string, fetched: seq<string>, depths: seq<nat>,
                          url: string, depth: nat, parent: nat, before: nat) {
    && (depth == 0 ==> url == start)
    && (depth > 0 ==> parent < before <= |fetched| && before <= |depths| &&
                      depths[parent] + 1 == depth && url in found(fetched[parent]))
  }

  /** The breadth-first shape of the pages fetched from `start`: `fetched[j]` was taken off the
      queue at depth `depths[j]` and reached from the earlier page `via[j]`; depths never decrease
      and stay within `MAX_DEPTH`. */
  ghost predicate BreadthFirst(found: string -> seq<string>, start: string, fetched: seq<string>, depths: seq<nat>, via: seq<nat>) {
    && |depths| == |fetched| && |via| == |fetched|
    && (forall j | 0 <= j < |fetched| :: Reached(found, start, fetched, depths, fetched[j], depths[j], via[j], j))
    && (forall j | 0 <= j < |depths| :: depths[j] <= MAX_DEPTH)
    && (forall i, j | 0 <= i < j < |depths| :: depths[i] <= depths[j])
  }

  /** The same for the pages fetched and those still queued, the queued item `queue[i]` having
      been found on page `qvia[i]`: the queue's depths never decrease either, and lie between the
      depth of the last page fetched and the next level. */
  ghost predicate Breadth(found: string -> seq<string>, start: string, fetched: seq<string>, depths: seq<nat>, via: seq<nat>,
                          queue: seq<Item>, qvia: seq<nat>) {
    && BreadthFirst(found, start, fetched, depths, via)
    && |qvia| == |queue|
    && (forall i | 0 <= i < |queue| ::
          Reached(found, start, fetched, depths, queue[i].url, queue[i].depth, qvia[i], |fetched|))
    && (forall i | 0 <= i < |queue| :: LastDepth(depths) <= queue[i].depth <= LastDepth(depths) + 1)
    && (forall i | 0 <= i < |queue| :: queue[i].depth <= MAX_DEPTH)
    && (forall i, j | 0 <= i < j < |queue| :: queue[i].depth <= queue[j].depth)
  }

  /** The start of a crawl: nothing fetched, the start URL queued at depth 0. */
  lemma BreadthStart(found: string -> seq<string>, start: string)
    ensures Breadth(found, start, [], [], [], [Item(start, 0)], [0])
  {
  }

  /** Dropping the front of the queue unvisited. */
  lemma BreadthSkip(found: string -> seq<string>, start: string, fetched: seq<string>, depths: seq<nat>, via: seq<nat>,
                    queue: seq<Item>, qvia: seq<nat>)
    requires Breadth(found, start, fetched, depths, via, queue, qvia) && |queue| > 0
    ensures Breadth(found, start, fetched, depths, via, queue[1..], qvia[1..])
  {
  }

  /** Fetching one more page keeps how a URL was reached, and lets the bound grow to the new
      page count. */
  lemma ReachedGrow(found: string -> seq<string>, start: string, fetched: seq<string>, depths: seq<nat>,
                    url: string, depth: nat, parent: nat, before: nat, x: string, y: nat, before': nat)
    requires Reached(found, start, fetched, depths, url, depth, parent, before)
    requires before <= before' <= |fetched| + 1 && |fetched| <= |depths|
    ensures Reached(found, start, fetched + [x], depths + [y], url, depth, parent, before')
  {
    if depth > 0 {
      assert (fetched + [x])[parent] == fetched[parent] && (depths + [y])[parent] == depths[parent];
    }
  }

  /** How each page fetched so far was reached, once the front of the queue is fetched too. */
  lemma ReachedVisit(found: string -> seq<string>, start: string, fetched: seq<string>, depths: seq<nat>, via: seq<nat>,
                     queue: seq<Item>, qvia: seq<nat>)
    requires Breadth(found, start, fetched, depths, via, queue, qvia) && |queue| > 0
    ensures var f, d, v := fetched + [queue[0].url], depths + [queue[0].depth], via + [qvia[0]];
      forall j | 0 <= j < |f| :: Reached(found, start, f, d, f[j], d[j], v[j], j)
  {
    var f, d, v := fetched + [queue[0].url], depths + [queue[0].depth], via + [qvia[0]];
    forall j | 0 <= j < |f| ensures Reached(found, start, f, d, f[j], d[j], v[j], j) {
      if j < |fetched| {
        ReachedGrow(found, start, fetched, depths, fetched[j], depths[j], via[j], j, queue[0].url, queue[0].depth, j);
      } else {
        ReachedGrow(found, start, fetched, depths, queue[0].url, queue[0].depth, qvia[0], |fetched|, queue[0].url, queue[0].depth, |fetched|);
      }
    }
  }

  /** The fetched part of the shape, once the front of the queue is fetched. */
  lemma BreadthFirstVisit(found: string -> seq<string>, start: string, fetched: seq<string>, depths: seq<nat>, via: seq<nat>,
                          queue: seq<Item>, qvia: seq<nat>)
    requires Breadth(found, start, fetched, depths, via, queue, qvia) && |queue| > 0
    ensures BreadthFirst(found, start, fetched + [queue[0].url], depths + [queue[0].depth], via + [qvia[0]])
  {
    ReachedVisit(found, start, fetched, depths, via, queue, qvia);
    var d := depths + [queue[0].depth];
    assert forall j | 0 <= j < |depths| :: depths[j] <= LastDepth(depths) <= queue[0].depth;
    assert forall i, j | 0 <= i < j < |d| :: d[i] <= d[j] by {
      forall i, j | 0 <= i < j < |d| ensures d[i] <= d[j] {
        if j == |depths| {
          assert d[i] == depths[i] && depths[i] <= LastDepth(depths);
        }
      }
    }
  }

  /** Taking the front of the queue to fetch it. */
  lemma BreadthVisit(found: string -> seq<string>, start: string, fetched: seq<string>, depths: seq<nat>, via: seq<nat>,
                     queue: seq<Item>, qvia: seq<nat>)
    requires Breadth(found, start, fetched, depths, via, queue, qvia) && |queue| > 0
    ensures Breadth(found, start, fetched + [queue[0].url], depths + [queue[0].depth], via + [qvia[0]], queue[1..], qvia[1..])
  {
    BreadthFirstVisit(found, start, fetched, depths, via, queue, qvia);
    var f, d := fetched + [queue[0].url], depths + [queue[0].depth];
    var q, qv := queue[1..], qvia[1..];
    forall i | 0 <= i < |q| ensures Reached(found, start, f, d, q[i].url, q[i].depth, qv[i], |f|) {
      ReachedGrow(found, start, fetched, depths, q[i].url, q[i].depth, qv[i], |fetched|, queue[0].url, queue[0].depth, |f|);
    }
    assert LastDepth(d) == queue[0].depth;
    assert forall i | 0 <= i < |q| :: queue[0].depth <= q[i].depth;
  }

  /** `count` copies of the position `p`. */
  function Copies(p: nat, count: nat): (r: seq<nat>)
    ensures |r| == count && forall k | 0 <= k < count :: r[k] == p
  {
    seq(count, _ => p)
  }

  /** Queueing the links `ns` of the page fetched last, at its depth: all of them are links
      `found` on that page. */
  lemma BreadthPush(found: string -> seq<string>, start: string, fetched: seq<string>, depths: seq<nat>, via: seq<nat>,
                    queue: seq<Item>, qvia: seq<nat>, ns: seq<string>)
    requires Breadth(found, start, fetched, depths, via, queue, qvia) && |fetched| > 0
    requires forall n | n in ns :: n in found(fetched[|fetched| - 1])
    ensures var pushed := Pushed(ns, LastDepth(depths));
      Breadth(found, start, fetched, depths, via, queue + pushed, qvia + Copies(|fetched| - 1, |pushed|))
  {
    var depth := LastDepth(depths);
    var pushed := Pushed(ns, depth);
    var q, qv := queue + pushed, qvia + Copies(|fetched| - 1, |pushed|);
    forall i | 0 <= i < |q| ensures Reached(found, start, fetched, depths, q[i].url, q[i].depth, qv[i], |fetched|) {
      if i < |queue| {
        assert q[i] == queue[i] && qv[i] == qvia[i];
      } else {
        assert q[i] == Item(ns[i - |queue|], depth + 1) && qv[i] == |fetched| - 1;
        assert ns[i - |queue|] in ns;
      }
    }
  }

  /** The whole bookkeeping of a crawl loop from `start`: positions (`Frontier`), the
      breadth-first shape (`Breadth`) and the coverage of the links of the pages fetched
      (`Covered`), `found` giving the links a page can yield. */
  ghost predicate Shape(found: string -> seq<string>, start: string, discovered: seq<string>, queue: seq<Item>,
                        fetched: seq<string>, slots: seq<nat>, order: seq<nat>, depths: seq<nat>, via: seq<nat>, qvia: seq<nat>) {
    && Frontier(discovered, queue, slots, fetched, order)
    && Breadth(found, start, fetched, depths, via, queue, qvia)
    && Covered(found, discovered, fetched)
  }

  /** The start of the loop: `start` discovered and queued at depth 0, nothing fetched. */
  lemma ShapeStart(found: string -> seq<string>, start: string)
    ensures Shape(found, start, [start], [Item(start, 0)], [], [0], [], [], [], [0])
  {
    assert Picks([start], [] + [0], [] + QueueUrls([Item(start, 0)]));
  }

  /** Dropping the front of the queue unvisited. */
  lemma ShapeSkip(found: string -> seq<string>, start: string, discovered: seq<string>, queue: seq<Item>,
                  fetched: seq<string>, slots: seq<nat>, order: seq<nat>, depths: seq<nat>, via: seq<nat>, qvia: seq<nat>)
    requires Shape(found, start, discovered, queue, fetched, slots, order, depths, via, qvia) && |queue| > 0
    ensures |slots| > 0 && Shape(found, start, discovered, queue[1..], fetched, slots[1..], order, depths, via, qvia[1..])
  {
    FrontierSkip(discovered, queue, slots, fetched, order);
    BreadthSkip(found, start, fetched, depths, via, queue, qvia);
  }

  /** Fetching the front of the queue, whose links not yet discovered are all in `links` and
      which yields no others, and running the discovery step on `links`. */
  lemma ShapeVisit(found: string -> seq<string>, start: string, links: seq<string>,
                   discovered: seq<string>, queue: seq<Item>, fetched: seq<string>, slots: seq<nat>, order: seq<nat>,
                   depths: seq<nat>, via: seq<nat>, qvia: seq<nat>,
                   discovered': seq<string>, queue': seq<Item>, slots': seq<nat>)
    requires Shape(found, start, discovered, queue, fetched, slots, order, depths, via, qvia) && |queue| > 0
    requires forall n | n in links :: n in found(queue[0].url)
    requires forall n | n in found(queue[0].url) && n !in discovered :: n in links
    requires discovered <= discovered' && discovered' == InsertCapped(discovered, links, MAX_URLS)
    requires queue' == queue[1..] + Pushed(discovered'[|discovered|..], queue[0].depth)
    requires |slots| > 0 && Frontier(discovered', queue', slots', fetched + [queue[0].url], order + [slots[0]])
    ensures |queue'| >= |queue| - 1
    ensures Shape(found, start, discovered', queue', fetched + [queue[0].url], slots', order + [slots[0]],
                  depths + [queue[0].depth], via + [qvia[0]], qvia[1..] + Copies(|fetched|, |queue'| - |queue| + 1))
  {
    var u := queue[0].url;
    BreadthVisit(found, start, fetched, depths, via, queue, qvia);
    CoveredVisit(found, discovered, fetched, u, links);
    InsertCappedFacts(discovered, links, MAX_URLS);
    var ns := discovered'[|discovered|..];
    forall n | n in ns ensures n in found((fetched + [u])[|fetched|]) {
      var k :| 0 <= k < |ns| && ns[k] == n;
      assert discovered'[|discovered| + k] == n;
    }
    BreadthPush(found, start, fetched + [u], depths + [queue[0].depth], via + [qvia[0]], queue[1..], qvia[1..], ns);
  }

  /** What the bookkeeping gives once the loop stops. */
  lemma ShapeDone(found: string -> seq<string>, start: string, discovered: seq<string>, queue: seq<Item>,
                  fetched: seq<string>, slots: seq<nat>, order: seq<nat>, depths: seq<nat>, via: seq<nat>, qvia: seq<nat>)
    requires Shape(found, start, discovered, queue, fetched, slots, order, depths, via, qvia)
    ensures Picks(discovered, order, fetched) && Increasing(order)
    ensures BreadthFirst(found, start, fetched, depths, via) && Covered(found, discovered, fetched)
  {
    FrontierDone(discovered, queue, slots, fetched, order);
  }
}

=== FILE: crawl_website.dfy ===
/** The server crawler of the `crawl-website` edge function: a generator that reads robots.txt,
    takes the sitemap when there is one, and otherwise crawls the site breadth-first from the start
    URL, yielding log, snapshot, progress and error events. The generator's local `state` is held
    in the local variables of the methods below; the yielded events are collected in order. */
module ServerCrawler {
  import opened Wrappers
  import opened Text
  import opened Seqs
  import opened Web
  import opened Robots
  import opened Filters
  import opened CrawlEvents

  /** The rules `fetchRobotsTxt` leaves in `state.disallowedPaths`: those of an ok response, none
      when the request fails or the response is not ok. */
  function RobotsRulesOf(robots: Fetched<string>): seq<string> {
    match robots
    case Received(ok, text) => if ok then RobotsRules(ContainsBot, text) else []
    case Unreachable => []
  }

  /** What the crawl asks of a link it discovers: same host as the start URL, not skipped, and not
      disallowed by robots.txt. */
  predicate LinkOk(env: Env, domain: string, paths: seq<string>, n: string) {
    IsSameDomain(env, n, domain) && !ServerSkip(n) && !IsDisallowed(env, n, paths)
  }

  /** The test `fetchAndParse` applies to one `href` of page `page`: a non-empty value, resolved
      and normalised, that passes `LinkOk` and is not yet discovered. */
  function LinkOf(env: Env, page: string, domain: string, paths: seq<string>, discovered: seq<string>, href: string): Option<string> {
    if href == "" then None
    else
      match NormalizeUrl(env, href, page)
      case None => None
      case Some(n) => if LinkOk(env, domain, paths, n) && n !in discovered then Some(n) else None
  }

  function LinkFilter(env: Env, page: string, domain: string, paths: seq<string>, discovered: seq<string>): string -> Option<string> {
    href => LinkOf(env, page, domain, paths, discovered, href)
  }

  /** The links `fetchAndParse` returns for `url`: the passing links in anchor order, or none when
      the page could not be read as HTML. */
  function PageLinks(env: Env, url: string, domain: string, paths: seq<string>, discovered: seq<string>): seq<string> {
    match HtmlPage(env, url)
    case None => []
    case Some(p) => FilterMap(p.anchors.value, LinkFilter(env, url, domain, paths, discovered))
  }

  /** A link is returned exactly when the page reads as HTML and one of its anchors normalises to
      it and passes the test; so every returned link passes `LinkOk` and is not yet discovered. */
  lemma PageLinksMember(env: Env, url: string, domain: string, paths: seq<string>, discovered: seq<string>, n: string)
    ensures n in PageLinks(env, url, domain, paths, discovered) <==>
      HtmlPage(env, url).Some? &&
      exists i | 0 <= i < |HtmlPage(env, url).value.anchors.value| ::
        LinkOf(env, url, domain, paths, discovered, HtmlPage(env, url).value.anchors.value[i]) == Some(n)
    ensures n in PageLinks(env, url, domain, paths, discovered) ==> LinkOk(env, domain, paths, n) && n !in discovered
  {
    if HtmlPage(env, url).Some? {
      var anchors := HtmlPage(env, url).value.anchors.value;
      var f := LinkFilter(env, url, domain, paths, discovered);
      FilterMapMember(anchors, f, n);
      if n in PageLinks(env, url, domain, paths, discovered) {
        var i :| 0 <= i < |anchors| && f(anchors[i]) == Some(n);
      }
    }
  }

  /** The links page `url` can yield at all: those `fetchAndParse` returns while nothing is
      discovered yet. */
  function Found(env: Env, domain: string, paths: seq<string>): string -> seq<string> {
    u => PageLinks(env, u, domain, paths, [])
  }

  /** What the discovered set changes about a page's links: it only takes out the links already
      in it. */
  lemma PageLinksFound(env: Env, url: string, domain: string, paths: seq<string>, discovered: seq<string>)
    ensures forall n | n in PageLinks(env, url, domain, paths, discovered) :: n in Found(env, domain, paths)(url)
    ensures forall n | n in Found(env, domain, paths)(url) && n !in discovered :: n in PageLinks(env, url, domain, paths, discovered)
  {
    forall n | n in PageLinks(env, url, domain, paths, discovered) ensures n in PageLinks(env, url, domain, paths, []) {
      PageLinksMember(env, url, domain, paths, discovered, n);
      PageLinksMember(env, url, domain, paths, [], n);
      var anchors := HtmlPage(env, url).value.anchors.value;
      var i :| 0 <= i < |anchors| && LinkOf(env, url, domain, paths, discovered, anchors[i]) == Some(n);
      assert LinkOf(env, url, domain, paths, [], anchors[i]) == Some(n);
    }
    forall n | n in PageLinks(env, url, domain, paths, []) && n !in discovered
      ensures n in PageLinks(env, url, domain, paths, discovered)
    {
      PageLinksMember(env, url, domain, paths, discovered, n);
      PageLinksMember(env, url, domain, paths, [], n);
      var anchors := HtmlPage(env, url).value.anchors.value;
      var i :| 0 <= i < |anchors| && LinkOf(env, url, domain, paths, [], anchors[i]) == Some(n);
      assert LinkOf(env, url, domain, paths, discovered, anchors[i]) == Some(n);
    }
  }

  /** `fetchAndParse(url, state)`: fetch the page and collect, in anchor order, the links that
      pass the test; an error, a non-ok response, a non-HTML content type or a missing document
      gives no links. */
  method FetchAndParse(env: Env, url: string, domain: string, paths: seq<string>, discovered: seq<string>)
      returns (links: seq<string>)
    ensures links == PageLinks(env, url, domain, paths, discovered)
    ensures forall n | n in links :: LinkOk(env, domain, paths, n) && n !in discovered
  {
    var response := env.fetch(url);
    if response.None? {
      return [];
    }
    var page := response.value;
    if !page.ok || !IsHtml(page) || page.anchors.None? {
      return [];
    }
    var anchors := page.anchors.value;
    ghost var f := LinkFilter(env, url, domain, paths, discovered);
    links := [];
    for i := 0 to |anchors|
      invariant links == FilterMap(anchors[..i], f)
    {
      FilterMapSnoc(anchors, f, i);
      var href := anchors[i];
      if href == "" {
        continue;
      }
      var normalized := NormalizeUrl(env, href, url);
      if normalized.Some? && IsSameDomain(env, normalized.value, domain) && !ServerSkip(normalized.value)
         && !IsDisallowed(env, normalized.value, paths) && normalized.value !in discovered {
        links := links + [normalized.value];
      }
    }
    assert anchors[..|anchors|] == anchors;
    forall n | n in links ensures LinkOk(env, domain, paths, n) && n !in discovered {
      PageLinksMember(env, url, domain, paths, discovered, n);
    }
  }

  /** The test `fetchSitemap` applies to one `<loc>` text: trimmed, non-empty, same host and not
      skipped. Robots rules are not consulted. */
  function SitemapEntry(env: Env, domain: string, loc: string): Option<string> {
    var url := Trim(loc);
    if url != "" && IsSameDomain(env, url, domain) && !ServerSkip(url) then Some(url) else None
  }

  function SitemapFilter(env: Env, domain: string): string -> Option<string> {
    loc => SitemapEntry(env, domain, loc)
  }

  /** What `fetchSitemap` returns: the first `MAX_URLS` passing `<loc>` values of an ok response
      whose document parsed, and nothing otherwise. */
  function SitemapUrls(env: Env, domain: string, sitemap: Fetched<Option<seq<string>>>): seq<string> {
    match sitemap
    case Received(ok, doc) =>
      if ok && doc.Some? then Take(FilterMap(doc.value, SitemapFilter(env, domain)), MAX_URLS) else []
    case Unreachable => []
  }

  /** The sitemap's URLs are at most `MAX_URLS`, each a trimmed non-empty same-host URL that is not
      skipped. */
  lemma SitemapUrlsSound(env: Env, domain: string, sitemap: Fetched<Option<seq<string>>>)
    ensures |SitemapUrls(env, domain, sitemap)| <= MAX_URLS
    ensures forall u | u in SitemapUrls(env, domain, sitemap) ::
      u != "" && Trim(u) == u && IsSameDomain(env, u, domain) && !ServerSkip(u)
  {
    var r := SitemapUrls(env, domain, sitemap);
    if sitemap.Received? && sitemap.ok && sitemap.body.Some? {
      var locs := sitemap.body.value;
      var f := SitemapFilter(env, domain);
      forall u | u in r
        ensures u != "" && Trim(u) == u && IsSameDomain(env, u, domain) && !ServerSkip(u)
      {
        FilterMapMember(locs, f, u);
        var i :| 0 <= i < |locs| && f(locs[i]) == Some(u);
        TrimIdempotent(locs[i]);
      }
    }
  }

  /** `fetchSitemap(state)`: the filtering loop over the `<loc>` texts, then `slice(0, MAX_URLS)`. */
  method FetchSitemap(env: Env, domain: string, sitemap: Fetched<Option<seq<string>>>) returns (urls: seq<string>)
    ensures urls == SitemapUrls(env, domain, sitemap)
  {
    if !sitemap.Received? || !sitemap.ok || sitemap.body.None? {
      return [];
    }
    var locs := sitemap.body.value;
    ghost var f := SitemapFilter(env, domain);
    urls := [];
    for i := 0 to |locs|
      invariant urls == FilterMap(locs[..i], f)
    {
      FilterMapSnoc(locs, f, i);
      var url := Trim(locs[i]);
      if url != "" && IsSameDomain(env, url, domain) && !ServerSkip(url) {
        urls := urls + [url];
      }
    }
    assert locs[..|locs|] == locs;
    urls := Take(urls, MAX_URLS);
  }

  /** The report after the `processed`-th page: every third page, a `progress` event with the
      set's size, the number of visited pages, the queue's length and the estimate `eta` (zero for
      an empty queue); nothing otherwise. */
  function ProgressReport(env: Env, processed: nat, visitedCount: nat, discovered: seq<string>, queue: seq<Item>): seq<Event> {
    if processed % 3 == 0 then
      [Progress(|discovered|, visitedCount, |queue|, if |queue| > 0 then env.eta(|queue|, processed) else 0)]
    else []
  }

  /** The `urlsProcessed % 3 === 0` block of the crawl loop. */
  method ReportProgress(env: Env, processed: nat, visitedCount: nat, discovered: seq<string>, queue: seq<Item>, events: seq<Event>)
      returns (events': seq<Event>)
    requires Ongoing(events, discovered)
    ensures events' == events + ProgressReport(env, processed, visitedCount, discovered, queue)
    ensures Ongoing(events', discovered)
    ensures CountProgress(events') == CountProgress(events) + if processed % 3 == 0 then 1 else 0
  {
    events' := events;
    if processed % 3 == 0 {
      var eta := if |queue| > 0 then env.eta(|queue|, processed) else 0;
      var progress := Progress(|discovered|, visitedCount, |queue|, eta);
      OngoingQuiet(events, discovered, discovered, progress);
      CountProgressSnoc(events, progress);
      events' := events + [progress];
    }
  }

  /** One page of the crawl loop, the `processed`-th: log it, fetch it, run the discovery step on
      its links and, every third page, report progress. The set grows by the page's links in
      anchor order up to `MAX_URLS`, all of which pass `LinkOk`, and stays duplicate-free; the new
      links are queued one level deeper (and take their positions in the bookkeeping); the stream
      gains the "Crawling" line, the discovery events and the report, and stays ongoing. */
  method VisitPage(env: Env, domain: string, paths: seq<string>, item: Item, processed: nat, visitedCount: nat,
                   discovered: seq<string>, queue: seq<Item>, events: seq<Event>,
                   ghost slots: seq<nat>, ghost fetched: seq<string>, ghost order: seq<nat>)
      returns (discovered': seq<string>, queue': seq<Item>, events': seq<Event>, ghost slots': seq<nat>)
    requires Ongoing(events, discovered) && Distinct(discovered) && |discovered| <= MAX_URLS
    requires Frontier(discovered, queue, slots, fetched, order)
    ensures discovered <= discovered' && discovered' == InsertCapped(discovered, PageLinks(env, item.url, domain, paths, discovered), MAX_URLS)
    ensures Distinct(discovered') && |discovered'| <= MAX_URLS
    ensures forall k | |discovered| <= k < |discovered'| :: LinkOk(env, domain, paths, discovered'[k])
    ensures queue' == queue + Pushed(discovered'[|discovered|..], item.depth)
    ensures Frontier(discovered', queue', slots', fetched, order)
    ensures events' == events + [Log("Crawling " + PathOf(env, item.url))] +
      DiscoveryEvents(env, discovered, discovered'[|discovered|..]) + ProgressReport(env, processed, visitedCount, discovered', queue')
    ensures events <= events' && Ongoing(events', discovered')
    ensures CountProgress(events') == CountProgress(events) + if processed % 3 == 0 then 1 else 0
  {
    var crawling := Log("Crawling " + PathOf(env, item.url));
    OngoingQuiet(events, discovered, discovered, crawling);
    CountProgressSnoc(events, crawling);
    var links := FetchAndParse(env, item.url, domain, paths, discovered);
    DiscoveryStep(env, links, discovered, events + [crawling]);
    discovered', queue', events' := ProcessLinks(env, links, item.depth, discovered, queue, events + [crawling]);
    ghost var ns := discovered'[|discovered|..];
    assert discovered' == discovered + ns;
    FrontierDiscover(discovered, queue, slots, fetched, order, ns, item.depth);
    slots' := slots + NewSlots(|discovered|, ns, item.depth);
    events' := ReportProgress(env, processed, visitedCount, discovered', queue', events');
  }

  /** What holds between two rounds of the manual crawl from `startUrl`, with `processed` pages
      requested: the stream is ongoing after its opening line, with one progress report per three
      pages; the set is duplicate-free, within `MAX_URLS`, starts with `startUrl` and otherwise
      holds links that pass `LinkOk`; `visited` holds the pages requested; the bookkeeping places
      them and the queue in the set; they were reached breadth-first; and every link of every page
      requested is discovered unless the set is full. */
  ghost predicate Manual(env: Env, startUrl: string, domain: string, paths: seq<string>,
                         events: seq<Event>, discovered: seq<string>, queue: seq<Item>, visited: set<string>,
                         processed: nat, fetched: seq<string>,
                         slots: seq<nat>, order: seq<nat>, depths: seq<nat>, via: seq<nat>, qvia: seq<nat>) {
    && ManualSet(env, startUrl, domain, paths, events, discovered, visited, processed, fetched)
    && ManualShape(env, startUrl, domain, paths, discovered, queue, visited, fetched, slots, order, depths, via, qvia)
  }

  /** The stream and the set: the first half of `Manual`. */
  ghost predicate ManualSet(env: Env, startUrl: string, domain: string, paths: seq<string>,
                            events: seq<Event>, discovered: seq<string>, visited: set<string>,
                            processed: nat, fetched: seq<string>) {
    && Ongoing(events, discovered) && |events| > 0 && events[0] == Log("No sitemap found, crawling manually...")
    && processed == |fetched| && CountProgress(events) == processed / 3
    && Distinct(discovered) && 1 <= |discovered| <= MAX_URLS && discovered[0] == startUrl
    && (forall k | 1 <= k < |discovered| :: LinkOk(env, domain, paths, discovered[k]))
    && (forall u :: u in visited <==> u in fetched)
  }

  /** The queue and the pages requested: the second half of `Manual`. */
  ghost predicate ManualShape(env: Env, startUrl: string, domain: string, paths: seq<string>,
                              discovered: seq<string>, queue: seq<Item>, visited: set<string>, fetched: seq<string>,
                              slots: seq<nat>, order: seq<nat>, depths: seq<nat>, via: seq<nat>, qvia: seq<nat>) {
    && (|fetched| == 0 ==> queue == [Item(startUrl, 0)] && discovered == [startUrl] && visited == {})
    && Shape(Found(env, domain, paths), startUrl, discovered, queue, fetched, slots, order, depths, via, qvia)
  }

  /** Dropping the front of the queue unvisited keeps the crawl's invariant. */
  lemma ManualSkip(env: Env, startUrl: string, domain: string, paths: seq<string>,
                   events: seq<Event>, discovered: seq<string>, queue: seq<Item>, visited: set<string>,
                   processed: nat, fetched: seq<string>,
                   slots: seq<nat>, order: seq<nat>, depths: seq<nat>, via: seq<nat>, qvia: seq<nat>)
    requires Manual(env, startUrl, domain, paths, events, discovered, queue, visited, processed, fetched, slots, order, depths, via, qvia)
    requires |queue| > 0 && (queue[0].url in visited || queue[0].depth > MAX_DEPTH)
    ensures Manual(env, startUrl, domain, paths, events, discovered, queue[1..], visited, processed, fetched, slots[1..], order, depths, via, qvia[1..])
  {
    ShapeSkip(Found(env, domain, paths), startUrl, discovered, queue, fetched, slots, order, depths, via, qvia);
  }

  /** Requesting the front of the queue and running `VisitPage` on it keeps the stream and the
      set as `Manual` asks. */
  lemma ManualVisitSet(env: Env, startUrl: string, domain: string, paths: seq<string>,
                       events: seq<Event>, discovered: seq<string>, visited: set<string>, processed: nat, fetched: seq<string>,
                       url: string, events': seq<Event>, discovered': seq<string>)
    requires ManualSet(env, startUrl, domain, paths, events, discovered, visited, processed, fetched)
    requires discovered <= discovered' && Distinct(discovered') && |discovered'| <= MAX_URLS
    requires forall k | |discovered| <= k < |discovered'| :: LinkOk(env, domain, paths, discovered'[k])
    requires events <= events' && Ongoing(events', discovered')
    requires CountProgress(events') == CountProgress(events) + if (processed + 1) % 3 == 0 then 1 else 0
    ensures ManualSet(env, startUrl, domain, paths, events', discovered', visited + {url}, processed + 1, fetched + [url])
  {
    assert events'[0] == events[0];
    forall k | 1 <= k < |discovered'| ensures LinkOk(env, domain, paths, discovered'[k]) {
      if k < |discovered| {
        assert discovered'[k] == discovered[k];
      }
    }
  }

  /** Requesting the front of the queue and running `VisitPage` on it keeps the queue and the
      pages requested as `Manual` asks. */
  lemma ManualVisitShape(env: Env, startUrl: string, domain: string, paths: seq<string>,
                         discovered: seq<string>, queue: seq<Item>, visited: set<string>, fetched: seq<string>,
                         slots: seq<nat>, order: seq<nat>, depths: seq<nat>, via: seq<nat>, qvia: seq<nat>,
                         discovered': seq<string>, queue': seq<Item>, slots': seq<nat>)
    requires ManualShape(env, startUrl, domain, paths, discovered, queue, visited, fetched, slots, order, depths, via, qvia)
    requires |queue| > 0
    requires discovered <= discovered' && discovered' == InsertCapped(discovered, PageLinks(env, queue[0].url, domain, paths, discovered), MAX_URLS)
    requires queue' == queue[1..] + Pushed(discovered'[|discovered|..], queue[0].depth)
    requires Frontier(discovered', queue', slots', fetched + [queue[0].url], order + [slots[0]])
    ensures |queue'| >= |queue| - 1
    ensures ManualShape(env, startUrl, domain, paths, discovered', queue', visited + {queue[0].url}, fetched + [queue[0].url],
                        slots', order + [slots[0]], depths + [queue[0].depth], via + [qvia[0]],
                        qvia[1..] + Copies(|fetched|, |queue'| - |queue| + 1))
  {
    PageLinksFound(env, queue[0].url, domain, paths, discovered);
    ShapeVisit(Found(env, domain, paths), startUrl, PageLinks(env, queue[0].url, domain, paths, discovered),
               discovered, queue, fetched, slots, order, depths, via, qvia, discovered', queue', slots');
  }

  /** One round of the crawl loop: the front of the queue is taken off and, unless it was visited
      or is deeper than `MAX_DEPTH`, marked visited, requested and crawled by `VisitPage`. */
  method Round(env: Env, ghost startUrl: string, domain: string, paths: seq<string>,
               events: seq<Event>, discovered: seq<string>, queue: seq<Item>, visited: set<string>,
               processed: nat, fetched: seq<string>,
               ghost slots: seq<nat>, ghost order: seq<nat>, ghost depths: seq<nat>, ghost via: seq<nat>, ghost qvia: seq<nat>)
      returns (events': seq<Event>, discovered': seq<string>, queue': seq<Item>, visited': set<string>,
               processed': nat, fetched': seq<string>,
               ghost slots': seq<nat>, ghost order': seq<nat>, ghost depths': seq<nat>, ghost via': seq<nat>, ghost qvia': seq<nat>)
    requires Manual(env, startUrl, domain, paths, events, discovered, queue, visited, processed, fetched, slots, order, depths, via, qvia)
    requires |queue| > 0 && |discovered| < MAX_URLS
    ensures Manual(env, startUrl, domain, paths, events', discovered', queue', visited', processed', fetched', slots', order', depths', via', qvia')
    ensures discovered <= discovered'
    ensures var item := queue[0];
      if item.url in visited || item.depth > MAX_DEPTH then
        events' == events && discovered' == discovered && queue' == queue[1..] &&
        visited' == visited && processed' == processed && fetched' == fetched
      else
        && fetched' == fetched + [item.url] && visited' == visited + {item.url} && processed' == processed + 1
        && discovered' == InsertCapped(discovered, PageLinks(env, item.url, domain, paths, discovered), MAX_URLS)
        && queue' == queue[1..] + Pushed(discovered'[|discovered|..], item.depth)
        && events' == events + [Log("Crawling " + PathOf(env, item.url))] +
             DiscoveryEvents(env, discovered, discovered'[|discovered|..]) + ProgressReport(env, processed', |visited'|, discovered', queue')
  {
    var item := queue[0];
    if item.url in visited || item.depth > MAX_DEPTH {
      ManualSkip(env, startUrl, domain, paths, events, discovered, queue, visited, processed, fetched, slots, order, depths, via, qvia);
      events', discovered', queue', visited', processed', fetched' := events, discovered, queue[1..], visited, processed, fetched;
      slots', order', depths', via', qvia' := slots[1..], order, depths, via, qvia[1..];
      return;
    }
    FrontierVisit(discovered, queue, slots, fetched, order);
    fetched', order' := fetched + [item.url], order + [slots[0]];
    depths', via' := depths + [item.depth], via + [qvia[0]];
    visited' := visited + {item.url};
    processed' := processed + 1;
    discovered', queue', events', slots' :=
      VisitPage(env, domain, paths, item, processed', |visited'|, discovered, queue[1..], events, slots[1..], fetched', order');
    qvia' := qvia[1..] + Copies(|fetched|, |queue'| - |queue| + 1);
    ManualVisitSet(env, startUrl, domain, paths, events, discovered, visited, processed, fetched, item.url, events', discovered');
    ManualVisitShape(env, startUrl, domain, paths, discovered, queue, visited, fetched, slots, order, depths, via, qvia,
                     discovered', queue', slots');
  }

  /** The manual crawl (from "No sitemap found"): breadth-first from `startUrl` over a FIFO queue
      while the queue is not empty and fewer than `MAX_URLS` URLs are discovered. `fetched` lists
      the pages requested, in order; `order` gives each one's position in the discovered set, so
      pages are requested in the order they were discovered, and none twice; `depths` and `via`
      give the depth at which each was requested and the earlier page it was found on, so no page
      deeper than `MAX_DEPTH` is requested. Unless the set fills up, every link of every page
      requested ends up discovered. */
  method ManualCrawl(env: Env, startUrl: string, domain: string, paths: seq<string>)
      returns (events: seq<Event>, discovered: seq<string>, fetched: seq<string>,
               ghost order: seq<nat>, ghost depths: seq<nat>, ghost via: seq<nat>)
    requires IsSameDomain(env, startUrl, domain)
    ensures Completed(events, discovered) && events[0] == Log("No sitemap found, crawling manually...")
    ensures CountProgress(events) == |fetched| / 3
    ensures Distinct(discovered) && 1 <= |discovered| <= MAX_URLS && discovered[0] == startUrl
    ensures forall k | 1 <= k < |discovered| :: LinkOk(env, domain, paths, discovered[k])
    ensures |fetched| >= 1 && fetched[0] == startUrl
    ensures Picks(discovered, order, fetched) && Increasing(order)
    ensures BreadthFirst(Found(env, domain, paths), startUrl, fetched, depths, via)
    ensures Covered(Found(env, domain, paths), discovered, fetched)
  {
    events := [Log("No sitemap found, crawling manually...")];
    discovered := [startUrl];
    var queue := [Item(startUrl, 0)];
    var visited: set<string> := {};
    var urlsProcessed: nat := 0;
    fetched := [];
    ghost var slots, qvia := [0], [0];
    order, depths, via := [], [], [];
    ShapeStart(Found(env, domain, paths), startUrl);
    while |queue| > 0 && |discovered| < MAX_URLS
      invariant Manual(env, startUrl, domain, paths, events, discovered, queue, visited, urlsProcessed, fetched, slots, order, depths, via, qvia)
      decreases MAX_URLS - |discovered|, |queue|
    {
      events, discovered, queue, visited, urlsProcessed, fetched, slots, order, depths, via, qvia :=
        Round(env, startUrl, domain, paths, events, discovered, queue, visited, urlsProcessed, fetched, slots, order, depths, via, qvia);
    }
    ShapeDone(Found(env, domain, paths), startUrl, discovered, queue, fetched, slots, order, depths, via, qvia);
    var done := Log("Crawling complete: " + NatToString(|discovered|) + " URLs found");
    Complete(events, discovered, done.message);
    events := events + [Urls(discovered, true), done];
  }

  /** What `crawlWebsite` promises once the start URL has parsed to the host `domain`: it starts
      with its greeting, ends with a completed crawl whose final set `d` is duplicate-free, within
      `MAX_URLS`, on the start URL's host and free of skipped links; reports progress once every
      three pages; requests no page twice and only discovered ones; takes the sitemap's URLs as
      they are when there are any; and otherwise crawls from the start URL, which it requests first,
      keeping out every link the robots rules disallow, requesting pages breadth-first no deeper
      than `MAX_DEPTH` (`depths` and `via` say at which depth and from which earlier page), and,
      unless `MAX_URLS` is reached, discovering every link of every page it requests. */
  ghost predicate CrawlOutcome(env: Env, startUrl: string, domain: string, robots: Fetched<string>,
                               sitemap: Fetched<Option<seq<string>>>, events: seq<Event>, fetched: seq<string>,
                               depths: seq<nat>, via: seq<nat>) {
    && |events| >= 2 && events[0] == Log("Starting crawl of " + domain)
    && events[|events| - 2].Urls?
    && var d := events[|events| - 2].urls;
    && Completed(events, d)
    && CountProgress(events) == |fetched| / 3
    && Distinct(d) && |d| <= MAX_URLS
    && (forall u | u in d :: IsSameDomain(env, u, domain))
    && (forall u | u in d && u != startUrl :: !ServerSkip(u))
    && Distinct(fetched) && (forall u | u in fetched :: u in d)
    && (SitemapUrls(env, domain, sitemap) != [] ==>
          fetched == [] && depths == [] && via == [] && d == InsertAll([], SitemapUrls(env, domain, sitemap)))
    && (SitemapUrls(env, domain, sitemap) == [] ==>
          && |d| > 0 && |fetched| > 0 && d[0] == startUrl && fetched[0] == startUrl
          && (forall u | u in d[1..] :: !IsDisallowed(env, u, RobotsRulesOf(robots)))
          && BreadthFirst(Found(env, domain, RobotsRulesOf(robots)), startUrl, fetched, depths, via)
          && Covered(Found(env, domain, RobotsRulesOf(robots)), d, fetched))
  }

  /** The greeting and the robots and sitemap log lines that precede either way of crawling. */
  predicate Preamble(pre: seq<Event>, domain: string) {
    |pre| > 0 && pre[0] == Log("Starting crawl of " + domain) && forall i | 0 <= i < |pre| :: pre[i].Log?
  }

  /** The sitemap way: its URLs become the final set, marked complete, and no page is requested. */
  lemma SitemapOutcome(env: Env, startUrl: string, domain: string, robots: Fetched<string>,
                       sitemap: Fetched<Option<seq<string>>>, pre: seq<Event>, message: string)
    requires Preamble(pre, domain) && SitemapUrls(env, domain, sitemap) != []
    ensures var d := InsertAll([], SitemapUrls(env, domain, sitemap));
      CrawlOutcome(env, startUrl, domain, robots, sitemap, pre + [Urls(d, true), Log(message)], [], [], [])
  {
    var urls := SitemapUrls(env, domain, sitemap);
    var d := InsertAll([], urls);
    var tail := [Urls(d, true), Log(message)];
    SitemapUrlsSound(env, domain, sitemap);
    Complete([], d, message);
    CompletedAfterLogs(pre, tail, d);
    var events := pre + tail;
    assert events[|events| - 2] == Urls(d, true);
    assert events[0] == pre[0];
  }

  /** The manual way, given what `ManualCrawl` guarantees about its part of the stream. */
  lemma ManualOutcome(env: Env, startUrl: string, domain: string, robots: Fetched<string>,
                      sitemap: Fetched<Option<seq<string>>>, pre: seq<Event>,
                      manual: seq<Event>, discovered: seq<string>, fetched: seq<string>, order: seq<nat>,
                      depths: seq<nat>, via: seq<nat>)
    requires Preamble(pre, domain) && SitemapUrls(env, domain, sitemap) == []
    requires IsSameDomain(env, startUrl, domain)
    requires Completed(manual, discovered) && CountProgress(manual) == |fetched| / 3
    requires Distinct(discovered) && 1 <= |discovered| <= MAX_URLS && discovered[0] == startUrl
    requires forall k | 1 <= k < |discovered| :: LinkOk(env, domain, RobotsRulesOf(robots), discovered[k])
    requires |fetched| >= 1 && fetched[0] == startUrl
    requires Picks(discovered, order, fetched) && Increasing(order)
    requires BreadthFirst(Found(env, domain, RobotsRulesOf(robots)), startUrl, fetched, depths, via)
    requires Covered(Found(env, domain, RobotsRulesOf(robots)), discovered, fetched)
    ensures CrawlOutcome(env, startUrl, domain, robots, sitemap, pre + manual, fetched, depths, via)
  {
    CompletedAfterLogs(pre, manual, discovered);
    var events := pre + manual;
    assert events[|events| - 2] == manual[|manual| - 2];
    assert events[0] == pre[0];
    PicksDistinct(discovered, order, fetched);
    forall u | u in discovered
      ensures IsSameDomain(env, u, domain) && (u != startUrl ==> !ServerSkip(u))
    {
      var k :| 0 <= k < |discovered| && discovered[k] == u;
    }
    forall u | u in discovered[1..] ensures !IsDisallowed(env, u, RobotsRulesOf(robots)) {
      var k :| 0 <= k < |discovered[1..]| && discovered[1..][k] == u;
      assert discovered[k + 1] == u;
    }
  }

  /** The first part of `crawlWebsite` for a start URL on `domain`: the greeting, the robots.txt
      fetch with its rule count when there are rules, and the sitemap fetch. */
  method Prelude(env: Env, domain: string, robots: Fetched<string>, sitemap: Fetched<Option<seq<string>>>)
      returns (pre: seq<Event>, paths: seq<string>, sitemapUrls: seq<string>)
    ensures paths == RobotsRulesOf(robots) && sitemapUrls == SitemapUrls(env, domain, sitemap)
    ensures pre == [Log("Starting crawl of " + domain), Log("Fetching robots.txt...")] +
      (if |paths| > 0 then [Log("Respecting " + NatToString(|paths|) + " robots.txt rules")] else []) +
      [Log("Checking for sitemap.xml...")]
    ensures Preamble(pre, domain)
  {
    pre := [Log("Starting crawl of " + domain), Log("Fetching robots.txt...")];
    paths := [];
    if robots.Received? && robots.ok {
      paths := ParseRobotsTxt(ContainsBot, robots.body);
    }
    if |paths| > 0 {
      pre := pre + [Log("Respecting " + NatToString(|paths|) + " robots.txt rules")];
    }
    pre := pre + [Log("Checking for sitemap.xml...")];
    sitemapUrls := FetchSitemap(env, domain, sitemap);
  }

  /** `crawlWebsite(startUrl)`: the whole event stream. `robots` and `sitemap` are the outcomes of
      the two fetches (the sitemap's parsed `<loc>` texts, or `None` when no document came back);
      `fetched` lists the pages requested. A start URL that does not parse gives the one error
      event; `depths` and `via` say how each requested page was reached. */
  method CrawlWebsite(env: Env, startUrl: string, robots: Fetched<string>, sitemap: Fetched<Option<seq<string>>>)
      returns (events: seq<Event>, fetched: seq<string>, ghost depths: seq<nat>, ghost via: seq<nat>)
    ensures env.parse(startUrl).None? ==> events == [Error("Invalid URL provided")] && fetched == []
    ensures env.parse(startUrl).Some? ==>
      CrawlOutcome(env, startUrl, env.parse(startUrl).value.hostname, robots, sitemap, events, fetched, depths, via)
  {
    if env.parse(startUrl).None? {
      return [Error("Invalid URL provided")], [], [], [];
    }
    var domain := env.parse(startUrl).value.hostname;
    var pre, paths, sitemapUrls := Prelude(env, domain, robots, sitemap);
    if |sitemapUrls| > 0 {
      var found := Log("Found sitemap.xml \U{2013} adding " + NatToString(|sitemapUrls|) + " URLs");
      var discovered := InsertAll([], sitemapUrls);
      var done := Log("Crawling complete: " + NatToString(|discovered|) + " URLs found from sitemap");
      SitemapOutcome(env, startUrl, domain, robots, sitemap, pre + [found], done.message);
      return pre + [found] + [Urls(discovered, true), done], [], [], [];
    }
    var manual, discovered;
    ghost var order;
    manual, discovered, fetched, order, depths, via := ManualCrawl(env, startUrl, domain, paths);
    ManualOutcome(env, startUrl, domain, robots, sitemap, pre, manual, discovered, fetched, order, depths, via);
    events := pre + manual;
  }
}

=== FILE: crawler_worker.dfy ===
/** The browser copy of the crawler: a `WebCrawler` object in a web worker, whose methods update its
    `discovered`, `visited`, `queue` and `disallowedPaths` fields and post `log`, `urls`, `progress`
    and `error` messages to the page. It differs from the server crawler in its skip test (an
    extension anywhere in the URL, no ".css"/".js", and the robots rules folded in), its agent test
    (equal to "bot"), its log lines, and its progress cadence (every fifth page, before the fetch). */
module CrawlerWorker {
  import opened Wrappers
  import opened Text
  import opened Seqs
  import opened Web
  import opened Robots
  import opened Filters
  import opened CrawlEvents

  /** `shouldSkipUrl`: an extension or a scheme anywhere in the lowercased URL, or a pathname under
      one of the robots rules. */
  predicate WorkerSkip(env: Env, url: string, paths: seq<string>) {
    WorkerSkipBase(url) || IsDisallowed(env, url, paths)
  }

  /** What the worker asks of a link or a sitemap entry: same host, not skipped. */
  predicate WorkerLinkOk(env: Env, domain: string, paths: seq<string>, n: string) {
    IsSameDomain(env, n, domain) && !WorkerSkip(env, n, paths)
  }

  /** The test `fetchAndParse` applies to one `href` of page `page`. */
  function WorkerLinkOf(env: Env, page: string, domain: string, paths: seq<string>, discovered: seq<string>, href: string): Option<string> {
    if href == "" then None
    else
      match NormalizeUrl(env, href, page)
      case None => None
      case Some(n) => if WorkerLinkOk(env, domain, paths, n) && n !in discovered then Some(n) else None
  }

  function WorkerLinkFilter(env: Env, page: string, domain: string, paths: seq<string>, discovered: seq<string>): string -> Option<string> {
    href => WorkerLinkOf(env, page, domain, paths, discovered, href)
  }

  /** The links `fetchAndParse` returns for `url`: the passing links in anchor order, or none when
      the request fails or the response is not ok HTML. */
  function WorkerPageLinks(env: Env, url: string, domain: string, paths: seq<string>, discovered: seq<string>): seq<string> {
    match HtmlPage(env, url)
    case None => []
    case Some(p) => FilterMap(p.anchors.value, WorkerLinkFilter(env, url, domain, paths, discovered))
  }

  /** A link is returned exactly when one of the page's anchors normalises to it and passes the
      test; so every returned link is on the host, not skipped, and not yet discovered. */
  lemma WorkerPageLinksMember(env: Env, url: string, domain: string, paths: seq<string>, discovered: seq<string>, n: string)
    ensures n in WorkerPageLinks(env, url, domain, paths, discovered) <==>
      HtmlPage(env, url).Some? &&
      exists i | 0 <= i < |HtmlPage(env, url).value.anchors.value| ::
        WorkerLinkOf(env, url, domain, paths, discovered, HtmlPage(env, url).value.anchors.value[i]) == Some(n)
    ensures n in WorkerPageLinks(env, url, domain, paths, discovered) ==> WorkerLinkOk(env, domain, paths, n) && n !in discovered
  {
    if HtmlPage(env, url).Some? {
      var anchors := HtmlPage(env, url).value.anchors.value;
      var f := WorkerLinkFilter(env, url, domain, paths, discovered);
      FilterMapMember(anchors, f, n);
      if n in WorkerPageLinks(env, url, domain, paths, discovered) {
        var i :| 0 <= i < |anchors| && f(anchors[i]) == Some(n);
      }
    }
  }

  /** The links page `url` can yield at all: those `fetchAndParse` returns while nothing is
      discovered yet. */
  function WorkerFound(env: Env, domain: string, paths: seq<string>): string -> seq<string> {
    u => WorkerPageLinks(env, u, domain, paths, [])
  }

  /** What the discovered set changes about a page's links: it only takes out the links already
      in it. */
  lemma WorkerPageLinksFound(env: Env, url: string, domain: string, paths: seq<string>, discovered: seq<string>)
    ensures forall n | n in WorkerPageLinks(env, url, domain, paths, discovered) :: n in WorkerFound(env, domain, paths)(url)
    ensures forall n | n in WorkerFound(env, domain, paths)(url) && n !in discovered ::
      n in WorkerPageLinks(env, url, domain, paths, discovered)
  {
    forall n | n in WorkerPageLinks(env, url, domain, paths, discovered) ensures n in WorkerPageLinks(env, url, domain, paths, []) {
      WorkerPageLinksMember(env, url, domain, paths, discovered, n);
      WorkerPageLinksMember(env, url, domain, paths, [], n);
      var anchors := HtmlPage(env, url).value.anchors.value;
      var i :| 0 <= i < |anchors| && WorkerLinkOf(env, url, domain, paths, discovered, anchors[i]) == Some(n);
      assert WorkerLinkOf(env, url, domain, paths, [], anchors[i]) == Some(n);
    }
    forall n | n in WorkerPageLinks(env, url, domain, paths, []) && n !in discovered
      ensures n in WorkerPageLinks(env, url, domain, paths, discovered)
    {
      WorkerPageLinksMember(env, url, domain, paths, discovered, n);
      WorkerPageLinksMember(env, url, domain, paths, [], n);
      var anchors := HtmlPage(env, url).value.anchors.value;
      var i :| 0 <= i < |anchors| && WorkerLinkOf(env, url, domain, paths, [], anchors[i]) == Some(n);
      assert WorkerLinkOf(env, url, domain, paths, discovered, anchors[i]) == Some(n);
    }
  }

  /** The report before the fetch of the `processed`-th page: every fifth page, a `progress`
      message with the set's size, the number visited, the queue's length and the estimated time
      left (0 once the queue is empty); nothing otherwise. */
  function WorkerProgress(env: Env, processed: nat, discovered: seq<string>, visited: set<string>, queue: seq<Item>): seq<Event> {
    if processed % 5 == 0 then
      [Progress(|discovered|, |visited|, |queue|, if |queue| > 0 then env.eta(|queue|, processed) else 0)]
    else []
  }

  /** The test `fetchSitemap` applies to one `<loc>` text: trimmed, non-empty, same host and not
      skipped, which here includes the robots rules. */
  function WorkerSitemapEntry(env: Env, domain: string, paths: seq<string>, loc: string): Option<string> {
    var url := Trim(loc);
    if url != "" && WorkerLinkOk(env, domain, paths, url) then Some(url) else None
  }

  function WorkerSitemapFilter(env: Env, domain: string, paths: seq<string>): string -> Option<string> {
    loc => WorkerSitemapEntry(env, domain, paths, loc)
  }

  /** The passing `<loc>` texts of an ok sitemap response, before the cut at `MAX_URLS`. */
  function SitemapFound(env: Env, domain: string, paths: seq<string>, sitemap: Fetched<seq<string>>): seq<string> {
    match sitemap
    case Received(ok, locs) => if ok then FilterMap(locs, WorkerSitemapFilter(env, domain, paths)) else []
    case Unreachable => []
  }

  /** What `fetchSitemap` returns: the first `MAX_URLS` passing URLs. */
  function WorkerSitemapUrls(env: Env, domain: string, paths: seq<string>, sitemap: Fetched<seq<string>>): seq<string> {
    Take(SitemapFound(env, domain, paths, sitemap), MAX_URLS)
  }

  /** The sitemap's URLs are at most `MAX_URLS`, each on the host and not skipped, robots rules
      included. */
  lemma WorkerSitemapUrlsSound(env: Env, domain: string, paths: seq<string>, sitemap: Fetched<seq<string>>)
    ensures |WorkerSitemapUrls(env, domain, paths, sitemap)| <= MAX_URLS
    ensures forall u | u in WorkerSitemapUrls(env, domain, paths, sitemap) :: WorkerLinkOk(env, domain, paths, u)
  {
    var r := WorkerSitemapUrls(env, domain, paths, sitemap);
    if sitemap.Received? && sitemap.ok {
      var locs := sitemap.body;
      var f := WorkerSitemapFilter(env, domain, paths);
      forall u | u in r ensures WorkerLinkOk(env, domain, paths, u) {
        FilterMapMember(locs, f, u);
        var i :| 0 <= i < |locs| && f(locs[i]) == Some(u);
      }
    }
  }

  /** The fixed log lines of the robots.txt and sitemap fetches. */
  const FETCHING_ROBOTS: string := "Fetching robots.txt..."
  const ROBOTS_UNREACHABLE: string := "Could not fetch robots.txt (proceeding anyway)"
  const NO_ROBOTS: string := "No robots.txt found (using default rules)"
  const CHECKING_SITEMAP: string := "Checking for sitemap.xml..."
  const SITEMAP_UNREADABLE: string := "Error reading sitemap.xml (will crawl manually)"
  const NO_SITEMAP: string := "No sitemap.xml found (will crawl manually)"
  const CRAWLING_COMPLETE: string := "Crawling complete: "
  const STARTING_CRAWL: string := "Starting crawl of "

  /** The closing line of the sitemap way, for `count` URLs. */
  function SitemapDone(count: nat): string {
    CRAWLING_COMPLETE + NatToString(count) + " URLs found from sitemap"
  }

  /** The messages `fetchRobotsTxt` posts, `count` being the number of rules it then holds. */
  function RobotsMessages(robots: Fetched<string>, count: nat): (r: seq<Event>)
    ensures 1 <= |r| <= 2 && forall i | 0 <= i < |r| :: r[i].Log?
  {
    [Log(FETCHING_ROBOTS)] +
    match robots
    case Unreachable => [Log(ROBOTS_UNREACHABLE)]
    case Received(ok, _) =>
      if !ok then [Log(NO_ROBOTS)]
      else if count > 0 then [Log("Respecting " + NatToString(count) + " robots.txt rules")]
      else []
  }

  /** The messages `fetchSitemap` posts, `found` being the number of passing URLs before the cut. */
  function SitemapMessages(sitemap: Fetched<seq<string>>, found: nat): (r: seq<Event>)
    ensures 1 <= |r| <= 2 && forall i | 0 <= i < |r| :: r[i].Log?
  {
    [Log(CHECKING_SITEMAP)] +
    match sitemap
    case Unreachable => [Log(SITEMAP_UNREADABLE)]
    case Received(ok, _) =>
      if !ok then [Log(NO_SITEMAP)]
      else if found > 0 then [Log("Found sitemap.xml \U{2013} adding " + NatToString(found) + " URLs")]
      else []
  }

  /** The robots rules the worker keeps: those of an ok response, none otherwise. */
  function WorkerRobotsRules(robots: Fetched<string>): seq<string> {
    match robots
    case Received(ok, text) => if ok then RobotsRules(EqualsBot, text) else []
    case Unreachable => []
  }

  /** What `crawl` promises once the start URL has parsed to the host `domain`, with the robots
      rules `paths`: it starts with its greeting and ends with a completed crawl of the final set
      `discovered`, which is duplicate-free, within `MAX_URLS`, on the host and, apart from the
      start URL, free of skipped links; it reports progress once every five pages; it requests no
      page twice and only discovered ones; it takes the sitemap's URLs as they are when there are
      any, and otherwise crawls from the start URL, which it requests first, requesting pages
      breadth-first no deeper than `MAX_DEPTH` (`depths` and `via` say at which depth and from
      which earlier page), and, unless `MAX_URLS` is reached, discovering every link of every page
      it requests. */
  ghost predicate WorkerOutcome(env: Env, startUrl: string, domain: string, paths: seq<string>,
                                sitemap: Fetched<seq<string>>, outbox: seq<Event>,
                                discovered: seq<string>, fetched: seq<string>, depths: seq<nat>, via: seq<nat>) {
    && |outbox| >= 2 && outbox[0] == Log(STARTING_CRAWL + domain)
    && Completed(outbox, discovered)
    && CountProgress(outbox) == |fetched| / 5
    && Distinct(discovered) && |discovered| <= MAX_URLS
    && (forall u | u in discovered :: IsSameDomain(env, u, domain))
    && (forall u | u in discovered && u != startUrl :: !WorkerSkip(env, u, paths))
    && Distinct(fetched) && (forall u | u in fetched :: u in discovered)
    && (WorkerSitemapUrls(env, domain, paths, sitemap) != [] ==>
          fetched == [] && depths == [] && via == [] && discovered == InsertAll([], WorkerSitemapUrls(env, domain, paths, sitemap)))
    && (WorkerSitemapUrls(env, domain, paths, sitemap) == [] ==>
          && |discovered| > 0 && |fetched| > 0 && discovered[0] == startUrl && fetched[0] == startUrl
          && BreadthFirst(WorkerFound(env, domain, paths), startUrl, fetched, depths, via)
          && Covered(WorkerFound(env, domain, paths), discovered, fetched))
  }

  /** The messages before the sitemap or the manual crawl: all log lines, the greeting first. */
  predicate Greeted(outbox: seq<Event>, domain: string) {
    |outbox| > 0 && outbox[0] == Log(STARTING_CRAWL + domain) && forall i | 0 <= i < |outbox| :: outbox[i].Log?
  }

  /** The discovery step of the worker, whose links all pass its test. */
  lemma WorkerDiscoveryStep(env: Env, domain: string, paths: seq<string>, links: seq<string>, depth: nat,
                            discovered: seq<string>, queue: seq<Item>, events: seq<Event>,
                            slots: seq<nat>, fetched: seq<string>, order: seq<nat>)
    requires Ongoing(events, discovered) && Distinct(discovered) && |discovered| <= MAX_URLS
    requires Frontier(discovered, queue, slots, fetched, order)
    requires forall n | n in links :: WorkerLinkOk(env, domain, paths, n)
    ensures var d := InsertCapped(discovered, links, MAX_URLS);
      && discovered <= d && Distinct(d) && |d| <= MAX_URLS
      && (forall k | |discovered| <= k < |d| :: WorkerLinkOk(env, domain, paths, d[k]))
      && var ns := d[|discovered|..];
      && Frontier(d, queue + Pushed(ns, depth), slots + NewSlots(|discovered|, ns, depth), fetched, order)
      && Ongoing(events + DiscoveryEvents(env, discovered, ns), d)
      && CountProgress(events + DiscoveryEvents(env, discovered, ns)) == CountProgress(events)
  {
    DiscoveryStepFrontier(env, n => WorkerLinkOk(env, domain, paths, n), links, depth, discovered, queue, events, slots, fetched, order);
  }

  /** The messages `crawl` posts before it takes the sitemap or the manual way: the greeting, then
      those of `fetchRobotsTxt` on a new crawler, then those of `fetchSitemap` under the rules it
      kept. */
  function Opening(env: Env, domain: string, robots: Fetched<string>, sitemap: Fetched<seq<string>>): seq<Event> {
    var rules := WorkerRobotsRules(robots);
    [Log(STARTING_CRAWL + domain)] + RobotsMessages(robots, |rules|)
      + SitemapMessages(sitemap, |SitemapFound(env, domain, rules, sitemap)|)
  }

  /** The greeting and the robots.txt and sitemap messages are log lines. */
  lemma GreetedMessages(domain: string, robots: Fetched<string>, count: nat, sitemap: Fetched<seq<string>>, found: nat)
    ensures Greeted([Log(STARTING_CRAWL + domain)] + RobotsMessages(robots, count) + SitemapMessages(sitemap, found), domain)
  {
    var r, m := RobotsMessages(robots, count), SitemapMessages(sitemap, found);
    var all := [Log(STARTING_CRAWL + domain)] + r + m;
    forall i | 0 <= i < |all| ensures all[i].Log? {
      if i == 0 {
      } else if i < 1 + |r| {
        assert all[i] == r[i - 1];
      } else {
        assert all[i] == m[i - 1 - |r|];
      }
    }
  }

  /** The sitemap way: its URLs become the final set, marked complete, and no page is requested. */
  lemma WorkerSitemapOutcome(env: Env, startUrl: string, domain: string, paths: seq<string>,
                             sitemap: Fetched<seq<string>>, pre: seq<Event>, message: string)
    requires Greeted(pre, domain) && WorkerSitemapUrls(env, domain, paths, sitemap) != []
    ensures var d := InsertAll([], WorkerSitemapUrls(env, domain, paths, sitemap));
      WorkerOutcome(env, startUrl, domain, paths, sitemap, pre + [Urls(d, true), Log(message)], d, [], [], [])
  {
    var d := InsertAll([], WorkerSitemapUrls(env, domain, paths, sitemap));
    var tail := [Urls(d, true), Log(message)];
    WorkerSitemapUrlsSound(env, domain, paths, sitemap);
    Complete([], d, message);
    CompletedAfterLogs(pre, tail, d);
    assert (pre + tail)[0] == pre[0];
  }

  /** The manual way, given what the crawl loop guarantees of the stream that follows `pre`. */
  lemma WorkerManualOutcome(env: Env, startUrl: string, domain: string, paths: seq<string>,
                            sitemap: Fetched<seq<string>>, pre: seq<Event>, outbox: seq<Event>,
                            discovered: seq<string>, fetched: seq<string>, order: seq<nat>, depths: seq<nat>, via: seq<nat>)
    requires Greeted(pre, domain) && pre <= outbox && WorkerSitemapUrls(env, domain, paths, sitemap) == []
    requires IsSameDomain(env, startUrl, domain)
    requires Completed(outbox, discovered) && CountProgress(outbox) == |fetched| / 5
    requires Distinct(discovered) && 1 <= |discovered| <= MAX_URLS && discovered[0] == startUrl
    requires forall k | 1 <= k < |discovered| :: WorkerLinkOk(env, domain, paths, discovered[k])
    requires |fetched| >= 1 && fetched[0] == startUrl
    requires Picks(discovered, order, fetched) && Increasing(order)
    requires BreadthFirst(WorkerFound(env, domain, paths), startUrl, fetched, depths, via)
    requires Covered(WorkerFound(env, domain, paths), discovered, fetched)
    ensures WorkerOutcome(env, startUrl, domain, paths, sitemap, outbox, discovered, fetched, depths, via)
  {
    assert outbox[0] == pre[0];
    PicksDistinct(discovered, order, fetched);
    forall u | u in discovered
      ensures IsSameDomain(env, u, domain) && (u != startUrl ==> !WorkerSkip(env, u, paths))
    {
      var k :| 0 <= k < |discovered| && discovered[k] == u;
    }
  }

  /** The stream and the set between two rounds of the manual crawl, as `WebCrawler.Crawling`
      asks of them. */
  ghost predicate Surveyed(env: Env, startUrl: string, domain: string, paths: seq<string>, pre: seq<Event>,
                           outbox: seq<Event>, discovered: seq<string>, visited: set<string>, processed: nat, fetched: seq<string>) {
    && Ongoing(outbox, discovered) && pre <= outbox
    && processed == |fetched| && CountProgress(outbox) == processed / 5
    && Distinct(discovered) && 1 <= |discovered| <= MAX_URLS && discovered[0] == startUrl
    && (forall k | 1 <= k < |discovered| :: WorkerLinkOk(env, domain, paths, discovered[k]))
    && (forall u :: u in visited <==> u in fetched)
  }

  /** Requesting page `url` and running `VisitPage` on it keeps the stream and the set as
      `Surveyed` asks. */
  lemma SurveyedVisit(env: Env, startUrl: string, domain: string, paths: seq<string>, pre: seq<Event>,
                      outbox: seq<Event>, discovered: seq<string>, visited: set<string>, processed: nat, fetched: seq<string>,
                      url: string, outbox': seq<Event>, discovered': seq<string>)
    requires Surveyed(env, startUrl, domain, paths, pre, outbox, discovered, visited, processed, fetched)
    requires discovered <= discovered' && Distinct(discovered') && |discovered'| <= MAX_URLS
    requires forall k | |discovered| <= k < |discovered'| :: WorkerLinkOk(env, domain, paths, discovered'[k])
    requires outbox <= outbox' && Ongoing(outbox', discovered')
    requires CountProgress(outbox') == CountProgress(outbox) + if (processed + 1) % 5 == 0 then 1 else 0
    ensures Surveyed(env, startUrl, domain, paths, pre, outbox', discovered', visited + {url}, processed + 1, fetched + [url])
  {
    forall k | 1 <= k < |discovered'| ensures WorkerLinkOk(env, domain, paths, discovered'[k]) {
      if k < |discovered| {
        assert discovered'[k] == discovered[k];
      }
    }
  }

  /** What holds between two rounds of the manual crawl from `startUrl`, after the log lines
      `pre`, with `processed` pages requested: the stream is ongoing with one progress report per
      five pages; the set is duplicate-free, within `MAX_URLS`, starts with `startUrl` and
      otherwise holds links that pass the test; `visited` holds the pages requested; the
      bookkeeping places them and the queue in the set; they were reached breadth-first; and
      every link of every page requested is discovered unless the set is full. */
  ghost predicate WorkerCrawling(env: Env, startUrl: string, domain: string, paths: seq<string>, pre: seq<Event>,
                                 outbox: seq<Event>, discovered: seq<string>, visited: set<string>, queue: seq<Item>,
                                 processed: nat, fetched: seq<string>, slots: seq<nat>, order: seq<nat>,
                                 depths: seq<nat>, via: seq<nat>, qvia: seq<nat>) {
    && Surveyed(env, startUrl, domain, paths, pre, outbox, discovered, visited, processed, fetched)
    && (|fetched| == 0 ==> queue == [Item(startUrl, 0)] && discovered == [startUrl] && visited == {})
    && Shape(WorkerFound(env, domain, paths), startUrl, discovered, queue, fetched, slots, order, depths, via, qvia)
  }

  /** Dropping the front of the queue, visited or too deep, keeps `WorkerCrawling`. */
  lemma CrawlingSkip(env: Env, startUrl: string, domain: string, paths: seq<string>, pre: seq<Event>,
                     outbox: seq<Event>, discovered: seq<string>, visited: set<string>, queue: seq<Item>,
                     processed: nat, fetched: seq<string>, slots: seq<nat>, order: seq<nat>,
                     depths: seq<nat>, via: seq<nat>, qvia: seq<nat>)
    requires WorkerCrawling(env, startUrl, domain, paths, pre, outbox, discovered, visited, queue, processed, fetched,
                            slots, order, depths, via, qvia)
    requires |queue| > 0 && (queue[0].url in visited || queue[0].depth > MAX_DEPTH)
    ensures WorkerCrawling(env, startUrl, domain, paths, pre, outbox, discovered, visited, queue[1..], processed, fetched,
                           slots[1..], order, depths, via, qvia[1..])
  {
    ShapeSkip(WorkerFound(env, domain, paths), startUrl, discovered, queue, fetched, slots, order, depths, via, qvia);
  }

  /** Requesting the front of the queue and running `VisitPage` on it keeps the stream, the set,
      the queue and the pages requested as `WebCrawler.Crawling` asks. */
  lemma CrawlingVisit(env: Env, startUrl: string, domain: string, paths: seq<string>, pre: seq<Event>,
                      outbox: seq<Event>, discovered: seq<string>, visited: set<string>, queue: seq<Item>,
                      processed: nat, fetched: seq<string>, slots: seq<nat>, order: seq<nat>,
                      depths: seq<nat>, via: seq<nat>, qvia: seq<nat>,
                      outbox': seq<Event>, discovered': seq<string>, queue': seq<Item>, slots': seq<nat>)
    requires WorkerCrawling(env, startUrl, domain, paths, pre, outbox, discovered, visited, queue, processed, fetched,
                            slots, order, depths, via, qvia)
    requires |queue| > 0
    requires discovered <= discovered'
    requires discovered' == InsertCapped(discovered, WorkerPageLinks(env, queue[0].url, domain, paths, discovered), MAX_URLS)
    requires Distinct(discovered') && |discovered'| <= MAX_URLS
    requires forall k | |discovered| <= k < |discovered'| :: WorkerLinkOk(env, domain, paths, discovered'[k])
    requires queue' == queue[1..] + Pushed(discovered'[|discovered|..], queue[0].depth)
    requires Frontier(discovered', queue', slots', fetched + [queue[0].url], order + [slots[0]])
    requires outbox <= outbox' && Ongoing(outbox', discovered')
    requires CountProgress(outbox') == CountProgress(outbox) + if (processed + 1) % 5 == 0 then 1 else 0
    ensures |queue'| >= |queue| - 1
    ensures WorkerCrawling(env, startUrl, domain, paths, pre, outbox', discovered', visited + {queue[0].url}, queue',
                           processed + 1, fetched + [queue[0].url], slots', order + [slots[0]],
                           depths + [queue[0].depth], via + [qvia[0]], qvia[1..] + Copies(|fetched|, |queue'| - |queue| + 1))
  {
    WorkerPageLinksFound(env, queue[0].url, domain, paths, discovered);
    ShapeVisit(WorkerFound(env, domain, paths), startUrl, WorkerPageLinks(env, queue[0].url, domain, paths, discovered),
               discovered, queue, fetched, slots, order, depths, via, qvia, discovered', queue', slots');
    SurveyedVisit(env, startUrl, domain, paths, pre, outbox, discovered, visited, processed, fetched, queue[0].url, outbox', discovered');
  }

  class WebCrawler {
    /** The insertion-ordered set of discovered URLs. */
    var discovered: seq<string>
    var visited: set<string>
    /** The FIFO queue of `{url, depth}` entries. */
    var queue: seq<Item>
    var disallowedPaths: seq<string>
    var baseUrl: string
    var baseDomain: string
    /** The messages posted with `self.postMessage`, in order. */
    var outbox: seq<Event>
    /** The pages requested by `fetchAndParse`, in order. */
    ghost var fetched: seq<string>
    /** For each page requested, the depth of its queue entry and the earlier page it was found on. */
    ghost var depths: seq<nat>
    ghost var via: seq<nat>

    /** A crawler as `new WebCrawler()` makes it. */
    ghost predicate Fresh()
      reads this
    {
      && discovered == [] && visited == {} && queue == [] && disallowedPaths == [] && outbox == []
      && fetched == [] && depths == [] && via == []
    }

    constructor()
      ensures Fresh() && baseUrl == "" && baseDomain == ""
    {
      discovered, visited, queue, disallowedPaths := [], {}, [], [];
      baseUrl, baseDomain := "", "";
      outbox, fetched, depths, via := [], [], [], [];
    }

    /** `fetchRobotsTxt()`: after FETCHING_ROBOTS, an ok response has its rules for the
        agent "*" or "bot" appended to `disallowedPaths` and their number reported when there are
        any; a failed request or a non-ok response leaves the rules as they were and says so. */
    method FetchRobotsTxt(robots: Fetched<string>)
      modifies this`disallowedPaths, this`outbox
      ensures disallowedPaths == old(disallowedPaths) + WorkerRobotsRules(robots)
      ensures outbox == old(outbox) + RobotsMessages(robots, |disallowedPaths|)
    {
      outbox := outbox + [Log(FETCHING_ROBOTS)];
      if robots.Unreachable? {
        outbox := outbox + [Log(ROBOTS_UNREACHABLE)];
        return;
      }
      if !robots.ok {
        outbox := outbox + [Log(NO_ROBOTS)];
        return;
      }
      var rules := ParseRobotsTxt(EqualsBot, robots.body);
      disallowedPaths := disallowedPaths + rules;
      if |disallowedPaths| > 0 {
        outbox := outbox + [Log("Respecting " + NatToString(|disallowedPaths|) + " robots.txt rules")];
      }
    }

    /** `fetchSitemap()`: the report of how many `<loc>` texts passed, and `slice(0, MAX_URLS)`. */
    method FetchSitemap(env: Env, sitemap: Fetched<seq<string>>) returns (urls: seq<string>)
      modifies this`outbox
      ensures urls == WorkerSitemapUrls(env, baseDomain, disallowedPaths, sitemap)
      ensures outbox == old(outbox) + SitemapMessages(sitemap, |SitemapFound(env, baseDomain, disallowedPaths, sitemap)|)
    {
      outbox := outbox + [Log(CHECKING_SITEMAP)];
      if sitemap.Unreachable? {
        outbox := outbox + [Log(SITEMAP_UNREADABLE)];
        return [];
      }
      if !sitemap.ok {
        outbox := outbox + [Log(NO_SITEMAP)];
        return [];
      }
      urls := FilterSitemap(env, sitemap.body);
      if |urls| > 0 {
        outbox := outbox + [Log("Found sitemap.xml \U{2013} adding " + NatToString(|urls|) + " URLs")];
        urls := Take(urls, MAX_URLS);
      }
    }

    /** The loop of `fetchSitemap` over the `<loc>` texts: the trimmed ones that pass, in order. */
    method FilterSitemap(env: Env, locs: seq<string>) returns (urls: seq<string>)
      ensures urls == FilterMap(locs, WorkerSitemapFilter(env, baseDomain, disallowedPaths))
      ensures forall u | u in urls :: WorkerLinkOk(env, baseDomain, disallowedPaths, u)
    {
      var domain, paths := baseDomain, disallowedPaths;
      ghost var f := WorkerSitemapFilter(env, domain, paths);
      urls := [];
      for i := 0 to |locs|
        invariant urls == FilterMap(locs[..i], f)
      {
        FilterMapSnoc(locs, f, i);
        var url := Trim(locs[i]);
        if url != "" && IsSameDomain(env, url, domain) && !WorkerSkip(env, url, paths) {
          urls := urls + [url];
        }
      }
      assert locs[..|locs|] == locs;
      forall u | u in urls ensures WorkerLinkOk(env, domain, paths, u) {
        FilterMapMember(locs, f, u);
      }
    }

    /** `fetchAndParse(url)`: the passing links of the page, in anchor order. */
    method FetchAndParse(env: Env, url: string) returns (links: seq<string>)
      ensures links == WorkerPageLinks(env, url, baseDomain, disallowedPaths, discovered)
      ensures forall n | n in links :: WorkerLinkOk(env, baseDomain, disallowedPaths, n) && n !in discovered
    {
      var response := env.fetch(url);
      if response.None? || !response.value.ok || !IsHtml(response.value) || response.value.anchors.None? {
        return [];
      }
      var anchors := response.value.anchors.value;
      ghost var f := WorkerLinkFilter(env, url, baseDomain, disallowedPaths, discovered);
      links := [];
      for i := 0 to |anchors|
        invariant links == FilterMap(anchors[..i], f)
      {
        FilterMapSnoc(anchors, f, i);
        var href := anchors[i];
        if href == "" {
          continue;
        }
        var normalized := NormalizeUrl(env, href, url);
        if normalized.Some? && IsSameDomain(env, normalized.value, baseDomain)
            && !WorkerSkip(env, normalized.value, disallowedPaths) && normalized.value !in discovered {
          links := links + [normalized.value];
        }
      }
      assert anchors[..|anchors|] == anchors;
      forall n | n in links ensures WorkerLinkOk(env, baseDomain, disallowedPaths, n) && n !in discovered {
        WorkerPageLinksMember(env, url, baseDomain, disallowedPaths, discovered, n);
      }
    }

    /** Every fifth page, before the fetch: a `progress` message with the set's size, the number
        visited, the queue's length and the estimated time left (0 once the queue is empty). */
    method ReportProgress(env: Env, processed: nat)
      requires Ongoing(outbox, discovered)
      modifies this`outbox
      ensures outbox == old(outbox) + WorkerProgress(env, processed, discovered, visited, queue)
      ensures Ongoing(outbox, discovered)
      ensures CountProgress(outbox) == CountProgress(old(outbox)) + if processed % 5 == 0 then 1 else 0
    {
      if processed % 5 == 0 {
        var eta := if |queue| > 0 then env.eta(|queue|, processed) else 0;
        var progress := Progress(|discovered|, |visited|, |queue|, eta);
        OngoingQuiet(outbox, discovered, discovered, progress);
        CountProgressSnoc(outbox, progress);
        outbox := outbox + [progress];
      }
    }

    /** One page of the crawl loop, the `processed`-th: the front of the queue is taken off and
        marked visited (and recorded as requested, at its depth, found on page `parent`), then the
        progress report, the fetch and the discovery step. The set grows by the page's links in
        anchor order up to `MAX_URLS`, all of which pass the test, and stays duplicate-free; the new
        links are queued one level deeper (taking their positions in the bookkeeping); the outbox
        gains the report and the discovery messages, and stays ongoing. */
    method VisitPage(env: Env, processed: nat, ghost parent: nat, ghost slots: seq<nat>, ghost order: seq<nat>)
        returns (ghost slots': seq<nat>)
      requires |queue| > 0
      requires Ongoing(outbox, discovered) && Distinct(discovered) && |discovered| <= MAX_URLS
      requires Frontier(discovered, queue[1..], slots, fetched + [queue[0].url], order)
      modifies this`discovered, this`visited, this`queue, this`outbox, this`fetched, this`depths, this`via
      ensures var item := old(queue)[0];
        && visited == old(visited) + {item.url} && fetched == old(fetched) + [item.url]
        && depths == old(depths) + [item.depth] && via == old(via) + [parent]
        && old(discovered) <= discovered
        && discovered == InsertCapped(old(discovered), WorkerPageLinks(env, item.url, baseDomain, disallowedPaths, old(discovered)), MAX_URLS)
        && queue == old(queue)[1..] + Pushed(discovered[|old(discovered)|..], item.depth)
        && outbox == old(outbox) + WorkerProgress(env, processed, old(discovered), visited, old(queue)[1..]) +
             DiscoveryEvents(env, old(discovered), discovered[|old(discovered)|..])
      ensures Distinct(discovered) && |discovered| <= MAX_URLS
      ensures forall k | |old(discovered)| <= k < |discovered| :: WorkerLinkOk(env, baseDomain, disallowedPaths, discovered[k])
      ensures Frontier(discovered, queue, slots', fetched, order)
      ensures old(outbox) <= outbox && Ongoing(outbox, discovered)
      ensures CountProgress(outbox) == CountProgress(old(outbox)) + if processed % 5 == 0 then 1 else 0
    {
      var item := queue[0];
      queue, visited := queue[1..], visited + {item.url};
      fetched, depths, via := fetched + [item.url], depths + [item.depth], via + [parent];
      ReportProgress(env, processed);
      var links := FetchAndParse(env, item.url);
      slots' := Discover(env, links, item.depth, slots, order);
    }

    /** The discovery step for the links of a page fetched at `depth`, all of which pass the test. */
    method Discover(env: Env, links: seq<string>, depth: nat, ghost slots: seq<nat>, ghost order: seq<nat>)
        returns (ghost slots': seq<nat>)
      requires Ongoing(outbox, discovered) && Distinct(discovered) && |discovered| <= MAX_URLS
      requires Frontier(discovered, queue, slots, fetched, order)
      requires forall n | n in links :: WorkerLinkOk(env, baseDomain, disallowedPaths, n)
      modifies this`discovered, this`queue, this`outbox
      ensures old(discovered) <= discovered && discovered == InsertCapped(old(discovered), links, MAX_URLS)
      ensures Distinct(discovered) && |discovered| <= MAX_URLS
      ensures forall k | |old(discovered)| <= k < |discovered| :: WorkerLinkOk(env, baseDomain, disallowedPaths, discovered[k])
      ensures queue == old(queue) + Pushed(discovered[|old(discovered)|..], depth)
      ensures Frontier(discovered, queue, slots', fetched, order)
      ensures outbox == old(outbox) + DiscoveryEvents(env, old(discovered), discovered[|old(discovered)|..])
      ensures old(outbox) <= outbox && Ongoing(outbox, discovered) && CountProgress(outbox) == CountProgress(old(outbox))
    {
      ghost var d0 := discovered;
      WorkerDiscoveryStep(env, baseDomain, disallowedPaths, links, depth, discovered, queue, outbox, slots, fetched, order);
      discovered, queue, outbox := ProcessLinks(env, links, depth, discovered, queue, outbox);
      slots' := slots + NewSlots(|d0|, discovered[|d0|..], depth);
    }

    /** `WorkerCrawling` of the crawler's own fields. */
    ghost predicate Crawling(env: Env, startUrl: string, pre: seq<Event>, processed: nat, slots: seq<nat>, order: seq<nat>, qvia: seq<nat>)
      reads this
    {
      WorkerCrawling(env, startUrl, baseDomain, disallowedPaths, pre, outbox, discovered, visited, queue, processed, fetched,
                     slots, order, depths, via, qvia)
    }

    /** One round of the crawl loop: the front of the queue is taken off and, unless it was visited
        or is deeper than `MAX_DEPTH`, marked visited and crawled by `VisitPage`. */
    method Round(env: Env, ghost startUrl: string, ghost pre: seq<Event>, processed: nat,
                 ghost slots: seq<nat>, ghost order: seq<nat>, ghost qvia: seq<nat>)
        returns (processed': nat, ghost slots': seq<nat>, ghost order': seq<nat>, ghost qvia': seq<nat>)
      requires Crawling(env, startUrl, pre, processed, slots, order, qvia) && |queue| > 0 && |discovered| < MAX_URLS
      modifies this`discovered, this`visited, this`queue, this`outbox, this`fetched, this`depths, this`via
      ensures Crawling(env, startUrl, pre, processed', slots', order', qvia')
      ensures old(discovered) <= discovered
      ensures |old(discovered)| < |discovered| || (|old(discovered)| == |discovered| && |queue| < |old(queue)|)
      ensures var item := old(queue)[0];
        if item.url in old(visited) || item.depth > MAX_DEPTH then
          && queue == old(queue)[1..] && discovered == old(discovered) && visited == old(visited)
          && outbox == old(outbox) && fetched == old(fetched) && processed' == processed
        else
          && visited == old(visited) + {item.url} && processed' == processed + 1
          && fetched == old(fetched) + [item.url] && depths == old(depths) + [item.depth]
          && discovered == InsertCapped(old(discovered), WorkerPageLinks(env, item.url, baseDomain, disallowedPaths, old(discovered)), MAX_URLS)
          && queue == old(queue)[1..] + Pushed(discovered[|old(discovered)|..], item.depth)
          && outbox == old(outbox) + WorkerProgress(env, processed', old(discovered), visited, old(queue)[1..]) +
               DiscoveryEvents(env, old(discovered), discovered[|old(discovered)|..])
    {
      ghost var domain, paths := baseDomain, disallowedPaths;
      var item := queue[0];
      if item.url in visited || item.depth > MAX_DEPTH {
        CrawlingSkip(env, startUrl, domain, paths, pre, outbox, discovered, visited, queue, processed, fetched,
                     slots, order, depths, via, qvia);
        queue, slots', order', qvia', processed' := queue[1..], slots[1..], order, qvia[1..], processed;
        return;
      }
      ghost var d0, q0, f0, depths0, via0, o0, v0 := discovered, queue, fetched, depths, via, outbox, visited;
      FrontierVisit(discovered, queue, slots, fetched, order);
      order', processed' := order + [slots[0]], processed + 1;
      slots' := VisitPage(env, processed', qvia[0], slots[1..], order');
      assert baseDomain == domain && disallowedPaths == paths;
      ghost var d1, q1, o1 := discovered, queue, outbox;
      qvia' := qvia[1..] + Copies(|f0|, |q1| - |q0| + 1);
      CrawlingVisit(env, startUrl, domain, paths, pre, o0, d0, v0, q0, processed, f0, slots, order, depths0, via0, qvia,
                    o1, d1, q1, slots');
    }

    /** The manual crawl (from `discovered.add(startUrl)`): breadth-first over the FIFO queue while
        it is not empty and fewer than `MAX_URLS` URLs are discovered, after the log lines already
        posted; pages are requested in the order they were discovered, none twice, each at the
        depth `depths` records and found on the earlier page `via` records, so none deeper than
        `MAX_DEPTH`; unless the set fills up, every link of every page requested is discovered. */
    method CrawlManually(env: Env, startUrl: string) returns (ghost order: seq<nat>)
      requires discovered == [] && visited == {} && queue == [] && fetched == [] && depths == [] && via == []
      requires IsSameDomain(env, startUrl, baseDomain)
      requires forall i | 0 <= i < |outbox| :: outbox[i].Log?
      modifies this`discovered, this`visited, this`queue, this`outbox, this`fetched, this`depths, this`via
      ensures old(outbox) + [Log("Crawling " + startUrl)] <= outbox
      ensures Completed(outbox, discovered) && CountProgress(outbox) == |fetched| / 5
      ensures Distinct(discovered) && 1 <= |discovered| <= MAX_URLS && discovered[0] == startUrl
      ensures forall k | 1 <= k < |discovered| :: WorkerLinkOk(env, baseDomain, disallowedPaths, discovered[k])
      ensures |fetched| >= 1 && fetched[0] == startUrl
      ensures Picks(discovered, order, fetched) && Increasing(order)
      ensures BreadthFirst(WorkerFound(env, baseDomain, disallowedPaths), startUrl, fetched, depths, via)
      ensures Covered(WorkerFound(env, baseDomain, disallowedPaths), discovered, fetched)
      ensures forall u :: u in visited <==> u in fetched
    {
      ghost var pre := StartManually(env, startUrl);
      ghost var slots, qvia: seq<nat> := [0], [0];
      order := [];
      var urlsProcessed: nat := 0;
      while |queue| > 0 && |discovered| < MAX_URLS
        invariant Crawling(env, startUrl, pre, urlsProcessed, slots, order, qvia)
        decreases MAX_URLS - |discovered|, |queue|
      {
        urlsProcessed, slots, order, qvia := Round(env, startUrl, pre, urlsProcessed, slots, order, qvia);
      }
      FinishManually(env, startUrl, pre, urlsProcessed, slots, order, qvia);
    }

    /** The start of the manual crawl: `startUrl` is discovered and queued at depth 0, and its
        "Crawling" line posted. */
    method StartManually(env: Env, startUrl: string) returns (ghost pre: seq<Event>)
      requires discovered == [] && visited == {} && queue == [] && fetched == [] && depths == [] && via == []
      requires forall i | 0 <= i < |outbox| :: outbox[i].Log?
      modifies this`discovered, this`queue, this`outbox
      ensures pre == old(outbox) + [Log("Crawling " + startUrl)]
      ensures Crawling(env, startUrl, pre, 0, [0], [], [0])
    {
      ShapeStart(WorkerFound(env, baseDomain, disallowedPaths), startUrl);
      discovered := discovered + [startUrl];
      queue := queue + [Item(startUrl, 0)];
      CountProgressLogs(outbox);
      outbox := outbox + [Log("Crawling " + startUrl)];
      pre := outbox;
    }

    /** The end of the manual crawl, once the queue is empty or the set is full: the complete
        snapshot and the closing line. */
    method FinishManually(env: Env, ghost startUrl: string, ghost pre: seq<Event>, processed: nat,
                          ghost slots: seq<nat>, ghost order: seq<nat>, ghost qvia: seq<nat>)
      requires Crawling(env, startUrl, pre, processed, slots, order, qvia) && !(|queue| > 0 && |discovered| < MAX_URLS)
      modifies this`outbox
      ensures pre <= outbox
      ensures Completed(outbox, discovered) && CountProgress(outbox) == |fetched| / 5
      ensures Distinct(discovered) && 1 <= |discovered| <= MAX_URLS && discovered[0] == startUrl
      ensures forall k | 1 <= k < |discovered| :: WorkerLinkOk(env, baseDomain, disallowedPaths, discovered[k])
      ensures |fetched| >= 1 && fetched[0] == startUrl
      ensures Picks(discovered, order, fetched) && Increasing(order)
      ensures BreadthFirst(WorkerFound(env, baseDomain, disallowedPaths), startUrl, fetched, depths, via)
      ensures Covered(WorkerFound(env, baseDomain, disallowedPaths), discovered, fetched)
      ensures forall u :: u in visited <==> u in fetched
    {
      ShapeDone(WorkerFound(env, baseDomain, disallowedPaths), startUrl, discovered, queue, fetched, slots, order, depths, via, qvia);
      var done := Log(CRAWLING_COMPLETE + NatToString(|discovered|) + " URLs found");
      Complete(outbox, discovered, done.message);
      outbox := outbox + [Urls(discovered, true), done];
    }

    /** `for (const url of sitemapUrls) this.discovered.add(url)`. */
    method AddAll(urls: seq<string>)
      modifies this`discovered
      ensures discovered == InsertAll(old(discovered), urls)
    {
      ghost var d0 := discovered;
      for i := 0 to |urls|
        invariant discovered == InsertAll(d0, urls[..i])
      {
        assert urls[..i + 1][..i] == urls[..i];
        if urls[i] !in discovered {
          discovered := discovered + [urls[i]];
        }
      }
      assert urls[..|urls|] == urls;
    }

    /** The start of `crawl` once the start URL has parsed: the greeting, then the robots.txt and
        sitemap fetches, which post only log lines. */
    method Begin(env: Env, robots: Fetched<string>, sitemap: Fetched<seq<string>>) returns (sitemapUrls: seq<string>)
      requires outbox == [] && disallowedPaths == []
      modifies this`outbox, this`disallowedPaths
      ensures disallowedPaths == WorkerRobotsRules(robots)
      ensures sitemapUrls == WorkerSitemapUrls(env, baseDomain, disallowedPaths, sitemap)
      ensures outbox == Opening(env, baseDomain, robots, sitemap)
      ensures Greeted(outbox, baseDomain)
    {
      var greeting := [Log(STARTING_CRAWL + baseDomain)];
      outbox := outbox + greeting;
      FetchRobotsTxt(robots);
      assert disallowedPaths == WorkerRobotsRules(robots);
      ghost var afterRobots := greeting + RobotsMessages(robots, |disallowedPaths|);
      assert outbox == afterRobots;
      sitemapUrls := FetchSitemap(env, sitemap);
      ghost var found := |SitemapFound(env, baseDomain, disallowedPaths, sitemap)|;
      assert outbox == afterRobots + SitemapMessages(sitemap, found);
      GreetedMessages(baseDomain, robots, |disallowedPaths|, sitemap, found);
    }

    /** The sitemap way: its URLs become the set, which is posted complete with the closing line. */
    method FinishFromSitemap(env: Env, startUrl: string, sitemap: Fetched<seq<string>>, sitemapUrls: seq<string>)
      requires discovered == [] && fetched == [] && depths == [] && via == [] && Greeted(outbox, baseDomain)
      requires sitemapUrls == WorkerSitemapUrls(env, baseDomain, disallowedPaths, sitemap) && sitemapUrls != []
      modifies this`discovered, this`outbox
      ensures WorkerOutcome(env, startUrl, baseDomain, disallowedPaths, sitemap, outbox, discovered, fetched, depths, via)
      ensures outbox == old(outbox) + [Urls(discovered, true), Log(SitemapDone(|discovered|))]
    {
      var domain, paths, pre := baseDomain, disallowedPaths, outbox;
      AddAll(sitemapUrls);
      var done := Log(SitemapDone(|discovered|));
      WorkerSitemapOutcome(env, startUrl, domain, paths, sitemap, pre, done.message);
      outbox := outbox + [Urls(discovered, true), done];
    }

    /** `crawl(startUrl)` on a new crawler, `robots` and `sitemap` being the outcomes of its two
        fetches (the sitemap's `<loc>` texts). A start URL that does not parse posts the one error
        message; otherwise the robots rules are kept and the crawl ends as `WorkerOutcome` says,
        with `visited` holding exactly the pages requested. */
    method Crawl(env: Env, startUrl: string, robots: Fetched<string>, sitemap: Fetched<seq<string>>)
      requires Fresh()
      modifies this
      ensures baseUrl == startUrl
      ensures env.parse(startUrl).None? ==> outbox == [Error("Invalid URL provided")] && fetched == [] && discovered == []
      ensures env.parse(startUrl).Some? ==>
        && baseDomain == env.parse(startUrl).value.hostname
        && disallowedPaths == WorkerRobotsRules(robots)
        && WorkerOutcome(env, startUrl, baseDomain, disallowedPaths, sitemap, outbox, discovered, fetched, depths, via)
        && (forall u :: u in visited <==> u in fetched)
      ensures env.parse(startUrl).Some? && WorkerSitemapUrls(env, baseDomain, disallowedPaths, sitemap) != [] ==>
        outbox == Opening(env, baseDomain, robots, sitemap) + [Urls(discovered, true), Log(SitemapDone(|discovered|))]
      ensures env.parse(startUrl).Some? && WorkerSitemapUrls(env, baseDomain, disallowedPaths, sitemap) == [] ==>
        Opening(env, baseDomain, robots, sitemap) + [Log("Crawling " + startUrl)] <= outbox
    {
      baseUrl := startUrl;
      if env.parse(startUrl).None? {
        outbox := outbox + [Error("Invalid URL provided")];
        return;
      }
      baseDomain := env.parse(startUrl).value.hostname;
      var sitemapUrls := Begin(env, robots, sitemap);
      if |sitemapUrls| > 0 {
        FinishFromSitemap(env, startUrl, sitemap, sitemapUrls);
        return;
      }
      var domain, paths, pre := baseDomain, disallowedPaths, outbox;
      ghost var order := CrawlManually(env, startUrl);
      WorkerManualOutcome(env, startUrl, domain, paths, sitemap, pre, outbox, discovered, fetched, order, depths, via);
    }
  }

  /** `self.onmessage`: a `start` message runs a new crawler on its URL; any other is ignored. */
  method OnMessage(env: Env, kind: string, url: string, robots: Fetched<string>, sitemap: Fetched<seq<string>>)
      returns (crawler: WebCrawler?)
    ensures kind != "start" ==> crawler == null
    ensures kind == "start" ==> crawler != null && fresh(crawler) && crawler.baseUrl == url
    ensures kind == "start" && env.parse(url).None? ==> crawler.outbox == [Error("Invalid URL provided")]
    ensures kind == "start" && env.parse(url).Some? ==>
      WorkerOutcome(env, url, crawler.baseDomain, crawler.disallowedPaths, sitemap, crawler.outbox, crawler.discovered,
                    crawler.fetched, crawler.depths, crawler.via)
    ensures kind == "start" && env.parse(url).Some? ==> Opening(env, crawler.baseDomain, robots, sitemap) <= crawler.outbox
  {
    if kind != "start" {
      return null;
    }
    crawler := new WebCrawler();
    crawler.Crawl(env, url, robots, sitemap);
  }
}

=== FILE: embeddings.dfy ===
/** `splitIntoChunks` of the embeddings function: the text is split into words at runs of white
    space, and the words are packed greedily into chunks of at most `maxTokens` estimated tokens
    (a quarter of a word's length, rounded up). When a word no longer fits, the chunk is flushed
    and the next one starts with the last 12 words of the flushed one. Chunks whose trimmed text
    has at most 50 characters are dropped at the end. */
module Embeddings {
  import opened Text
  import opened Seqs
  import opened Words

  /** The default token budget of a chunk. */
  const CHUNK_SIZE: int := 512

  /** The overlap, in characters, between consecutive chunks. */
  const CHUNK_OVERLAP: nat := 50

  /** The overlap in words: `Math.floor(CHUNK_OVERLAP / 4)`, that is 12. */
  const OVERLAP_WORDS: nat := CHUNK_OVERLAP / 4

  /** A chunk survives the final filter when its trimmed text is longer than this. */
  const MIN_CHUNK_CHARS: nat := 50

  /** `Math.ceil(word.length / 4)`: the estimated tokens of a word, the least `r` with `4 * r` at
      least its length in UTF-16 code units. */
  function TokenCost(w: string): (r: nat)
    ensures 4 * r >= Utf16Length(w) && (r == 0 || 4 * (r - 1) < Utf16Length(w))
    ensures r == 0 <==> w == []
  {
    (Utf16Length(w) + 3) / 4
  }

  /** Five emoji are ten code units, so they cost three tokens where five letters cost two. */
  lemma EmojiCost()
    ensures TokenCost("\U{1F600}\U{1F600}\U{1F600}\U{1F600}\U{1F600}") == 3
    ensures TokenCost("hello") == 2
  {
    var x := '\U{1F600}';
    var e := [x, x, x, x, x];
    assert x as int > 0xFFFF;
    assert [x][..0] == [] && Utf16Length([x]) == 2;
    assert [x, x][..1] == [x] && Utf16Length([x, x]) == 4;
    assert [x, x, x][..2] == [x, x] && Utf16Length([x, x, x]) == 6;
    assert e[..4] == [x, x, x, x] && e[..4][..3] == [x, x, x] && Utf16Length(e[..4]) == 8;
    var h := "hello";
    assert "h"[..0] == [] && Utf16Length("h") == 1;
    assert "he"[..1] == "h" && Utf16Length("he") == 2;
    assert "hel"[..2] == "he" && Utf16Length("hel") == 3;
    assert "hell"[..3] == "hel" && Utf16Length("hell") == 4;
    assert h[..4] == "hell";
  }

  /** The estimated tokens of a list of words (the `reduce` that recomputes `currentLength`). */
  function CostSum(ws: seq<string>): nat {
    if ws == [] then 0 else CostSum(ws[..|ws| - 1]) + TokenCost(ws[|ws| - 1])
  }

  /** The words carried over into the next chunk: `currentChunk.slice(-12)`. */
  function Overlap(chunk: seq<string>): (r: seq<string>)
    ensures |r| == if |chunk| < OVERLAP_WORDS then |chunk| else OVERLAP_WORDS
    ensures forall i | 0 <= i < |r| :: r[i] == chunk[|chunk| - |r| + i]
  {
    if |chunk| < OVERLAP_WORDS then chunk else chunk[|chunk| - OVERLAP_WORDS..]
  }

  /** The state of the packing loop: the chunks flushed so far (as word lists), `currentChunk`
      and `currentLength`. */
  datatype Packer = Packer(flushed: seq<seq<string>>, current: seq<string>, length: nat)

  /** The body of the loop for one word: when the current chunk is non-empty and the word would
      take it past `maxTokens`, the chunk is flushed and the next one starts with its overlap;
      then the word is pushed. */
  function PackStep(p: Packer, w: string, maxTokens: int): Packer {
    var cost := TokenCost(w);
    if p.length + cost > maxTokens && |p.current| > 0 then
      var keep := Overlap(p.current);
      Packer(p.flushed + [p.current], keep + [w], CostSum(keep) + cost)
    else
      Packer(p.flushed, p.current + [w], p.length + cost)
  }

  /** The loop run over `words`, from no chunks and an empty current chunk. */
  function Pack(words: seq<string>, maxTokens: int): Packer {
    if words == [] then Packer([], [], 0)
    else PackStep(Pack(words[..|words| - 1], maxTokens), words[|words| - 1], maxTokens)
  }

  /** The chunks as word lists once the loop is over: the current chunk is flushed when it is
      non-empty. */
  function Groups(p: Packer): seq<seq<string>> {
    if |p.current| > 0 then p.flushed + [p.current] else p.flushed
  }

  /** `chunk.join(' ')` for each chunk. */
  function JoinEach(gs: seq<seq<string>>): (r: seq<string>)
    ensures |r| == |gs| && forall k | 0 <= k < |r| :: r[k] == Join(gs[k], " ")
  {
    seq(|gs|, k requires 0 <= k < |gs| => Join(gs[k], " "))
  }

  /** The final filter: `chunk.trim().length > 50`, a length in UTF-16 code units. */
  predicate LongChunk(c: string) {
    Utf16Length(Trim(c)) > MIN_CHUNK_CHARS
  }

  /** What `splitIntoChunks(text, maxTokens)` returns. */
  function Chunks(text: string, maxTokens: int): seq<string> {
    Filter(JoinEach(Groups(Pack(SplitWs(text), maxTokens))), LongChunk)
  }

  /** `s[n..]`, or nothing when `s` is shorter than `n`. */
  function Drop(s: seq<string>, n: nat): seq<string> {
    if n <= |s| then s[n..] else []
  }

  /** The words of a chunk list with the overlap prefix of every chunk after the first removed. */
  function FreshWords(gs: seq<seq<string>>): seq<string> {
    if gs == [] then []
    else if |gs| == 1 then gs[0]
    else FreshWords(gs[..|gs| - 1]) + Drop(gs[|gs| - 1], |Overlap(gs[|gs| - 2])|)
  }

  /** A chunk `g` after `prev` starts with the overlap of `prev` and has a word after it. */
  predicate Link(prev: seq<string>, g: seq<string>) {
    |Overlap(prev)| < |g| && g[..|Overlap(prev)|] == Overlap(prev)
  }

  /** A chunk after `prev` fits the budget unless it holds a single word after its overlap: that
      word was pushed without a check. */
  predicate FitsAfter(prev: seq<string>, g: seq<string>, maxTokens: int) {
    CostSum(g) <= maxTokens || |g| == |Overlap(prev)| + 1
  }

  /** The first chunk fits the budget unless it is a single word. */
  predicate FitsFirst(g: seq<string>, maxTokens: int) {
    CostSum(g) <= maxTokens || |g| == 1
  }

  /** Every chunk after the first is linked to the one before it and fits as above, and the first
      fits; stated by recursion on the last chunk. */
  ghost predicate Linked(gs: seq<seq<string>>, maxTokens: int)
    decreases |gs|
  {
    if gs == [] then true
    else if |gs| == 1 then FitsFirst(gs[0], maxTokens)
    else
      var prev, g := gs[|gs| - 2], gs[|gs| - 1];
      Linked(gs[..|gs| - 1], maxTokens) && Link(prev, g) && FitsAfter(prev, g, maxTokens)
  }

  /** Every chunk holds a word. */
  predicate NonEmptyChunks(gs: seq<seq<string>>) {
    forall k | 0 <= k < |gs| :: |gs[k]| > 0
  }

  /** Every word of every chunk is one of `words`. */
  predicate WordsFrom(gs: seq<seq<string>>, words: seq<string>) {
    forall k, i | 0 <= k < |gs| && 0 <= i < |gs[k]| :: gs[k][i] in words
  }

  /** What holds of the chunks after the words `words`: they are non-empty, linked and within
      budget as above, made of input words, and removing the overlaps gives back the input words,
      each once and in order. */
  ghost predicate ChunkedFrom(gs: seq<seq<string>>, words: seq<string>, maxTokens: int) {
    NonEmptyChunks(gs) && Linked(gs, maxTokens) && WordsFrom(gs, words) && FreshWords(gs) == words
  }

  /** What the loop keeps true after the words `words`: `currentLength` is the cost of the current
      chunk, the current chunk is empty only before the first word, and the chunks (the current
      one included) are as `ChunkedFrom` says. */
  ghost predicate Packed(p: Packer, words: seq<string>, maxTokens: int) {
    && p.length == CostSum(p.current)
    && (p.current == [] <==> words == [])
    && (p.current == [] ==> p.flushed == [])
    && ChunkedFrom(Groups(p), words, maxTokens)
  }

  /** The cost of a list grows by the cost of a word pushed onto it. */
  lemma CostSumSnoc(ws: seq<string>, w: string)
    ensures CostSum(ws + [w]) == CostSum(ws) + TokenCost(w)
  {
    var ws' := ws + [w];
    assert ws'[..|ws|] == ws && ws'[|ws'| - 1] == w;
  }

  /** Removing the overlap of the chunks so far and then one more chunk. */
  lemma FreshWordsSnoc(gs: seq<seq<string>>, g: seq<string>)
    requires gs != []
    ensures FreshWords(gs + [g]) == FreshWords(gs) + Drop(g, |Overlap(gs[|gs| - 1])|)
  {
    var gs' := gs + [g];
    assert gs'[..|gs|] == gs;
    assert gs'[|gs'| - 2] == gs[|gs| - 1] && gs'[|gs'| - 1] == g;
  }

  /** `Linked` for one more chunk. */
  lemma LinkedSnoc(gs: seq<seq<string>>, g: seq<string>, maxTokens: int)
    requires gs != []
    ensures Linked(gs + [g], maxTokens) <==>
      Linked(gs, maxTokens) && Link(gs[|gs| - 1], g) && FitsAfter(gs[|gs| - 1], g, maxTokens)
  {
    var gs' := gs + [g];
    assert gs'[..|gs|] == gs;
    assert gs'[|gs'| - 2] == gs[|gs| - 1] && gs'[|gs'| - 1] == g;
  }

  /** One more chunk made of input words and the next word. */
  lemma WordsFromSnoc(gs: seq<seq<string>>, g: seq<string>, words: seq<string>, w: string)
    requires WordsFrom(gs, words) && forall i | 0 <= i < |g| :: g[i] in words + [w]
    ensures WordsFrom(gs + [g], words + [w])
  {
    var gs' := gs + [g];
    forall k, i | 0 <= k < |gs'| && 0 <= i < |gs'[k]| ensures gs'[k][i] in words + [w] {
      if k < |gs| {
        assert gs'[k][i] == gs[k][i] && gs[k][i] in words;
      }
    }
  }

  /** The overlap of the last chunk followed by the next word is made of input words. */
  lemma OverlapWordsFrom(gs: seq<seq<string>>, words: seq<string>, w: string)
    requires gs != [] && WordsFrom(gs, words)
    ensures var g := Overlap(gs[|gs| - 1]) + [w]; forall i | 0 <= i < |g| :: g[i] in words + [w]
  {
    var last := gs[|gs| - 1];
    var keep := Overlap(last);
    var g := keep + [w];
    forall i | 0 <= i < |g| ensures g[i] in words + [w] {
      if i < |keep| {
        assert g[i] == last[|last| - |keep| + i];
      }
    }
  }

  /** A new chunk made of the overlap of the last one and the next word. */
  lemma AppendChunk(gs: seq<seq<string>>, words: seq<string>, w: string, maxTokens: int)
    requires gs != [] && ChunkedFrom(gs, words, maxTokens)
    ensures ChunkedFrom(gs + [Overlap(gs[|gs| - 1]) + [w]], words + [w], maxTokens)
  {
    var keep := Overlap(gs[|gs| - 1]);
    var g := keep + [w];
    assert Drop(g, |keep|) == [w] && g[..|keep|] == keep;
    FreshWordsSnoc(gs, g);
    LinkedSnoc(gs, g, maxTokens);
    OverlapWordsFrom(gs, words, w);
    WordsFromSnoc(gs, g, words, w);
  }

  /** The next word pushed onto the last chunk. */
  lemma ExtendChunk(gs: seq<seq<string>>, c: seq<string>, words: seq<string>, w: string, maxTokens: int)
    requires ChunkedFrom(gs + [c], words, maxTokens) && CostSum(c + [w]) <= maxTokens
    ensures ChunkedFrom(gs + [c + [w]], words + [w], maxTokens)
  {
    if gs == [] {
      ExtendFirst(c, words, w, maxTokens);
    } else {
      ExtendLinked(gs, c, w, maxTokens);
      ExtendFresh(gs, c, w);
      ExtendNonEmpty(gs, c, w);
      WordsFromExtend(gs, c, words, w);
    }
  }

  /** The next word pushed onto the only chunk. */
  lemma ExtendFirst(c: seq<string>, words: seq<string>, w: string, maxTokens: int)
    requires ChunkedFrom([c], words, maxTokens) && CostSum(c + [w]) <= maxTokens
    ensures ChunkedFrom([c + [w]], words + [w], maxTokens)
  {
    assert FreshWords([c]) == c;
    var g := c + [w];
    forall k, i | 0 <= k < |[g]| && 0 <= i < |[g][k]| ensures [g][k][i] in words + [w] {
      assert [g][k][i] == (words + [w])[i];
    }
  }

  /** Pushing a word keeps every chunk non-empty. */
  lemma ExtendNonEmpty(gs: seq<seq<string>>, c: seq<string>, w: string)
    requires NonEmptyChunks(gs + [c])
    ensures NonEmptyChunks(gs + [c + [w]])
  {
    var gs1, gs2 := gs + [c], gs + [c + [w]];
    forall k | 0 <= k < |gs2| ensures |gs2[k]| > 0 {
      if k < |gs| {
        assert gs2[k] == gs1[k];
      }
    }
  }

  /** Pushing a word that fits keeps the chunks linked. */
  lemma ExtendLinked(gs: seq<seq<string>>, c: seq<string>, w: string, maxTokens: int)
    requires gs != [] && Linked(gs + [c], maxTokens) && CostSum(c + [w]) <= maxTokens
    ensures Linked(gs + [c + [w]], maxTokens)
  {
    var n := |Overlap(gs[|gs| - 1])|;
    LinkedSnoc(gs, c, maxTokens);
    LinkedSnoc(gs, c + [w], maxTokens);
    assert (c + [w])[..n] == c[..n];
  }

  /** Pushing a word onto the last chunk adds it to the fresh words. */
  lemma ExtendFresh(gs: seq<seq<string>>, c: seq<string>, w: string)
    requires gs != [] && |Overlap(gs[|gs| - 1])| < |c|
    ensures FreshWords(gs + [c + [w]]) == FreshWords(gs + [c]) + [w]
  {
    var n := |Overlap(gs[|gs| - 1])|;
    calc {
      FreshWords(gs + [c + [w]]);
      == { FreshWordsSnoc(gs, c + [w]); }
      FreshWords(gs) + Drop(c + [w], n);
      == { DropSnoc(c, w, n); }
      FreshWords(gs) + (Drop(c, n) + [w]);
      == { FreshWordsSnoc(gs, c); }
      FreshWords(gs + [c]) + [w];
    }
  }

  /** Dropping a prefix shorter than the list commutes with pushing a word. */
  lemma DropSnoc(c: seq<string>, w: string, n: nat)
    requires n < |c|
    ensures Drop(c + [w], n) == Drop(c, n) + [w]
  {
    assert (c + [w])[n..] == c[n..] + [w];
  }

  /** The last chunk made of input words, followed by the next word. */
  lemma WordsFromExtend(gs: seq<seq<string>>, c: seq<string>, words: seq<string>, w: string)
    requires WordsFrom(gs + [c], words)
    ensures WordsFrom(gs + [c + [w]], words + [w])
  {
    var gs1, gs2 := gs + [c], gs + [c + [w]];
    forall k, i | 0 <= k < |gs2| && 0 <= i < |gs2[k]| ensures gs2[k][i] in words + [w] {
      if k < |gs| || i < |c| {
        assert gs2[k][i] == gs1[k][i] && gs1[k][i] in words;
      }
    }
  }

  /** A flush keeps the loop state. */
  lemma FlushPacked(p: Packer, words: seq<string>, w: string, maxTokens: int)
    requires Packed(p, words, maxTokens)
    requires p.length + TokenCost(w) > maxTokens && |p.current| > 0
    ensures Packed(PackStep(p, w, maxTokens), words + [w], maxTokens)
  {
    var gs := Groups(p);
    var keep := Overlap(p.current);
    assert gs[|gs| - 1] == p.current;
    assert Groups(PackStep(p, w, maxTokens)) == gs + [keep + [w]];
    CostSumSnoc(keep, w);
    AppendChunk(gs, words, w, maxTokens);
  }

  /** Pushing a word without a flush keeps the loop state. */
  lemma PushPacked(p: Packer, words: seq<string>, w: string, maxTokens: int)
    requires Packed(p, words, maxTokens)
    requires !(p.length + TokenCost(w) > maxTokens && |p.current| > 0)
    ensures Packed(PackStep(p, w, maxTokens), words + [w], maxTokens)
  {
    if p.current == [] {
      FirstPacked(p, words, w, maxTokens);
    } else {
      var c := p.current;
      CostSumSnoc(c, w);
      assert Groups(p) == p.flushed + [c];
      assert Groups(PackStep(p, w, maxTokens)) == p.flushed + [c + [w]];
      ExtendChunk(p.flushed, c, words, w, maxTokens);
    }
  }

  /** The first word starts the first chunk. */
  lemma FirstPacked(p: Packer, words: seq<string>, w: string, maxTokens: int)
    requires Packed(p, words, maxTokens) && p.current == []
    ensures Packed(PackStep(p, w, maxTokens), words + [w], maxTokens)
  {
    CostSumSnoc([], w);
    assert [] + [w] == [w];
    assert Groups(PackStep(p, w, maxTokens)) == [[w]];
    assert words + [w] == [w];
  }

  /** The loop state after any list of words. */
  lemma {:induction false} PackPacked(words: seq<string>, maxTokens: int)
    ensures Packed(Pack(words, maxTokens), words, maxTokens)
  {
    if words != [] {
      var init, w := words[..|words| - 1], words[|words| - 1];
      assert init + [w] == words;
      PackPacked(init, maxTokens);
      var p := Pack(init, maxTokens);
      if p.length + TokenCost(w) > maxTokens && |p.current| > 0 {
        FlushPacked(p, init, w, maxTokens);
      } else {
        PushPacked(p, init, w, maxTokens);
      }
    }
  }

  /** Every chunk but the last was flushed only because the first word after the overlap in the
      next chunk would have taken it past `maxTokens`. */
  predicate Greedy(gs: seq<seq<string>>, maxTokens: int) {
    forall k | 0 <= k < |gs| - 1 ::
      |Overlap(gs[k])| < |gs[k + 1]| && CostSum(gs[k]) + TokenCost(gs[k + 1][|Overlap(gs[k])|]) > maxTokens
  }

  /** A flush is forced by the word that starts the next chunk after its overlap. */
  lemma FlushGreedy(p: Packer, w: string, maxTokens: int)
    requires p.length == CostSum(p.current) && Greedy(Groups(p), maxTokens)
    requires p.length + TokenCost(w) > maxTokens && |p.current| > 0
    ensures Greedy(Groups(PackStep(p, w, maxTokens)), maxTokens)
  {
    var gs := Groups(p);
    var keep := Overlap(p.current);
    var gs' := gs + [keep + [w]];
    assert Groups(PackStep(p, w, maxTokens)) == gs';
    forall k | 0 <= k < |gs'| - 1
      ensures |Overlap(gs'[k])| < |gs'[k + 1]| && CostSum(gs'[k]) + TokenCost(gs'[k + 1][|Overlap(gs'[k])|]) > maxTokens
    {
      if k == |gs| - 1 {
        assert gs'[k] == p.current && gs'[k + 1] == keep + [w];
        assert gs'[k + 1][|keep|] == w;
      } else {
        assert gs'[k] == gs[k] && gs'[k + 1] == gs[k + 1];
      }
    }
  }

  /** Pushing a word onto the last chunk leaves the word after its overlap in place. */
  lemma PushGreedy(p: Packer, w: string, maxTokens: int)
    requires (p.current == [] ==> p.flushed == []) && Greedy(Groups(p), maxTokens)
    requires !(p.length + TokenCost(w) > maxTokens && |p.current| > 0)
    ensures Greedy(Groups(PackStep(p, w, maxTokens)), maxTokens)
  {
    if p.current != [] {
      var c := p.current;
      var gs, gs' := p.flushed + [c], p.flushed + [c + [w]];
      assert Groups(p) == gs && Groups(PackStep(p, w, maxTokens)) == gs';
      forall k | 0 <= k < |gs'| - 1
        ensures |Overlap(gs'[k])| < |gs'[k + 1]| && CostSum(gs'[k]) + TokenCost(gs'[k + 1][|Overlap(gs'[k])|]) > maxTokens
      {
        assert gs'[k] == gs[k];
        if k + 1 == |gs| - 1 {
          assert gs'[k + 1] == c + [w] && gs[k + 1] == c;
          assert (c + [w])[|Overlap(gs[k])|] == c[|Overlap(gs[k])|];
        } else {
          assert gs'[k + 1] == gs[k + 1];
        }
      }
    } else {
      assert p.flushed == [] && p.current + [w] == [w];
      assert Groups(PackStep(p, w, maxTokens)) == [[w]];
    }
  }

  /** The packing loop flushes a chunk only when the next word does not fit, for every list of
      words. */
  lemma {:induction false} PackGreedy(words: seq<string>, maxTokens: int)
    ensures Greedy(Groups(Pack(words, maxTokens)), maxTokens)
  {
    if words != [] {
      var init, w := words[..|words| - 1], words[|words| - 1];
      PackGreedy(init, maxTokens);
      PackPacked(init, maxTokens);
      var p := Pack(init, maxTokens);
      if p.length + TokenCost(w) > maxTokens && |p.current| > 0 {
        FlushGreedy(p, w, maxTokens);
      } else {
        PushGreedy(p, w, maxTokens);
      }
    }
  }

  /** The chunks before the final filter, for every text: non-empty, each starting with the last
      12 words (or all words) of the one before, within the token budget except where a single
      word is pushed unchecked, each but the last flushed only because the next word would have
      exceeded the budget, and, with the overlaps removed, exactly the words of the text in
      order. */
  lemma ChunkGroups(text: string, maxTokens: int)
    ensures var gs := Groups(Pack(SplitWs(text), maxTokens));
      && |gs| >= 1 && (forall k | 0 <= k < |gs| :: |gs[k]| > 0)
      && FitsFirst(gs[0], maxTokens)
      && (forall k | 1 <= k < |gs| :: Link(gs[k - 1], gs[k]) && FitsAfter(gs[k - 1], gs[k], maxTokens))
      && Greedy(gs, maxTokens)
      && FreshWords(gs) == SplitWs(text)
  {
    PackPacked(SplitWs(text), maxTokens);
    PackGreedy(SplitWs(text), maxTokens);
    LinkedAll(Groups(Pack(SplitWs(text), maxTokens)), maxTokens);
  }

  /** `Linked` spelled out chunk by chunk. */
  lemma {:induction false} LinkedAll(gs: seq<seq<string>>, maxTokens: int)
    requires Linked(gs, maxTokens) && gs != []
    ensures FitsFirst(gs[0], maxTokens)
    ensures forall k | 1 <= k < |gs| :: Link(gs[k - 1], gs[k]) && FitsAfter(gs[k - 1], gs[k], maxTokens)
  {
    if |gs| > 1 {
      var init := gs[..|gs| - 1];
      LinkedAll(init, maxTokens);
      forall k | 1 <= k < |gs| ensures Link(gs[k - 1], gs[k]) && FitsAfter(gs[k - 1], gs[k], maxTokens) {
        if k < |gs| - 1 {
          assert gs[k - 1] == init[k - 1] && gs[k] == init[k];
        }
      }
    }
  }

  /** `splitIntoChunks(page.content)` in the training of a page: the default budget of
      `CHUNK_SIZE` tokens; every chunk kept is longer than 50 characters once trimmed, and there
      are no more of them than word groups. */
  function PageChunks(content: string): (r: seq<string>)
    ensures forall k | 0 <= k < |r| :: LongChunk(r[k])
    ensures |r| <= |Groups(Pack(SplitWs(content), CHUNK_SIZE))|
  {
    Chunks(content, CHUNK_SIZE)
  }

  /** The result keeps, in order, exactly the joined chunks whose trimmed text is longer than 50
      characters. */
  lemma ChunksMember(text: string, maxTokens: int, c: string)
    ensures c in Chunks(text, maxTokens) <==>
      LongChunk(c) && exists g | g in Groups(Pack(SplitWs(text), maxTokens)) :: c == Join(g, " ")
  {
    var gs := Groups(Pack(SplitWs(text), maxTokens));
    FilterMember(JoinEach(gs), LongChunk, c);
    if c in JoinEach(gs) {
      var k :| 0 <= k < |gs| && JoinEach(gs)[k] == c;
      assert gs[k] in gs;
    }
    if LongChunk(c) && exists g | g in gs :: c == Join(g, " ") {
      var g :| g in gs && c == Join(g, " ");
      var k :| 0 <= k < |gs| && gs[k] == g;
      assert JoinEach(gs)[k] == c;
    }
  }

  /** The pieces of a text made only of white space are all empty. */
  lemma {:induction false} SplitWsBlank(s: string)
    requires forall i | 0 <= i < |s| :: IsWhitespace(s[i])
    ensures forall k | 0 <= k < |SplitWs(s)| :: SplitWs(s)[k] == ""
  {
    if s != [] {
      SplitWsBlank(s[1..]);
    }
  }

  /** Empty words joined with spaces give only spaces. */
  lemma {:induction false} JoinBlank(ws: seq<string>)
    requires forall k | 0 <= k < |ws| :: ws[k] == ""
    ensures forall i | 0 <= i < |Join(ws, " ")| :: Join(ws, " ")[i] == ' '
  {
    if |ws| > 1 {
      JoinBlank(ws[1..]);
      assert Join(ws, " ") == " " + Join(ws[1..], " ");
    }
  }

  /** An empty or white-space-only text gives no chunks. */
  lemma BlankTextNoChunks(text: string, maxTokens: int)
    requires forall i | 0 <= i < |text| :: IsWhitespace(text[i])
    ensures Chunks(text, maxTokens) == []
  {
    var words := SplitWs(text);
    SplitWsBlank(text);
    PackPacked(words, maxTokens);
    var gs := Groups(Pack(words, maxTokens));
    forall c | c in JoinEach(gs) ensures !LongChunk(c) {
      var k :| 0 <= k < |gs| && JoinEach(gs)[k] == c;
      forall i | 0 <= i < |gs[k]| ensures gs[k][i] == "" {
        assert gs[k][i] in words;
      }
      JoinBlank(gs[k]);
      TrimAllWhitespace(c);
    }
    var r := Chunks(text, maxTokens);
    if r != [] {
      FilterMember(JoinEach(gs), LongChunk, r[0]);
    }
  }

  /** The loop over the first `i + 1` words is one more step after the first `i`. */
  lemma PackSnoc(words: seq<string>, i: nat, maxTokens: int)
    requires i < |words|
    ensures Pack(words[..i + 1], maxTokens) == PackStep(Pack(words[..i], maxTokens), words[i], maxTokens)
  {
    assert words[..i + 1][..i] == words[..i];
  }

  /** Joining one more chunk. */
  lemma JoinEachSnoc(gs: seq<seq<string>>, g: seq<string>)
    ensures JoinEach(gs + [g]) == JoinEach(gs) + [Join(g, " ")]
  {
  }

  /** The chunking loop, proved to compute `Chunks`. */
  method SplitIntoChunks(text: string, maxTokens: int) returns (chunks: seq<string>)
    ensures chunks == Chunks(text, maxTokens)
  {
    var words := SplitWs(text);
    var flushed: seq<string> := [];
    var currentChunk: seq<string> := [];
    var currentLength: nat := 0;
    for i := 0 to |words|
      invariant Pack(words[..i], maxTokens) == Packer(Pack(words[..i], maxTokens).flushed, currentChunk, currentLength)
      invariant flushed == JoinEach(Pack(words[..i], maxTokens).flushed)
    {
      PackSnoc(words, i, maxTokens);
      ghost var groups := Pack(words[..i], maxTokens).flushed;
      var word := words[i];
      var wordTokens := TokenCost(word);
      if currentLength + wordTokens > maxTokens && |currentChunk| > 0 {
        JoinEachSnoc(groups, currentChunk);
        flushed := flushed + [Join(currentChunk, " ")];
        currentChunk := Overlap(currentChunk);
        currentLength := CostSum(currentChunk);
      }
      currentChunk := currentChunk + [word];
      currentLength := currentLength + wordTokens;
    }
    assert words[..|words|] == words;
    ghost var p := Pack(words, maxTokens);
    if |currentChunk| > 0 {
      JoinEachSnoc(p.flushed, currentChunk);
      flushed := flushed + [Join(currentChunk, " ")];
    }
    chunks := Filter(flushed, LongChunk);
  }
}

=== FILE: filters.dfy ===
/** The three copies of `shouldSkipUrl`: the lowercased URL is skipped when it names a binary or
    asset file by its extension, or when it contains a `mailto:`, `tel:` or `javascript:` scheme.
    The copies differ in their extension lists and in how an extension is matched. */
module Filters {
  import opened Text

  /** The server crawler's 23 extensions. */
  const SERVER_SKIP_EXTENSIONS: seq<string> :=
    [".pdf", ".jpg", ".jpeg", ".png", ".gif", ".zip", ".exe", ".dmg",
     ".mp4", ".mp3", ".avi", ".mov", ".doc", ".docx", ".xls", ".xlsx",
     ".ppt", ".pptx", ".svg", ".ico", ".webp", ".css", ".js"]

  /** The browser worker's 21 extensions: the server's list without ".css" and ".js". */
  const WORKER_SKIP_EXTENSIONS: seq<string> :=
    [".pdf", ".jpg", ".jpeg", ".png", ".gif", ".zip", ".exe", ".dmg",
     ".mp4", ".mp3", ".avi", ".mov", ".doc", ".docx", ".xls", ".xlsx",
     ".ppt", ".pptx", ".svg", ".ico", ".webp"]

  /** The training crawler's 20 extensions: no ".dmg", ".mov" or ".webp". */
  const TRAIN_SKIP_EXTENSIONS: seq<string> :=
    [".pdf", ".jpg", ".jpeg", ".png", ".gif", ".zip", ".exe",
     ".mp4", ".mp3", ".avi", ".doc", ".docx", ".xls", ".xlsx",
     ".ppt", ".pptx", ".css", ".js", ".ico", ".svg"]

  /** `exts.some(ext => s.endsWith(ext))` */
  predicate EndsWithAny(s: string, exts: seq<string>) {
    exists i | 0 <= i < |exts| :: EndsWith(s, exts[i])
  }

  /** `exts.some(ext => s.includes(ext))` */
  predicate ContainsAny(s: string, exts: seq<string>) {
    exists i | 0 <= i < |exts| :: Contains(s, exts[i])
  }

  /** The scheme test shared by all copies, on the lowercased URL. */
  predicate SchemeLink(lower: string) {
    Contains(lower, "mailto:") || Contains(lower, "tel:") || Contains(lower, "javascript:")
  }

  /** `shouldSkipUrl` of the server crawler: an extension suffix or a scheme. */
  predicate ServerSkip(url: string) {
    var lower := ToLower(url);
    EndsWithAny(lower, SERVER_SKIP_EXTENSIONS) || SchemeLink(lower)
  }

  /** The first two tests of the worker's `shouldSkipUrl`: an extension anywhere in the URL, or a
      scheme. (The worker adds its robots rules on top; see `CrawlerWorker`.) */
  predicate WorkerSkipBase(url: string) {
    var lower := ToLower(url);
    ContainsAny(lower, WORKER_SKIP_EXTENSIONS) || SchemeLink(lower)
  }

  /** `shouldSkipUrl` of the training crawler: an extension suffix or a scheme. */
  predicate TrainSkip(url: string) {
    var lower := ToLower(url);
    EndsWithAny(lower, TRAIN_SKIP_EXTENSIONS) || SchemeLink(lower)
  }

  /** Lowercasing twice is lowercasing once. */
  lemma ToLowerIdempotent(s: string)
    ensures ToLower(ToLower(s)) == ToLower(s)
  {
    forall i | 0 <= i < |s| ensures ToLower(ToLower(s))[i] == ToLower(s)[i] {
      var c := s[i];
      if 'A' <= c <= 'Z' {
        assert !('A' <= LowerChar(c) <= 'Z');
      }
    }
  }

  /** The tests do not depend on letter case: a URL is skipped exactly when its lowercase form is. */
  lemma SkipIgnoresCase(url: string)
    ensures ServerSkip(ToLower(url)) == ServerSkip(url)
    ensures WorkerSkipBase(ToLower(url)) == WorkerSkipBase(url)
    ensures TrainSkip(ToLower(url)) == TrainSkip(url)
  {
    ToLowerIdempotent(url);
  }

  /** A suffix is an occurrence. */
  lemma EndsWithContains(s: string, x: string)
    requires EndsWith(s, x)
    ensures Contains(s, x)
  {
    assert StartsWith(s[|s| - |x|..], x);
  }

  /** Every URL the training crawler skips, the server crawler skips too: its list is part of the
      server's. */
  lemma TrainSkipImpliesServerSkip(url: string)
    ensures TrainSkip(url) ==> ServerSkip(url)
  {
    var lower := ToLower(url);
    if EndsWithAny(lower, TRAIN_SKIP_EXTENSIONS) {
      var i :| 0 <= i < |TRAIN_SKIP_EXTENSIONS| && EndsWith(lower, TRAIN_SKIP_EXTENSIONS[i]);
      var j := [0, 1, 2, 3, 4, 5, 6, 8, 9, 10, 12, 13, 14, 15, 16, 17, 21, 22, 19, 18][i];
      assert SERVER_SKIP_EXTENSIONS[j] == TRAIN_SKIP_EXTENSIONS[i];
    }
  }

  /** Every URL the server skips for a reason other than ".css" or ".js", the worker skips too,
      since a suffix is in particular a substring. */
  lemma ServerSkipImpliesWorkerSkip(url: string)
    requires !EndsWith(ToLower(url), ".css") && !EndsWith(ToLower(url), ".js")
    ensures ServerSkip(url) ==> WorkerSkipBase(url)
  {
    var lower := ToLower(url);
    if EndsWithAny(lower, SERVER_SKIP_EXTENSIONS) {
      var i :| 0 <= i < |SERVER_SKIP_EXTENSIONS| && EndsWith(lower, SERVER_SKIP_EXTENSIONS[i]);
      assert i < 21;
      assert WORKER_SKIP_EXTENSIONS[i] == SERVER_SKIP_EXTENSIONS[i];
      EndsWithContains(lower, WORKER_SKIP_EXTENSIONS[i]);
    }
  }

  /** An example stylesheet URL. */
  const STYLESHEET: string := "https://site.org/main.css"

  /** The example stylesheet URL is written in lower case. */
  lemma StylesheetLower()
    ensures ToLower(STYLESHEET) == STYLESHEET
  {
    forall i | 0 <= i < |STYLESHEET| ensures !('A' <= STYLESHEET[i] <= 'Z') {
    }
  }

  /** Stylesheets are skipped by the server and by the training crawler. */
  lemma StylesheetSkipped()
    ensures ServerSkip(STYLESHEET) && TrainSkip(STYLESHEET)
  {
    StylesheetLower();
    assert EndsWith(STYLESHEET, SERVER_SKIP_EXTENSIONS[21]);
    assert EndsWith(STYLESHEET, TRAIN_SKIP_EXTENSIONS[16]);
  }

  /** Each dot of the example stylesheet URL is followed by 'o' or 'c'. */
  lemma StylesheetDots()
    ensures forall k | 0 <= k < |STYLESHEET| && STYLESHEET[k] == '.' :: k + 1 < |STYLESHEET| && STYLESHEET[k + 1] in {'o', 'c'}
  {
  }

  /** Stylesheets pass the worker's extension test, which lacks ".css". */
  lemma StylesheetPassesWorkerExtensions()
    ensures !ContainsAny(ToLower(STYLESHEET), WORKER_SKIP_EXTENSIONS)
  {
    StylesheetLower();
    StylesheetDots();
    WorkerExtensionsAfterDot();
    NoneOccurs(STYLESHEET, WORKER_SKIP_EXTENSIONS, {'o', 'c'});
  }

  /** No extension of the worker's list has 'o' or 'c' after its dot. */
  lemma WorkerExtensionsAfterDot()
    ensures forall i | 0 <= i < |WORKER_SKIP_EXTENSIONS| ::
      |WORKER_SKIP_EXTENSIONS[i]| >= 2 && WORKER_SKIP_EXTENSIONS[i][0] == '.' && WORKER_SKIP_EXTENSIONS[i][1] !in {'o', 'c'}
  {
  }

  /** When every dot of `s` is followed by one of `next`, and every extension has another character
      after its dot, none of the extensions occurs in `s`. */
  lemma NoneOccurs(s: string, exts: seq<string>, next: set<char>)
    requires forall i | 0 <= i < |exts| :: |exts[i]| >= 2 && exts[i][0] == '.' && exts[i][1] !in next
    requires forall k | 0 <= k < |s| && s[k] == '.' :: k + 1 < |s| && s[k + 1] in next
    ensures !ContainsAny(s, exts)
  {
    forall i | 0 <= i < |exts| ensures !Contains(s, exts[i]) {
      NoDotOccurrence(s, exts[i], next);
    }
  }

  /** An example page, on a host whose name contains ".mov". */
  const MOVIES_PAGE: string := "https://www.movies.com/team"

  /** The example page is written in lower case. */
  lemma MoviesPageLower()
    ensures ToLower(MOVIES_PAGE) == MOVIES_PAGE
  {
    forall i | 0 <= i < |MOVIES_PAGE| ensures !('A' <= MOVIES_PAGE[i] <= 'Z') {
    }
  }

  /** The worker matches extensions anywhere in the URL: it skips the example page. */
  lemma WorkerSkipsSubstring()
    ensures WorkerSkipBase(MOVIES_PAGE)
  {
    MoviesPageLower();
    assert StartsWith(MOVIES_PAGE[11..], WORKER_SKIP_EXTENSIONS[11]);
  }

  /** The server matches extensions at the end only: it keeps the example page. */
  lemma ServerKeepsSubstring()
    ensures !ServerSkip(MOVIES_PAGE)
  {
    MoviesPageLower();
    LastCharRulesOut(MOVIES_PAGE, SERVER_SKIP_EXTENSIONS, 'm');
    MissingChar(MOVIES_PAGE, "mailto:", 'l');
    MissingChar(MOVIES_PAGE, "tel:", 'l');
    MissingChar(MOVIES_PAGE, "javascript:", 'j');
  }

  /** A string whose last character ends none of `exts` ends with none of them. */
  lemma LastCharRulesOut(s: string, exts: seq<string>, c: char)
    requires |s| > 0 && s[|s| - 1] == c
    requires forall i | 0 <= i < |exts| :: |exts[i]| > 0 && exts[i][|exts[i]| - 1] != c
    ensures !EndsWithAny(s, exts)
  {
    forall i | 0 <= i < |exts| ensures !EndsWith(s, exts[i]) {
      var x := exts[i];
      if |x| <= |s| {
        assert s[|s| - |x|..][|x| - 1] == c;
      }
    }
  }

  /** A string that lacks a character of `t` does not contain `t`. */
  lemma MissingChar(s: string, t: string, c: char)
    requires c in t && c !in s
    ensures !Contains(s, t)
  {
    var k :| 0 <= k < |t| && t[k] == c;
    forall i | 0 <= i <= |s| ensures !StartsWith(s[i..], t) {
      if |t| <= |s| - i {
        assert s[i..][..|t|][k] == s[i + k];
      }
    }
  }

  /** When every dot of `s` is followed by one of `next`, an extension `t` whose dot is followed by
      another character does not occur in `s`. */
  lemma NoDotOccurrence(s: string, t: string, next: set<char>)
    requires |t| >= 2 && t[0] == '.' && t[1] !in next
    requires forall k | 0 <= k < |s| && s[k] == '.' :: k + 1 < |s| && s[k + 1] in next
    ensures !Contains(s, t)
  {
    forall i | 0 <= i <= |s| ensures !StartsWith(s[i..], t) {
      if |t| <= |s| - i {
        assert s[i..][..|t|][0] == s[i];
        assert s[i..][..|t|][1] == s[i + 1];
      }
    }
  }
}

=== FILE: onboarding.dfy ===
/** The onboarding page: the site address typed by the user, the crawl it starts, and the
    selection of the crawled pages to train on (toggle one, toggle all, add by hand, remove), up to
    the move to checkout. The crawl, the URL validity test and the sign-in state are parameters. */
module Onboarding {
  import opened Wrappers
  import opened Text
  import opened Seqs
  import opened Pricing
  import opened Storage

  /** The three screens of the page. */
  datatype Step = Input | Crawling | Selection

  const HTTP: string := "http://"
  const HTTPS: string := "https://"

  /** What adding a URL by hand did: nothing for blank input, an alert for an invalid or an
      already listed URL, or the URL was added. */
  datatype AddOutcome = Blank | Invalid | Duplicate | Added(url: string)

  /** What proceeding to payment did: an alert when nothing is selected or more than 1000 pages
      are, the sign-in dialog when nobody is signed in, or the move to checkout with its data. */
  datatype Proceed =
    | NothingSelected
    | OverLimit
    | SignIn
    | Checkout(websiteUrl: string, selectedUrls: set<string>, totalUrls: nat, price: int)

  /** The typed address as the handlers use it: trimmed, with `https://` put in front unless it
      already starts with `http://` or `https://`. */
  function WithScheme(input: string): (r: string)
    ensures StartsWith(r, HTTP) || StartsWith(r, HTTPS)
    ensures EndsWith(r, Trim(input)) && |r| <= |Trim(input)| + |HTTPS|
    ensures StartsWith(Trim(input), HTTP) || StartsWith(Trim(input), HTTPS) ==> r == Trim(input)
  {
    var url := Trim(input);
    if !StartsWith(url, HTTP) && !StartsWith(url, HTTPS) then HTTPS + url else url
  }

  /** Putting the scheme in front of an address that already went through it changes nothing. */
  lemma WithSchemeIdempotent(input: string)
    ensures WithScheme(WithScheme(input)) == WithScheme(input)
  {
    var r := WithScheme(input);
    assert r[0] == 'h' && !IsWhitespace(r[0]);
    TrimIsSliceEnds(input);
    assert !IsWhitespace(r[|r| - 1]);
    TrimTrimmed(r);
  }

  /** The trimmed input has no white space at its ends. */
  lemma TrimIsSliceEnds(input: string)
    ensures Trim(input) == [] || !IsWhitespace(Trim(input)[|Trim(input)| - 1])
  {
    var _ := TrimIsSlice(input);
  }

  /** The set of the elements of a list: `new Set(list)`. */
  function SetOf(s: seq<string>): (r: set<string>)
    ensures forall u :: u in r <==> u in s
  {
    set u | u in s
  }

  /** The selection after `handleToggleUrl(url)`. */
  function Toggled(selected: set<string>, url: string): (r: set<string>)
    ensures url in r <==> url !in selected
    ensures forall u | u != url :: u in r <==> u in selected
  {
    if url in selected then selected - {url} else selected + {url}
  }

  /** Toggling the same URL twice gives back the selection. */
  lemma ToggleTwice(selected: set<string>, url: string)
    ensures Toggled(Toggled(selected, url), url) == selected
  {
  }

  /** The selection after `handleToggleAll`: empty when it has as many elements as the list has
      entries, and every listed URL otherwise. */
  function ToggledAll(selected: set<string>, allUrls: seq<string>): (r: set<string>)
    ensures r == {} || r == SetOf(allUrls)
  {
    if |selected| == |allUrls| then {} else SetOf(allUrls)
  }

  /** The list after `handleRemoveUrl(url)`: every occurrence of `url` dropped. */
  function Without(allUrls: seq<string>, url: string): (r: seq<string>)
    ensures url !in r
    ensures forall u | u != url :: u in r <==> u in allUrls
  {
    var r := Filter(allUrls, u => u != url);
    forall u | u != url ensures u in r <==> u in allUrls {
      FilterMember(allUrls, v => v != url, u);
    }
    r
  }

  /** What `handleAddManualUrl` does with the typed text `input` and the list `allUrls`: blank
      input is ignored; otherwise the address with its scheme is refused when `new URL` rejects it
      or when the list already holds it, and added otherwise. */
  function AddOutcomeOf(input: string, allUrls: seq<string>, valid: string -> bool): (r: AddOutcome)
    ensures r == Blank <==> Trim(input) == []
    ensures r.Added? <==> Trim(input) != [] && valid(WithScheme(input)) && WithScheme(input) !in allUrls
    ensures r.Added? ==> r.url == WithScheme(input)
  {
    if Trim(input) == [] then Blank
    else
      var url := WithScheme(input);
      if !valid(url) then Invalid
      else if url in allUrls then Duplicate
      else Added(url)
  }

  /** What `handleProceedToPayment` does for the selection `selected`: refused when empty or when
      it has no price; the sign-in dialog when nobody is signed in; otherwise checkout with the
      price of the selection. */
  function ProceedOutcome(websiteUrl: string, selected: set<string>, signedIn: bool): (r: Proceed)
    ensures r.Checkout? <==> 0 < |selected| <= 1000 && signedIn
    ensures r == OverLimit <==> |selected| > 1000
    ensures r.Checkout? ==> r == Checkout(websiteUrl, selected, |selected|, CalculatePrice(|selected|)) && r.price > 0
  {
    if |selected| == 0 then NothingSelected
    else
      var price := CalculatePrice(|selected|);
      if price == NO_PRICE then OverLimit
      else if !signedIn then SignIn
      else Checkout(websiteUrl, selected, |selected|, price)
  }

  /** `canProceed`: the selection has a price. */
  predicate CanProceed(selected: set<string>) {
    CalculatePrice(|selected|) != NO_PRICE
  }

  /** The proceed button is enabled when the selection is non-empty and has a price. */
  predicate ProceedEnabled(selected: set<string>) {
    selected != {} && CanProceed(selected)
  }

  /** `canProceed` holds exactly when at most 1000 pages are selected; the button also needs a
      non-empty selection, and an enabled button goes to checkout once signed in. */
  lemma CanProceedBound(websiteUrl: string, selected: set<string>)
    ensures CanProceed(selected) <==> |selected| <= 1000
    ensures ProceedEnabled(selected) <==> 0 < |selected| <= 1000
    ensures CanProceed(selected) && selected != {} ==> ProceedOutcome(websiteUrl, selected, true).Checkout?
  {
  }

  /** What the handlers keep true between them when the crawl returns no duplicates: the list has
      no duplicates and every selected URL is listed. */
  predicate Consistent(allUrls: seq<string>, selected: set<string>) {
    Distinct(allUrls) && forall u | u in selected :: u in allUrls
  }

  /** When the page is consistent, toggle-all clears a selection that holds every listed URL and
      selects them all otherwise, although it only compares sizes. */
  lemma ToggleAllMeansAll(allUrls: seq<string>, selected: set<string>)
    requires Consistent(allUrls, selected)
    ensures ToggledAll(selected, allUrls) == if selected == SetOf(allUrls) then {} else SetOf(allUrls)
  {
    DistinctSetSize(allUrls);
    if selected != SetOf(allUrls) {
      ProperSubsetSize(selected, SetOf(allUrls));
    }
  }

  /** Outside that state, comparing sizes misleads: with a URL listed twice, a full selection is
      never cleared, and a selection of an unlisted URL is cleared though nothing listed is
      selected. */
  lemma ToggleAllComparesSizes()
    ensures ToggledAll({"a"}, ["a", "a"]) == {"a"}
    ensures ToggledAll({"b"}, ["a"]) == {}
  {
    assert "a" in ["a", "a"];
    assert SetOf(["a", "a"]) == {"a"};
  }

  /** A crawl result without duplicates, all selected, is consistent. */
  lemma CrawledConsistent(urls: seq<string>)
    requires Distinct(urls)
    ensures Consistent(urls, SetOf(urls))
  {
  }

  /** Toggling a listed URL, toggling all, adding and removing keep the page consistent. */
  lemma HandlersConsistent(allUrls: seq<string>, selected: set<string>, url: string, input: string, valid: string -> bool)
    requires Consistent(allUrls, selected)
    ensures url in allUrls ==> Consistent(allUrls, Toggled(selected, url))
    ensures Consistent(allUrls, ToggledAll(selected, allUrls))
    ensures Consistent(Without(allUrls, url), selected - {url})
    ensures var o := AddOutcomeOf(input, allUrls, valid);
      o.Added? ==> Consistent(allUrls + [o.url], selected + {o.url})
  {
    WithoutDistinct(allUrls, url);
    var o := AddOutcomeOf(input, allUrls, valid);
    if o.Added? {
      var s := allUrls + [o.url];
      forall i, j | 0 <= i < j < |s| ensures s[i] != s[j] {
        if j == |allUrls| {
          assert s[i] in allUrls;
        }
      }
    }
  }

  /** Dropping a URL keeps a list free of duplicates. */
  lemma {:induction false} WithoutDistinct(allUrls: seq<string>, url: string)
    requires Distinct(allUrls)
    ensures Distinct(Without(allUrls, url))
  {
    if allUrls != [] {
      var init, last := allUrls[..|allUrls| - 1], allUrls[|allUrls| - 1];
      WithoutDistinct(init, url);
      assert allUrls == init + [last];
      FilterAppend(init, [last], u => u != url);
      assert Filter([last], u => u != url) == if last != url then [last] else [];
      assert last !in init;
      FilterMember(init, u => u != url, last);
    }
  }

  /** Removing a URL just added by hand gives back the list and the selection it was added to. */
  lemma RemoveUndoesAdd(allUrls: seq<string>, selected: set<string>, url: string)
    requires url !in allUrls && url !in selected
    ensures Without(allUrls + [url], url) == allUrls
    ensures (selected + {url}) - {url} == selected
  {
    FilterAppend(allUrls, [url], u => u != url);
    assert Filter([url], u => u != url) == [];
    WithoutAbsent(allUrls, url);
  }

  /** Removing a URL that is not listed leaves the list as it is. */
  lemma {:induction false} WithoutAbsent(allUrls: seq<string>, url: string)
    requires url !in allUrls
    ensures Filter(allUrls, u => u != url) == allUrls
  {
    if allUrls != [] {
      var init := allUrls[..|allUrls| - 1];
      assert url !in init;
      WithoutAbsent(init, url);
      assert allUrls == init + [allUrls[|allUrls| - 1]];
    }
  }

  /** The state of the onboarding page that the handlers read and replace. */
  class OnboardingPage {
    var step: Step
    var websiteUrl: string
    var allUrls: seq<string>
    var selectedUrls: set<string>
    var manualUrl: string
    var showManualInput: bool
    var showAuthModal: bool

    /** The page as first shown: the input screen, nothing typed, listed or selected. */
    constructor ()
      ensures step == Input && websiteUrl == "" && allUrls == [] && selectedUrls == {}
      ensures manualUrl == "" && !showManualInput && !showAuthModal
    {
      step, websiteUrl, allUrls, selectedUrls := Input, "", [], {};
      manualUrl, showManualInput, showAuthModal := "", false, false;
    }

    /** The page opened with a saved state: a saved state with a non-empty list restores the
        site, the list and the selection and goes to the selection screen; otherwise nothing
        changes. */
    method Restore(saved: Option<OnboardingState>)
      modifies this
      ensures saved.Some? && |saved.value.allUrls| > 0 ==>
        && websiteUrl == saved.value.websiteUrl && allUrls == saved.value.allUrls
        && selectedUrls == SetOf(saved.value.selectedUrls) && step == Selection
      ensures !(saved.Some? && |saved.value.allUrls| > 0) ==>
        websiteUrl == old(websiteUrl) && allUrls == old(allUrls) && selectedUrls == old(selectedUrls) && step == old(step)
      ensures manualUrl == old(manualUrl) && showManualInput == old(showManualInput) && showAuthModal == old(showAuthModal)
    {
      if saved.Some? && |saved.value.allUrls| > 0 {
        websiteUrl := saved.value.websiteUrl;
        allUrls := saved.value.allUrls;
        selectedUrls := SetOf(saved.value.selectedUrls);
        step := Selection;
      }
    }

    /** `handleReset`: back to the input screen with nothing typed, listed or selected. */
    method Reset()
      modifies this
      ensures step == Input && websiteUrl == "" && allUrls == [] && selectedUrls == {}
      ensures manualUrl == old(manualUrl) && showManualInput == old(showManualInput) && showAuthModal == old(showAuthModal)
    {
      step, websiteUrl, allUrls, selectedUrls := Input, "", [], {};
    }

    /** `handleStartCrawl`, with `crawl` the crawl's outcome for an address: nothing happens when
        no address was typed; otherwise the address with its scheme is crawled, and on success
        every page found is listed and selected, on failure the input screen comes back. */
    method StartCrawl(crawl: string -> Result<seq<string>>) returns (started: Option<string>)
      modifies this
      ensures old(websiteUrl) == "" ==> started == None && step == old(step) && allUrls == old(allUrls) && selectedUrls == old(selectedUrls)
      ensures old(websiteUrl) != "" ==> started == Some(WithScheme(old(websiteUrl)))
      ensures started.Some? && crawl(started.value).Success? ==>
        allUrls == crawl(started.value).value && selectedUrls == SetOf(allUrls) && step == Selection
      ensures started.Some? && crawl(started.value).Failure? ==>
        allUrls == old(allUrls) && selectedUrls == old(selectedUrls) && step == Input
      ensures websiteUrl == old(websiteUrl) && manualUrl == old(manualUrl)
      ensures showManualInput == old(showManualInput) && showAuthModal == old(showAuthModal)
    {
      if websiteUrl == "" {
        return None;
      }
      var url := Trim(websiteUrl);
      if !StartsWith(url, HTTP) && !StartsWith(url, HTTPS) {
        url := HTTPS + url;
      }
      step := Crawling;
      started := Some(url);
      var outcome := crawl(url);
      if outcome.Success? {
        allUrls := outcome.value;
        selectedUrls := SetOf(outcome.value);
        step := Selection;
      } else {
        step := Input;
      }
    }

    /** `handleToggleUrl(url)`: the membership of `url` in the selection flips. */
    method ToggleUrl(url: string)
      modifies this
      ensures selectedUrls == Toggled(old(selectedUrls), url)
      ensures step == old(step) && websiteUrl == old(websiteUrl) && allUrls == old(allUrls)
      ensures manualUrl == old(manualUrl) && showManualInput == old(showManualInput) && showAuthModal == old(showAuthModal)
    {
      var newSelected := selectedUrls;
      if url in newSelected {
        newSelected := newSelected - {url};
      } else {
        newSelected := newSelected + {url};
      }
      selectedUrls := newSelected;
    }

    /** `handleToggleAll`. */
    method ToggleAll()
      modifies this
      ensures selectedUrls == ToggledAll(old(selectedUrls), allUrls)
      ensures step == old(step) && websiteUrl == old(websiteUrl) && allUrls == old(allUrls)
      ensures manualUrl == old(manualUrl) && showManualInput == old(showManualInput) && showAuthModal == old(showAuthModal)
    {
      if |selectedUrls| == |allUrls| {
        selectedUrls := {};
      } else {
        selectedUrls := SetOf(allUrls);
      }
    }

    /** `handleAddManualUrl`, with `valid` telling whether `new URL` accepts an address: an added
        address goes to the end of the list and into the selection, and the manual input is
        emptied and closed; in every other case nothing changes. */
    method AddManualUrl(valid: string -> bool) returns (outcome: AddOutcome)
      modifies this
      ensures outcome == AddOutcomeOf(old(manualUrl), old(allUrls), valid)
      ensures outcome.Added? ==>
        && allUrls == old(allUrls) + [outcome.url] && selectedUrls == old(selectedUrls) + {outcome.url}
        && manualUrl == "" && !showManualInput
      ensures !outcome.Added? ==>
        && allUrls == old(allUrls) && selectedUrls == old(selectedUrls)
        && manualUrl == old(manualUrl) && showManualInput == old(showManualInput)
      ensures step == old(step) && websiteUrl == old(websiteUrl) && showAuthModal == old(showAuthModal)
    {
      if Trim(manualUrl) == [] {
        return Blank;
      }
      var url := Trim(manualUrl);
      if !StartsWith(url, HTTP) && !StartsWith(url, HTTPS) {
        url := HTTPS + url;
      }
      if !valid(url) {
        return Invalid;
      }
      if url in allUrls {
        return Duplicate;
      }
      allUrls := allUrls + [url];
      selectedUrls := selectedUrls + {url};
      manualUrl := "";
      showManualInput := false;
      outcome := Added(url);
    }

    /** `handleRemoveUrl(url)`: the URL leaves the list, every occurrence of it, and the
        selection. */
    method RemoveUrl(url: string)
      modifies this
      ensures allUrls == Without(old(allUrls), url) && selectedUrls == old(selectedUrls) - {url}
      ensures step == old(step) && websiteUrl == old(websiteUrl)
      ensures manualUrl == old(manualUrl) && showManualInput == old(showManualInput) && showAuthModal == old(showAuthModal)
    {
      allUrls := Filter(allUrls, u => u != url);
      selectedUrls := selectedUrls - {url};
    }

    /** `handleProceedToPayment`, with `signedIn` whether a user is signed in: the outcome says
        which alert, dialog or checkout follows; only the sign-in dialog changes the page. */
    method ProceedToPayment(signedIn: bool) returns (outcome: Proceed)
      modifies this
      ensures outcome == ProceedOutcome(websiteUrl, selectedUrls, signedIn)
      ensures showAuthModal == (old(showAuthModal) || outcome == SignIn)
      ensures step == old(step) && websiteUrl == old(websiteUrl) && allUrls == old(allUrls) && selectedUrls == old(selectedUrls)
      ensures manualUrl == old(manualUrl) && showManualInput == old(showManualInput)
    {
      if |selectedUrls| == 0 {
        return NothingSelected;
      }
      var price := CalculatePrice(|selectedUrls|);
      if price == NO_PRICE {
        return OverLimit;
      }
      if !signedIn {
        showAuthModal := true;
        return SignIn;
      }
      outcome := Checkout(websiteUrl, selectedUrls, |selectedUrls|, price);
    }
  }
}

=== FILE: pricing.dfy ===
/** The price table of the onboarding page: a price in cents and a tier label for a number of
    selected pages, five tiers up to 1000 pages and no price beyond. */
module Pricing {
  /** The price `calculatePrice` returns for more than 1000 pages. */
  const NO_PRICE: int := -1

  /** The label `getPricingTier` returns for more than 1000 pages. */
  const OVER_LIMIT_TIER: string := ">1000 URLs"

  /** The upper bound of each priced tier, in order. */
  const LIMITS: seq<int> := [10, 50, 200, 500, 1000]

  /** The price in cents of each priced tier. */
  const PRICES: seq<int> := [10000, 20000, 50000, 90000, 120000]

  /** The label of each tier, the unpriced one last. */
  const LABELS: seq<string> := ["1-10 URLs", "11-50 URLs", "51-200 URLs", "201-500 URLs", "501-1000 URLs", OVER_LIMIT_TIER]

  /** The price of `urlCount` pages: the first tier whose bound is not below it. */
  function CalculatePrice(urlCount: int): (r: int)
    ensures r == NO_PRICE <==> urlCount > 1000
    ensures r != NO_PRICE ==> r in PRICES
  {
    if urlCount <= 10 then 10000
    else if urlCount <= 50 then 20000
    else if urlCount <= 200 then 50000
    else if urlCount <= 500 then 90000
    else if urlCount <= 1000 then 120000
    else NO_PRICE
  }

  /** The tier label of `urlCount` pages. */
  function PricingTier(urlCount: int): (r: string)
    ensures r == OVER_LIMIT_TIER <==> CalculatePrice(urlCount) == NO_PRICE
    ensures r in LABELS
  {
    if urlCount <= 10 then "1-10 URLs"
    else if urlCount <= 50 then "11-50 URLs"
    else if urlCount <= 200 then "51-200 URLs"
    else if urlCount <= 500 then "201-500 URLs"
    else if urlCount <= 1000 then "501-1000 URLs"
    else OVER_LIMIT_TIER
  }

  /** The index in the table of the tier of `n`, looking from tier `k` on: the first bound that
      `n` does not exceed, or the number of bounds when it exceeds them all. */
  function TierFrom(n: int, k: nat): (r: nat)
    requires k <= |LIMITS|
    ensures k <= r <= |LIMITS|
    ensures r < |LIMITS| ==> n <= LIMITS[r]
    ensures forall j | k <= j < r :: n > LIMITS[j]
    decreases |LIMITS| - k
  {
    if k == |LIMITS| then k
    else if n <= LIMITS[k] then k
    else TierFrom(n, k + 1)
  }

  /** The index of the tier of `n`. */
  function Tier(n: int): (r: nat)
    ensures r <= |LIMITS|
    ensures r < |LIMITS| ==> n <= LIMITS[r]
    ensures forall j | 0 <= j < r :: n > LIMITS[j]
  {
    TierFrom(n, 0)
  }

  /** The price is the one the table gives the tier of the count, and no price past the last
      tier. */
  lemma PriceFromTable(n: int)
    ensures CalculatePrice(n) == if Tier(n) < |PRICES| then PRICES[Tier(n)] else NO_PRICE
  {
    var t := Tier(n);
    if t > 0 { assert n > LIMITS[0]; }
    if t > 1 { assert n > LIMITS[1]; }
    if t > 2 { assert n > LIMITS[2]; }
    if t > 3 { assert n > LIMITS[3]; }
    if t > 4 { assert n > LIMITS[4]; }
  }

  /** The label is the one the table gives the tier of the count. */
  lemma TierFromTable(n: int)
    ensures PricingTier(n) == LABELS[Tier(n)]
  {
    var t := Tier(n);
    if t > 0 { assert n > LIMITS[0]; }
    if t > 1 { assert n > LIMITS[1]; }
    if t > 2 { assert n > LIMITS[2]; }
    if t > 3 { assert n > LIMITS[3]; }
    if t > 4 { assert n > LIMITS[4]; }
  }

  /** Price and label use the same thresholds: two counts get the same price exactly when they
      get the same label. */
  lemma SameThresholds(a: int, b: int)
    ensures CalculatePrice(a) == CalculatePrice(b) <==> PricingTier(a) == PricingTier(b)
  {
    PriceFromTable(a);
    PriceFromTable(b);
    TierFromTable(a);
    TierFromTable(b);
  }

  /** Up to 1000 pages, more pages never cost less. */
  lemma PriceMonotone(a: int, b: int)
    requires a <= b <= 1000
    ensures 0 < CalculatePrice(a) <= CalculatePrice(b)
  {
  }

  /** A count of zero or less falls in the lowest tier. */
  lemma NonPositiveLowestTier(n: int)
    requires n <= 0
    ensures CalculatePrice(n) == PRICES[0] && PricingTier(n) == LABELS[0]
  {
  }
}

=== FILE: robots.dfy ===
/** The robots.txt politeness policy shared by the two discovery crawlers: the line-oriented
    `Disallow` parser and the path-prefix test. The server copy and the browser-worker copy differ
    only in which `User-agent:` values they take as addressed to them. */
module Robots {
  import opened Wrappers
  import opened Text
  import opened Web

  /** How a copy recognises its own user agent: the server asks whether the lowercased value
      contains "bot", the worker whether it equals "bot". Both also accept "*". */
  datatype AgentTest = ContainsBot | EqualsBot

  /** `relevantToUs = agent === '*' || <agent test>` */
  predicate Applies(test: AgentTest, agent: string) {
    || agent == "*"
    || match test
       case ContainsBot => Contains(ToLower(agent), "bot")
       case EqualsBot => ToLower(agent) == "bot"
  }

  /** What one trimmed line of robots.txt says: a `User-agent:` value, a `Disallow:` value (both
      trimmed, read from after the 11- and 9-character prefixes), or nothing of interest. The
      prefixes are matched case-sensitively. */
  datatype Directive = Agent(agent: string) | Disallow(path: string) | Other

  function Classify(line: string): Directive {
    var t := Trim(line);
    if StartsWith(t, "User-agent:") then Agent(Trim(t[11..]))
    else if StartsWith(t, "Disallow:") then Disallow(Trim(t[9..]))
    else Other
  }

  /** The directives of the lines of a file, one per line. */
  function Directives(lines: seq<string>): (ds: seq<Directive>)
    ensures |ds| == |lines| && forall k | 0 <= k < |lines| :: ds[k] == Classify(lines[k])
  {
    seq(|lines|, k requires 0 <= k < |lines| => Classify(lines[k]))
  }

  /** The agent test of a copy as a predicate on `User-agent:` values. */
  function Verdict(test: AgentTest): string -> bool {
    agent => Applies(test, agent)
  }

  /** `relevantToUs` after reading directives `ds`, starting from `start`: the verdict on the latest
      `User-agent:` line, or `start` when there is none. */
  function RelevantAfter(applies: string -> bool, ds: seq<Directive>, start: bool): bool {
    if ds == [] then start
    else
      match ds[|ds| - 1]
      case Agent(a) => applies(a)
      case _ => RelevantAfter(applies, ds[..|ds| - 1], start)
  }

  /** What one directive adds to the rules when `relevantToUs` is `relevant`: a non-empty
      `Disallow:` value, or nothing. */
  function RuleOf(d: Directive, relevant: bool): seq<string> {
    match d
    case Disallow(p) => if relevant && p != "" then [p] else []
    case _ => []
  }

  /** The paths the parsing loop pushes while reading directives `ds` from `start`: each non-empty
      `Disallow:` value read while `relevantToUs` holds, in file order. */
  function Rules(applies: string -> bool, ds: seq<Directive>, start: bool): seq<string> {
    if ds == [] then []
    else
      var init := ds[..|ds| - 1];
      Rules(applies, init, start) + RuleOf(ds[|ds| - 1], RelevantAfter(applies, init, start))
  }

  /** The rules `fetchRobotsTxt` collects from a robots.txt text. */
  function RobotsRules(test: AgentTest, text: string): seq<string> {
    Rules(Verdict(test), Directives(SplitOn(text, '\n')), true)
  }

  /** The parsing loop of `fetchRobotsTxt`: split the text on "\n", then for each trimmed line track
      `relevantToUs` and push the non-empty `Disallow:` values read while it holds. The file is read
      as relevant until its first `User-agent:` line. */
  method ParseRobotsTxt(test: AgentTest, text: string) returns (paths: seq<string>)
    ensures paths == RobotsRules(test, text)
    ensures forall k | 0 <= k < |paths| :: paths[k] != "" && paths[k] == Trim(paths[k])
  {
    var lines := SplitOn(text, '\n');
    ghost var ds := Directives(lines);
    ghost var applies := Verdict(test);
    var relevantToUs := true;
    paths := [];
    for i := 0 to |lines|
      invariant paths == Rules(applies, ds[..i], true)
      invariant relevantToUs == RelevantAfter(applies, ds[..i], true)
    {
      RulesSnoc(applies, ds, i, true);
      var trimmed := Trim(lines[i]);
      if StartsWith(trimmed, "User-agent:") {
        var agent := Trim(trimmed[11..]);
        assert ds[i] == Agent(agent);
        relevantToUs := Applies(test, agent);
      } else if StartsWith(trimmed, "Disallow:") && relevantToUs {
        var path := Trim(trimmed[9..]);
        assert ds[i] == Disallow(path);
        if path != "" {
          paths := paths + [path];
        }
      } else {
        assert RuleOf(ds[i], relevantToUs) == [];
      }
    }
    assert ds[..|lines|] == ds;
    forall k | 0 <= k < |ds| ensures TrimmedDirective(ds[k]) {
      ClassifyTrimmed(lines[k]);
    }
    RulesAreTrimmedNonEmpty(applies, ds, true);
  }

  /** Reading one more directive: the loop step of `ParseRobotsTxt`. */
  lemma RulesSnoc(applies: string -> bool, ds: seq<Directive>, i: nat, start: bool)
    requires i < |ds|
    ensures Rules(applies, ds[..i + 1], start) == Rules(applies, ds[..i], start) + RuleOf(ds[i], RelevantAfter(applies, ds[..i], start))
    ensures RelevantAfter(applies, ds[..i + 1], start) ==
      if ds[i].Agent? then applies(ds[i].agent) else RelevantAfter(applies, ds[..i], start)
  {
    assert ds[..i + 1][..i] == ds[..i] && ds[..i + 1][i] == ds[i];
  }

  /** A directive is well formed when its value is trimmed, as `Classify` produces it. */
  predicate TrimmedDirective(d: Directive) {
    match d
    case Agent(a) => a == Trim(a)
    case Disallow(p) => p == Trim(p)
    case Other => true
  }

  /** Every directive read from a line carries a trimmed value. */
  lemma ClassifyTrimmed(line: string)
    ensures TrimmedDirective(Classify(line))
  {
    var t := Trim(line);
    if StartsWith(t, "User-agent:") {
      TrimIdempotent(t[11..]);
    } else if StartsWith(t, "Disallow:") {
      TrimIdempotent(t[9..]);
    }
  }

  /** Every collected rule is a non-empty trimmed string. */
  lemma {:induction false} RulesAreTrimmedNonEmpty(applies: string -> bool, ds: seq<Directive>, start: bool)
    requires forall k | 0 <= k < |ds| :: TrimmedDirective(ds[k])
    ensures forall k | 0 <= k < |Rules(applies, ds, start)| ::
      Rules(applies, ds, start)[k] != "" && Rules(applies, ds, start)[k] == Trim(Rules(applies, ds, start)[k])
  {
    if ds != [] {
      RulesAreTrimmedNonEmpty(applies, ds[..|ds| - 1], start);
    }
  }

  /** `trim` of a trimmed string changes nothing. */
  lemma TrimIdempotent(s: string)
    ensures Trim(Trim(s)) == Trim(s)
  {
    var t := Trim(s);
    var _ := TrimIsSlice(s);
    if t != [] {
      assert TrimStart(t) == t;
      assert TrimEnd(t) == t;
    }
  }

  /** Reading `a + b` leaves `relevantToUs` as reading `b` from the state `a` left. */
  lemma {:induction false} RelevantAfterAppend(applies: string -> bool, a: seq<Directive>, b: seq<Directive>, start: bool)
    ensures RelevantAfter(applies, a + b, start) == RelevantAfter(applies, b, RelevantAfter(applies, a, start))
  {
    if b == [] {
      assert a + b == a;
    } else {
      RelevantAfterAppend(applies, a, b[..|b| - 1], start);
      assert (a + b)[..|a + b| - 1] == a + b[..|b| - 1];
    }
  }

  /** Parsing is append-only and keeps file order: the rules of `a + b` are the rules of `a`
      followed by the rules of `b` read in the state `a` left. */
  lemma {:induction false} RulesAppend(applies: string -> bool, a: seq<Directive>, b: seq<Directive>, start: bool)
    ensures Rules(applies, a + b, start) == Rules(applies, a, start) + Rules(applies, b, RelevantAfter(applies, a, start))
  {
    if b == [] {
      assert a + b == a;
    } else {
      var b', last := b[..|b| - 1], b[|b| - 1];
      var mid := RelevantAfter(applies, a, start);
      RulesAppend(applies, a, b', start);
      RelevantAfterAppend(applies, a, b', start);
      assert (a + b)[..|a + b| - 1] == a + b';
      assert (a + b)[|a + b| - 1] == last;
      var x, y := Rules(applies, a, start), Rules(applies, b', mid);
      var z := RuleOf(last, RelevantAfter(applies, b', mid));
      assert Rules(applies, a + b, start) == (x + y) + z;
      assert Rules(applies, b, mid) == y + z;
      assert (x + y) + z == x + (y + z);
    }
  }

  /** `relevantToUs` is decided by the latest `User-agent:` line: when directive `k` is the last
      `User-agent:` it is that line's verdict, and when there is none (`k` is -1) it is the starting
      value, so lines before any `User-agent:` count as relevant. */
  lemma {:induction false} RelevantAfterLatestAgent(applies: string -> bool, ds: seq<Directive>, start: bool, k: int)
    requires -1 <= k < |ds|
    requires k >= 0 ==> ds[k].Agent?
    requires forall j | k < j < |ds| :: !ds[j].Agent?
    ensures RelevantAfter(applies, ds, start) == if k < 0 then start else applies(ds[k].agent)
  {
    if ds != [] && k < |ds| - 1 {
      var init := ds[..|ds| - 1];
      assert !ds[|ds| - 1].Agent?;
      RelevantAfterLatestAgent(applies, init, start, k);
    }
  }

  /** A path is collected exactly when some directive is `Disallow:` with that non-empty value and
      the directives before it leave `relevantToUs` set. */
  lemma {:induction false} RulesMember(applies: string -> bool, ds: seq<Directive>, start: bool, p: string)
    ensures p in Rules(applies, ds, start) <==>
      exists k | 0 <= k < |ds| :: ds[k] == Disallow(p) && p != "" && RelevantAfter(applies, ds[..k], start)
  {
    if ds != [] {
      var n := |ds| - 1;
      var init := ds[..n];
      RulesMember(applies, init, start, p);
      assert forall k | 0 <= k < n :: init[k] == ds[k] && init[..k] == ds[..k];
      if exists k | 0 <= k < |ds| :: ds[k] == Disallow(p) && p != "" && RelevantAfter(applies, ds[..k], start) {
        var k :| 0 <= k < |ds| && ds[k] == Disallow(p) && p != "" && RelevantAfter(applies, ds[..k], start);
        if k < n {
          assert init[k] == Disallow(p) && RelevantAfter(applies, init[..k], start);
        }
      }
    }
  }

  /** The worker's agent test accepts fewer agents than the server's. */
  lemma AppliesWorkerImpliesServer(agent: string)
    ensures Applies(EqualsBot, agent) ==> Applies(ContainsBot, agent)
  {
    if ToLower(agent) == "bot" {
      assert StartsWith(ToLower(agent)[0..], "bot");
    }
  }

  /** The worker reads every file as restricting it no more than the server does: each rule the
      worker collects, the server collects too. */
  lemma WorkerRulesWithinServerRules(text: string, p: string)
    requires p in RobotsRules(EqualsBot, text)
    ensures p in RobotsRules(ContainsBot, text)
  {
    var ds := Directives(SplitOn(text, '\n'));
    forall agent ensures Verdict(EqualsBot)(agent) ==> Verdict(ContainsBot)(agent) {
      AppliesWorkerImpliesServer(agent);
    }
    RulesMember(Verdict(EqualsBot), ds, true, p);
    var k :| 0 <= k < |ds| && ds[k] == Disallow(p) && p != "" && RelevantAfter(Verdict(EqualsBot), ds[..k], true);
    RelevantMonotone(Verdict(EqualsBot), Verdict(ContainsBot), ds[..k], true);
    RulesMember(Verdict(ContainsBot), ds, true, p);
  }

  /** A more permissive agent test is relevant whenever a stricter one is. */
  lemma {:induction false} RelevantMonotone(f: string -> bool, g: string -> bool, ds: seq<Directive>, start: bool)
    requires forall agent :: f(agent) ==> g(agent)
    ensures RelevantAfter(f, ds, start) ==> RelevantAfter(g, ds, start)
  {
    if ds != [] {
      RelevantMonotone(f, g, ds[..|ds| - 1], start);
    }
  }

  /** `isDisallowed(url, disallowedPaths)` (and the same loop inside the worker's `shouldSkipUrl`):
      the URL parses and its path starts with one of the rules; false for an unparseable URL. */
  predicate IsDisallowed(env: Env, url: string, paths: seq<string>) {
    match env.parse(url)
    case None => false
    case Some(u) => exists i | 0 <= i < |paths| :: StartsWith(u.pathname, paths[i])
  }

  /** More rules never allow more: a URL disallowed by some rules stays disallowed when rules are
      added, and no rules disallow nothing. */
  lemma IsDisallowedMonotone(env: Env, url: string, paths: seq<string>, more: seq<string>)
    ensures IsDisallowed(env, url, paths) ==> IsDisallowed(env, url, paths + more)
    ensures !IsDisallowed(env, url, [])
  {
    if IsDisallowed(env, url, paths) {
      var u := env.parse(url).value;
      var i :| 0 <= i < |paths| && StartsWith(u.pathname, paths[i]);
      assert (paths + more)[i] == paths[i];
    }
  }

  /** Robots compliance: with "/private" among the rules, a URL whose path is "/private/page" is
      disallowed. */
  lemma PrivatePathDisallowed(env: Env, url: string, paths: seq<string>)
    requires "/private" in paths
    requires env.parse(url).Some? && env.parse(url).value.pathname == "/private/page"
    ensures IsDisallowed(env, url, paths)
  {
    var i :| 0 <= i < |paths| && paths[i] == "/private";
    assert StartsWith("/private/page", "/private");
  }
}

=== FILE: seqs.dfy ===
/** Sequence helpers for the loops of the source: filtering with `push` and the insertion-ordered
    `Set` that the crawlers keep as `discovered`. */
module Seqs {
  import opened Wrappers

  /** No element occurs twice: what a JavaScript `Set` turned into an array guarantees. */
  predicate Distinct<T(==)>(s: seq<T>) {
    forall i, j | 0 <= i < j < |s| :: s[i] != s[j]
  }

  /** The element an optional value contributes to a filtered list. */
  function OptionToSeq<U>(o: Option<U>): seq<U> {
    match o
    case Some(u) => [u]
    case None => []
  }

  /** What a loop `for (x of s) { const y = ...; if (ok) out.push(y); }` builds: the images of the
      elements that pass, in order. `f(x) == None` is a skipped element. */
  function FilterMap<T, U>(s: seq<T>, f: T -> Option<U>): (r: seq<U>)
    ensures |r| <= |s|
  {
    if s == [] then [] else FilterMap(s[..|s| - 1], f) + OptionToSeq(f(s[|s| - 1]))
  }

  /** An element is in the filtered list exactly when some input element maps to it. */
  lemma {:induction false} FilterMapMember<T, U>(s: seq<T>, f: T -> Option<U>, u: U)
    ensures u in FilterMap(s, f) <==> exists i | 0 <= i < |s| :: f(s[i]) == Some(u)
  {
    if s != [] {
      var init := s[..|s| - 1];
      FilterMapMember(init, f, u);
      if u in FilterMap(s, f) && u !in FilterMap(init, f) {
        assert f(s[|s| - 1]) == Some(u);
      }
      if exists i | 0 <= i < |s| :: f(s[i]) == Some(u) {
        var i :| 0 <= i < |s| && f(s[i]) == Some(u);
        if i < |s| - 1 {
          assert f(init[i]) == Some(u);
        }
      }
    }
  }

  /** Filtering distributes over concatenation: the loop's output on `a + b` is its output on `a`
      followed by its output on `b`. */
  lemma {:induction false} FilterMapAppend<T, U>(a: seq<T>, b: seq<T>, f: T -> Option<U>)
    ensures FilterMap(a + b, f) == FilterMap(a, f) + FilterMap(b, f)
  {
    if b == [] {
      assert a + b == a;
    } else {
      var b' := b[..|b| - 1];
      var last := OptionToSeq(f(b[|b| - 1]));
      FilterMapAppend(a, b', f);
      assert (a + b)[..|a + b| - 1] == a + b';
      assert (a + b)[|a + b| - 1] == b[|b| - 1];
      var x, y := FilterMap(a, f), FilterMap(b', f);
      assert FilterMap(a + b, f) == (x + y) + last;
      assert FilterMap(b, f) == y + last;
      assert (x + y) + last == x + (y + last);
    }
  }

  /** One more step of the filtering loop. */
  lemma FilterMapSnoc<T, U>(s: seq<T>, f: T -> Option<U>, i: nat)
    requires i < |s|
    ensures FilterMap(s[..i + 1], f) == FilterMap(s[..i], f) + OptionToSeq(f(s[i]))
  {
    assert s[..i + 1][..i] == s[..i];
  }

  /** `s.filter(p)` */
  function Filter<T>(s: seq<T>, p: T -> bool): (r: seq<T>)
    ensures |r| <= |s|
    ensures forall k | 0 <= k < |r| :: p(r[k])
  {
    if s == [] then [] else Filter(s[..|s| - 1], p) + (if p(s[|s| - 1]) then [s[|s| - 1]] else [])
  }

  /** An element survives `filter` exactly when it was there and passes the test. */
  lemma {:induction false} FilterMember<T>(s: seq<T>, p: T -> bool, x: T)
    ensures x in Filter(s, p) <==> x in s && p(x)
  {
    if s != [] {
      var init := s[..|s| - 1];
      FilterMember(init, p, x);
      assert s == init + [s[|s| - 1]];
    }
  }

  /** Filtering distributes over concatenation. */
  lemma {:induction false} FilterAppend<T>(a: seq<T>, b: seq<T>, p: T -> bool)
    ensures Filter(a + b, p) == Filter(a, p) + Filter(b, p)
  {
    if b == [] {
      assert a + b == a;
    } else {
      var b' := b[..|b| - 1];
      FilterAppend(a, b', p);
      assert (a + b)[..|a + b| - 1] == a + b';
      assert (a + b)[|a + b| - 1] == b[|b| - 1];
    }
  }

  /** `set.add(x)` on an insertion-ordered set held as a duplicate-free sequence. */
  function Insert<T(==)>(d: seq<T>, x: T): seq<T> {
    if x in d then d else d + [x]
  }

  /** `for (x of xs) set.add(x)`: the set grows at its end, keeps no duplicate, and afterwards holds
      exactly the old elements and those of `xs`. */
  function InsertAll<T(==)>(d: seq<T>, xs: seq<T>): (r: seq<T>)
    ensures d <= r && |r| <= |d| + |xs|
    ensures Distinct(d) ==> Distinct(r)
    ensures forall x | x in r :: x in d || x in xs
    ensures forall x | x in d :: x in r
    ensures forall x | x in xs :: x in r
  {
    if xs == [] then d
    else
      var p := InsertAll(d, xs[..|xs| - 1]);
      assert xs == xs[..|xs| - 1] + [xs[|xs| - 1]];
      Insert(p, xs[|xs| - 1])
  }

  /** The crawl loop's discovery step: each `x` of `xs`, in order, is added when it is not yet
      present and the set holds fewer than `cap` elements. */
  function InsertCapped<T(==)>(d: seq<T>, xs: seq<T>, cap: nat): seq<T> {
    if xs == [] then d
    else
      var x := xs[|xs| - 1];
      var p := InsertCapped(d, xs[..|xs| - 1], cap);
      if x !in p && |p| < cap then p + [x] else p
  }

  /** The capped insertion grows the set at its end, never beyond `cap` when it started within it,
      keeps it free of duplicates, takes its new elements from `xs`, and leaves out an element of
      `xs` only when it was already present or the set was full. */
  lemma {:induction false} InsertCappedFacts<T>(d: seq<T>, xs: seq<T>, cap: nat)
    ensures d <= InsertCapped(d, xs, cap)
    ensures |d| <= cap ==> |InsertCapped(d, xs, cap)| <= cap
    ensures Distinct(d) ==> Distinct(InsertCapped(d, xs, cap))
    ensures forall k | |d| <= k < |InsertCapped(d, xs, cap)| :: InsertCapped(d, xs, cap)[k] in xs
    ensures forall x | x in xs :: x in InsertCapped(d, xs, cap) || |InsertCapped(d, xs, cap)| >= cap
  {
    if xs != [] {
      var init := xs[..|xs| - 1];
      InsertCappedFacts(d, init, cap);
      assert forall y | y in init :: y in xs;
      assert xs == init + [xs[|xs| - 1]];
    }
  }

  /** One more step of the capped insertion. */
  lemma InsertCappedSnoc<T>(d: seq<T>, xs: seq<T>, i: nat, cap: nat)
    requires i < |xs|
    ensures InsertCapped(d, xs[..i + 1], cap) ==
      var p := InsertCapped(d, xs[..i], cap);
      if xs[i] !in p && |p| < cap then p + [xs[i]] else p
  {
    assert xs[..i + 1][..i] == xs[..i];
  }

  /** `s.slice(0, n)`: the first `n` elements, or all of `s` when it is shorter. */
  function Take<T>(s: seq<T>, n: nat): (r: seq<T>)
    ensures r <= s && |r| == if |s| < n then |s| else n
  {
    if |s| <= n then s else s[..n]
  }

  /** The integers from `lo` up to but not including `hi`. */
  function Range(lo: nat, hi: nat): (r: seq<nat>)
    requires lo <= hi
    ensures |r| == hi - lo && forall k | 0 <= k < |r| :: r[k] == lo + k
  {
    seq(hi - lo, k requires 0 <= k < hi - lo => lo + k)
  }

  /** Strictly increasing positions. */
  ghost predicate Increasing(s: seq<nat>) {
    forall k, l | 0 <= k < l < |s| :: s[k] < s[l]
  }

  /** `xs` is what the positions `idx` pick out of `d`. */
  ghost predicate Picks<T>(d: seq<T>, idx: seq<nat>, xs: seq<T>) {
    |idx| == |xs| && forall k | 0 <= k < |idx| :: idx[k] < |d| && d[idx[k]] == xs[k]
  }

  /** Appending the positions of elements appended to `d` keeps the positions increasing and the
      picks right. */
  lemma PicksExtend<T>(d: seq<T>, idx: seq<nat>, xs: seq<T>, ns: seq<T>)
    requires Picks(d, idx, xs) && Increasing(idx)
    ensures Picks(d + ns, idx + Range(|d|, |d| + |ns|), xs + ns)
    ensures Increasing(idx + Range(|d|, |d| + |ns|))
  {
    var r := Range(|d|, |d| + |ns|);
    assert forall k | 0 <= k < |idx| :: (idx + r)[k] == idx[k] && (xs + ns)[k] == xs[k] && (d + ns)[idx[k]] == d[idx[k]];
    assert forall k | |idx| <= k < |idx + r| :: (idx + r)[k] == |d| + (k - |idx|) && (xs + ns)[k] == ns[k - |idx|];
  }

  /** Elements appended to `d` leave the picks right. */
  lemma PicksGrow<T>(d: seq<T>, ns: seq<T>, idx: seq<nat>, xs: seq<T>)
    requires Picks(d, idx, xs)
    ensures Picks(d + ns, idx, xs)
  {
    assert forall k | 0 <= k < |idx| :: (d + ns)[idx[k]] == d[idx[k]];
  }

  /** Dropping one position, with the element it picks, keeps the rest increasing and right. */
  lemma PicksDelete<T>(d: seq<T>, a: seq<nat>, x: nat, b: seq<nat>, c: seq<T>, y: T, e: seq<T>)
    requires |a| == |c| && Picks(d, a + [x] + b, c + [y] + e) && Increasing(a + [x] + b)
    ensures Picks(d, a + b, c + e) && Increasing(a + b)
  {
    var s, t := a + [x] + b, c + [y] + e;
    assert forall k | 0 <= k < |a + b| :: (a + b)[k] == s[if k < |a| then k else k + 1];
    assert forall k | 0 <= k < |c + e| :: (c + e)[k] == t[if k < |c| then k else k + 1];
  }

  /** Moving the first remaining position, with the element it picks, to the picked prefix. */
  lemma PicksMove<T>(d: seq<T>, a: seq<nat>, b: seq<nat>, c: seq<T>, e: seq<T>)
    requires |b| > 0 && |e| > 0 && Picks(d, a + b, c + e) && Increasing(a + b)
    ensures Picks(d, (a + [b[0]]) + b[1..], (c + [e[0]]) + e[1..]) && Increasing((a + [b[0]]) + b[1..])
  {
    assert (a + [b[0]]) + b[1..] == a + b;
    assert (c + [e[0]]) + e[1..] == c + e;
  }

  /** Dropping the first remaining position, with the element it picks. */
  lemma PicksDrop<T>(d: seq<T>, a: seq<nat>, b: seq<nat>, c: seq<T>, e: seq<T>)
    requires |b| > 0 && |e| > 0 && |a| == |c| && Picks(d, a + b, c + e) && Increasing(a + b)
    ensures Picks(d, a + b[1..], c + e[1..]) && Increasing(a + b[1..])
  {
    assert a + b == a + [b[0]] + b[1..];
    assert c + e == c + [e[0]] + e[1..];
    PicksDelete(d, a, b[0], b[1..], c, e[0], e[1..]);
  }

  /** A prefix of increasing positions picks the corresponding prefix. */
  lemma PicksPrefix<T>(d: seq<T>, a: seq<nat>, b: seq<nat>, c: seq<T>, e: seq<T>)
    requires |a| == |c| && Picks(d, a + b, c + e) && Increasing(a + b)
    ensures Picks(d, a, c) && Increasing(a)
  {
    assert forall k | 0 <= k < |a| :: (a + b)[k] == a[k] && (c + e)[k] == c[k];
  }

  /** Increasing positions pick distinct elements out of a duplicate-free sequence. */
  lemma PicksDistinct<T>(d: seq<T>, idx: seq<nat>, xs: seq<T>)
    requires Distinct(d) && Picks(d, idx, xs) && Increasing(idx)
    ensures Distinct(xs)
  {
  }

  /** A sequence has no more distinct elements than entries. */
  lemma {:induction false} SetOfSeqSize<T>(s: seq<T>)
    ensures |set x | x in s| <= |s|
  {
    if s != [] {
      var t := s[..|s| - 1];
      SetOfSeqSize(t);
      assert s == t + [s[|s| - 1]];
      assert (set x | x in s) == (set x | x in t) + {s[|s| - 1]};
    }
  }

  /** A duplicate-free sequence whose elements all occur in `t` is no longer than `t`. */
  lemma DistinctWithin<T>(s: seq<T>, t: seq<T>)
    requires Distinct(s) && forall u | u in s :: u in t
    ensures |s| <= |t|
  {
    DistinctSetSize(s);
    SetOfSeqSize(t);
    SubsetSize(set x | x in s, set x | x in t);
  }

  /** A duplicate-free sequence has as many distinct elements as entries. */
  lemma {:induction false} DistinctSetSize<T>(s: seq<T>)
    requires Distinct(s)
    ensures |set x | x in s| == |s|
  {
    if s != [] {
      var t := s[..|s| - 1];
      DistinctSetSize(t);
      assert s == t + [s[|s| - 1]];
      assert (set x | x in s) == (set x | x in t) + {s[|s| - 1]};
      assert s[|s| - 1] !in t;
    }
  }

  /** A subset is no larger. */
  lemma {:induction false} SubsetSize<T>(a: set<T>, b: set<T>)
    requires a <= b
    ensures |a| <= |b|
  {
    if a != {} {
      var x :| x in a;
      SubsetSize(a - {x}, b - {x});
    }
  }

  /** A subset that is not the whole set is smaller. */
  lemma ProperSubsetSize<T>(a: set<T>, b: set<T>)
    requires a <= b && a != b
    ensures |a| < |b|
  {
    var x :| x in b && x !in a;
    SubsetSize(a, b - {x});
  }
}

=== FILE: sse_client.dfy ===
/** The browser side of the server crawler's event stream (`crawlWebsite` in the client library):
    the response text arrives in chunks, is appended to a buffer and split at blank lines
    (`"\n\n"`); the last piece stays in the buffer, and each complete frame that starts with
    `data: ` is parsed and handed to the progress callback. The result is the list of the last
    `urls` event. */
module SseClient {
  import opened Wrappers
  import opened Text
  import opened Seqs
  import opened CrawlEvents

  /** The frame separator of the event stream. */
  const SEP: string := "\n\n"

  /** The prefix of a frame that carries an event. */
  const DATA_PREFIX: string := "data: "

  /** The error thrown for a response whose status is not ok. */
  const START_FAILED: string := "Failed to start crawl"

  /** The error thrown for a response without a body. */
  const NO_BODY: string := "No response body"

  /** `s` contains the separator. */
  predicate HasSep(s: string) {
    exists i | 0 <= i < |s| - 1 :: s[i] == '\n' && s[i + 1] == '\n'
  }

  /** A frame that ends right before a separator: it neither contains one nor ends with a line feed
      (which would make the separator start one character earlier). */
  predicate Clean(g: string) {
    !HasSep(g) && (g == [] || g[|g| - 1] != '\n')
  }

  /** `s.split('\n\n')`: the pieces between the occurrences of the separator, found from the left
      without overlap; `""` gives `[""]`. */
  function SplitFrames(s: string): (r: seq<string>)
    ensures |r| >= 1
    decreases |s|
  {
    if |s| < 2 then [s]
    else if s[0] == '\n' && s[1] == '\n' then [""] + SplitFrames(s[2..])
    else
      var rest := SplitFrames(s[1..]);
      [[s[0]] + rest[0]] + rest[1..]
  }

  /** The text of frames each followed by the separator. */
  function Framed(gs: seq<string>): string {
    if gs == [] then "" else gs[0] + SEP + Framed(gs[1..])
  }

  /** A character in front of a piece that does not start a separator keeps it free of one. */
  lemma ConsNoSep(c: char, g: string)
    requires !HasSep(g) && !(c == '\n' && g != [] && g[0] == '\n')
    ensures !HasSep([c] + g)
  {
    var s := [c] + g;
    forall i | 0 <= i < |s| - 1 ensures !(s[i] == '\n' && s[i + 1] == '\n') {
      if i > 0 {
        assert s[i] == g[i - 1] && s[i + 1] == g[i];
      }
    }
  }

  /** The first part starts the joined text. */
  lemma JoinPrefix(parts: seq<string>)
    requires parts != []
    ensures parts[0] <= Join(parts, SEP)
  {
  }

  /** Splitting loses nothing: joining the pieces with the separator gives back the text. */
  lemma {:induction false} SplitFramesJoin(s: string)
    ensures Join(SplitFrames(s), SEP) == s
    decreases |s|
  {
    var r := SplitFrames(s);
    if |s| >= 2 && s[0] == '\n' && s[1] == '\n' {
      SplitFramesJoin(s[2..]);
      assert s == SEP + s[2..];
    } else if |s| >= 2 {
      var rest := SplitFrames(s[1..]);
      SplitFramesJoin(s[1..]);
      var first := [s[0]] + rest[0];
      assert r == [first] + rest[1..];
      if |rest| > 1 {
        assert rest == [rest[0]] + rest[1..];
        assert Join(rest, SEP) == rest[0] + SEP + Join(rest[1..], SEP);
        assert Join(r, SEP) == first + SEP + Join(rest[1..], SEP);
      }
      assert s == [s[0]] + s[1..];
    }
  }

  /** Splitting finds every separator: no piece contains one, and no piece but the last ends with
      a line feed. */
  lemma {:induction false} SplitFramesShape(s: string)
    ensures forall k | 0 <= k < |SplitFrames(s)| :: !HasSep(SplitFrames(s)[k])
    ensures forall k | 0 <= k < |SplitFrames(s)| - 1 :: Clean(SplitFrames(s)[k])
    decreases |s|
  {
    var r := SplitFrames(s);
    if |s| < 2 {
      assert !HasSep(s);
    } else if s[0] == '\n' && s[1] == '\n' {
      SplitFramesShape(s[2..]);
      assert r[1..] == SplitFrames(s[2..]);
      forall k | 1 <= k < |r| ensures !HasSep(r[k]) && (k < |r| - 1 ==> Clean(r[k])) {
        assert r[k] == SplitFrames(s[2..])[k - 1];
      }
    } else {
      var rest := SplitFrames(s[1..]);
      SplitFramesShape(s[1..]);
      FirstPiece(s);
      forall k | 1 <= k < |r| ensures !HasSep(r[k]) && (k < |r| - 1 ==> Clean(r[k])) {
        assert r[k] == rest[k];
      }
    }
  }

  /** The first piece of a text that does not start with the separator: it has the first
      character in front of the first piece of the rest, and it is clean when more follow. */
  lemma FirstPiece(s: string)
    requires |s| >= 2 && !(s[0] == '\n' && s[1] == '\n')
    requires var rest := SplitFrames(s[1..]); !HasSep(rest[0]) && (|rest| > 1 ==> Clean(rest[0]))
    ensures var r := SplitFrames(s); !HasSep(r[0]) && (|r| > 1 ==> Clean(r[0]))
  {
    var rest := SplitFrames(s[1..]);
    var first := [s[0]] + rest[0];
    assert SplitFrames(s)[0] == first;
    SplitFramesJoin(s[1..]);
    JoinPrefix(rest);
    if rest[0] != [] {
      assert rest[0][0] == s[1];
    }
    ConsNoSep(s[0], rest[0]);
    if |rest| > 1 {
      if rest[0] != [] {
        assert first[|first| - 1] == rest[0][|rest[0]| - 1];
      } else {
        assert rest == [rest[0]] + rest[1..];
        assert s[1..] == SEP + Join(rest[1..], SEP);
      }
    }
  }

  /** A clean frame followed by the separator is split off as it is. */
  lemma {:induction false} SplitFramesAfter(g: string, z: string)
    requires Clean(g)
    ensures SplitFrames(g + SEP + z) == [g] + SplitFrames(z)
    decreases |g|
  {
    var s := g + SEP + z;
    if g == [] {
      assert s == SEP + z && s[2..] == z;
    } else {
      var g' := g[1..];
      assert Clean(g');
      SplitFramesAfter(g', z);
      assert s[1..] == g' + SEP + z;
      assert !(s[0] == '\n' && s[1] == '\n') by {
        if |g| == 1 {
          assert g[|g| - 1] == s[0];
        } else {
          assert s[1] == g[1];
        }
      }
      assert [s[0]] + g' == g;
    }
  }

  /** Clean frames each followed by the separator are split off as they are. */
  lemma {:induction false} SplitFramesFramed(gs: seq<string>, z: string)
    requires forall k | 0 <= k < |gs| :: Clean(gs[k])
    ensures SplitFrames(Framed(gs) + z) == gs + SplitFrames(z)
  {
    if gs != [] {
      var rest := Framed(gs[1..]) + z;
      assert Framed(gs) + z == gs[0] + SEP + rest;
      calc {
        SplitFrames(Framed(gs) + z);
        == { SplitFramesAfter(gs[0], rest); }
        [gs[0]] + SplitFrames(rest);
        == { SplitFramesFramed(gs[1..], z); }
        [gs[0]] + (gs[1..] + SplitFrames(z));
        == { assert gs == [gs[0]] + gs[1..]; }
        gs + SplitFrames(z);
      }
    } else {
      assert Framed(gs) + z == z;
    }
  }

  /** Joining frames and a last piece is the framed text of the frames followed by that piece. */
  lemma {:induction false} JoinFramed(gs: seq<string>, b: string)
    ensures Join(gs + [b], SEP) == Framed(gs) + b
  {
    if gs != [] {
      JoinFramed(gs[1..], b);
      assert (gs + [b])[1..] == gs[1..] + [b];
    }
  }

  /** The state of the read loop: the frames split off so far and the buffer. */
  datatype Reader = Reader(frames: seq<string>, buffer: string)

  /** One chunk: `buffer += chunk; lines = buffer.split('\n\n'); buffer = lines.pop() || ''`. */
  function Feed(st: Reader, chunk: string): Reader {
    var parts := SplitFrames(st.buffer + chunk);
    Reader(st.frames + parts[..|parts| - 1], parts[|parts| - 1])
  }

  /** The read loop over all chunks, from an empty buffer. */
  function FeedAll(chunks: seq<string>): Reader {
    if chunks == [] then Reader([], "") else Feed(FeedAll(chunks[..|chunks| - 1]), chunks[|chunks| - 1])
  }

  /** The text received: the chunks one after the other. */
  function Concat(chunks: seq<string>): string {
    if chunks == [] then "" else Concat(chunks[..|chunks| - 1]) + chunks[|chunks| - 1]
  }

  /** Feeding one more chunk to a reader with clean frames splits its frames, each followed by
      the separator, then its buffer and the chunk. */
  lemma FeedSplits(st: Reader, chunk: string)
    requires forall k | 0 <= k < |st.frames| :: Clean(st.frames[k])
    ensures Feed(st, chunk).frames + [Feed(st, chunk).buffer] == SplitFrames(Framed(st.frames) + (st.buffer + chunk))
  {
    var rest := st.buffer + chunk;
    var parts := SplitFrames(rest);
    SplitFramesFramed(st.frames, rest);
    assert parts == parts[..|parts| - 1] + [parts[|parts| - 1]];
  }

  /** A reader whose pieces are those of `text` has clean frames, and `text` is its frames, each
      followed by the separator, then its buffer. */
  lemma ReaderText(st: Reader, text: string)
    requires st.frames + [st.buffer] == SplitFrames(text)
    ensures forall k | 0 <= k < |st.frames| :: Clean(st.frames[k])
    ensures text == Framed(st.frames) + st.buffer
  {
    SplitFramesShape(text);
    forall k | 0 <= k < |st.frames| ensures Clean(st.frames[k]) {
      assert st.frames[k] == SplitFrames(text)[k];
    }
    SplitFramesJoin(text);
    JoinFramed(st.frames, st.buffer);
  }

  /** However the text is cut into chunks, the frames split off and the final buffer are the
      pieces of the whole text: so after each chunk the buffer is exactly the text after the last
      separator, and it never contains one. */
  lemma {:induction false} FeedAllSplits(chunks: seq<string>)
    ensures FeedAll(chunks).frames + [FeedAll(chunks).buffer] == SplitFrames(Concat(chunks))
  {
    if chunks != [] {
      var init := chunks[..|chunks| - 1];
      FeedAllSplits(init);
      FeedStep(FeedAll(init), chunks[|chunks| - 1], Concat(init));
    }
  }

  /** If a reader's pieces are those of `text`, after one more chunk they are those of `text`
      followed by the chunk. */
  lemma FeedStep(st: Reader, chunk: string, text: string)
    requires st.frames + [st.buffer] == SplitFrames(text)
    ensures Feed(st, chunk).frames + [Feed(st, chunk).buffer] == SplitFrames(text + chunk)
  {
    ReaderText(st, text);
    FeedSplits(st, chunk);
    assert Framed(st.frames) + (st.buffer + chunk) == text + chunk;
  }

  /** After any chunks the buffer holds no separator. */
  lemma BufferNoSep(chunks: seq<string>)
    ensures !HasSep(FeedAll(chunks).buffer)
  {
    var r := FeedAll(chunks);
    FeedAllSplits(chunks);
    SplitFramesShape(Concat(chunks));
    assert r.buffer == SplitFrames(Concat(chunks))[|r.frames|];
  }

  /** The event a frame carries: a frame that starts with `data: ` is parsed after those six
      characters (`None` for malformed JSON, which is logged and skipped); other frames carry
      none. */
  function FrameEvent(parse: string -> Option<Event>, frame: string): Option<Event> {
    if StartsWith(frame, DATA_PREFIX) then parse(frame[|DATA_PREFIX|..]) else None
  }

  /** The events handed to the progress callback for the frames `frames`, in order. */
  function Dispatched(parse: string -> Option<Event>, frames: seq<string>): seq<Event> {
    FilterMap(frames, f => FrameEvent(parse, f))
  }

  /** The list of the last `urls` event of `events`, or `start` when there is none. */
  function LastUrls(start: seq<string>, events: seq<Event>): seq<string> {
    if events == [] then start
    else if events[|events| - 1].Urls? then events[|events| - 1].urls
    else LastUrls(start, events[..|events| - 1])
  }

  /** `finalUrls` once the events `events` were seen: it starts as `[]`. */
  function FinalUrls(events: seq<Event>): seq<string> {
    LastUrls([], events)
  }

  /** Without a `urls` event, `LastUrls` is `start`. */
  lemma {:induction false} LastUrlsNone(start: seq<string>, events: seq<Event>)
    requires forall i | 0 <= i < |events| :: !events[i].Urls?
    ensures LastUrls(start, events) == start
  {
    if events != [] {
      var init := events[..|events| - 1];
      assert forall i | 0 <= i < |init| :: init[i] == events[i];
      LastUrlsNone(start, init);
    }
  }

  /** When the event at `j` is the last `urls` event, `LastUrls` is its list. */
  lemma {:induction false} LastUrlsAt(start: seq<string>, events: seq<Event>, j: nat)
    requires j < |events| && events[j].Urls?
    requires forall i | j < i < |events| :: !events[i].Urls?
    ensures LastUrls(start, events) == events[j].urls
    decreases |events|
  {
    if j < |events| - 1 {
      var init := events[..|events| - 1];
      assert forall i | 0 <= i < |init| :: init[i] == events[i];
      LastUrlsAt(start, init, j);
    }
  }

  /** Seeing `a` and then `b` leaves the list `b` leaves after `a`. */
  lemma {:induction false} LastUrlsAppend(start: seq<string>, a: seq<Event>, b: seq<Event>)
    ensures LastUrls(start, a + b) == LastUrls(LastUrls(start, a), b)
  {
    if b == [] {
      assert a + b == a;
    } else {
      LastUrlsAppend(start, a, b[..|b| - 1]);
      assert (a + b)[..|a + b| - 1] == a + b[..|b| - 1];
      assert (a + b)[|a + b| - 1] == b[|b| - 1];
    }
  }

  /** The dispatch loop over the complete frames of one chunk: each `data: ` frame that parses is
      handed to the callback (`events` lists the arguments), and a `urls` event replaces
      `finalUrls`. An `error` event is thrown inside the `try` and caught right there, so it stops
      nothing. */
  method DispatchFrames(parse: string -> Option<Event>, lines: seq<string>, finalUrls: seq<string>)
      returns (events: seq<Event>, finalUrls': seq<string>)
    ensures events == Dispatched(parse, lines)
    ensures finalUrls' == LastUrls(finalUrls, events)
  {
    events, finalUrls' := [], finalUrls;
    for j := 0 to |lines|
      invariant events == Dispatched(parse, lines[..j])
      invariant finalUrls' == LastUrls(finalUrls, events)
    {
      FilterMapSnoc(lines, f => FrameEvent(parse, f), j);
      var line := lines[j];
      if StartsWith(line, DATA_PREFIX) {
        var data := parse(line[6..]);
        if data.Some? {
          ghost var before := events;
          events := events + [data.value];
          assert events[..|events| - 1] == before;
          if data.value.Urls? {
            finalUrls' := data.value.urls;
          }
        }
      }
    }
    assert lines[..|lines|] == lines;
  }

  /** One chunk of the read loop: it is appended to the buffer, the buffer is split, its last
      piece becomes the buffer and the complete frames before it are dispatched. */
  method ReadChunk(parse: string -> Option<Event>, buffer: string, chunk: string, finalUrls: seq<string>)
      returns (buffer': string, events: seq<Event>, finalUrls': seq<string>)
    ensures var parts := SplitFrames(buffer + chunk);
      && buffer' == parts[|parts| - 1]
      && events == Dispatched(parse, parts[..|parts| - 1])
      && finalUrls' == LastUrls(finalUrls, events)
  {
    var lines := SplitFrames(buffer + chunk);
    buffer' := lines[|lines| - 1];
    lines := lines[..|lines| - 1];
    events, finalUrls' := DispatchFrames(parse, lines, finalUrls);
  }

  /** One chunk more: the reader advances by `Feed`, the dispatched events by those of the new
      frames, and `finalUrls` accordingly. */
  lemma FeedAllSnoc(parse: string -> Option<Event>, chunks: seq<string>, i: nat)
    requires i < |chunks|
    ensures var st := FeedAll(chunks[..i]);
      var parts := SplitFrames(st.buffer + chunks[i]);
      && FeedAll(chunks[..i + 1]) == Feed(st, chunks[i])
      && Dispatched(parse, FeedAll(chunks[..i + 1]).frames)
         == Dispatched(parse, st.frames) + Dispatched(parse, parts[..|parts| - 1])
  {
    assert chunks[..i + 1][..i] == chunks[..i];
    var st := FeedAll(chunks[..i]);
    var parts := SplitFrames(st.buffer + chunks[i]);
    FilterMapAppend(st.frames, parts[..|parts| - 1], f => FrameEvent(parse, f));
  }

  /** `crawlWebsite` on the client: a response that is not ok, or has no body, throws before any
      callback; otherwise every chunk is fed to the buffer and the complete frames are
      dispatched, and the result is the list of the last `urls` event. Text left in the buffer
      when the stream ends is never dispatched. `chunks` is the decoded body, `None` for a missing
      one; `dispatched` lists the callback's arguments. */
  method ClientCrawl(parse: string -> Option<Event>, ok: bool, body: Option<seq<string>>)
      returns (r: Result<seq<string>>, dispatched: seq<Event>)
    ensures !ok ==> r == Failure(START_FAILED) && dispatched == []
    ensures ok && body.None? ==> r == Failure(NO_BODY) && dispatched == []
    ensures ok && body.Some? ==>
      && dispatched == Dispatched(parse, FeedAll(body.value).frames)
      && r == Success(FinalUrls(dispatched))
  {
    dispatched := [];
    if !ok {
      return Failure(START_FAILED), dispatched;
    }
    if body.None? {
      return Failure(NO_BODY), dispatched;
    }
    var chunks := body.value;
    var finalUrls: seq<string> := [];
    var buffer := "";
    for i := 0 to |chunks|
      invariant FeedAll(chunks[..i]).buffer == buffer
      invariant dispatched == Dispatched(parse, FeedAll(chunks[..i]).frames)
      invariant finalUrls == FinalUrls(dispatched)
    {
      FeedAllSnoc(parse, chunks, i);
      var events;
      buffer, events, finalUrls := ReadChunk(parse, buffer, chunks[i], finalUrls);
      LastUrlsAppend([], dispatched, events);
      dispatched := dispatched + events;
    }
    assert chunks[..|chunks|] == chunks;
    r := Success(finalUrls);
  }

  /** The frames the server writes for its events: `data: ` and the event's JSON text `enc(e)`;
      each is followed by a blank line (`Framed`). */
  function ServerFrames(enc: Event -> string, es: seq<Event>): (r: seq<string>)
    ensures |r| == |es| && forall k | 0 <= k < |r| :: r[k] == DATA_PREFIX + enc(es[k])
  {
    seq(|es|, k requires 0 <= k < |es| => DATA_PREFIX + enc(es[k]))
  }

  /** A server frame carries the event it was written for, when the JSON text reads back. */
  lemma ServerFrameEvent(parse: string -> Option<Event>, enc: Event -> string, e: Event)
    requires parse(enc(e)) == Some(e)
    ensures FrameEvent(parse, DATA_PREFIX + enc(e)) == Some(e)
  {
    var f := DATA_PREFIX + enc(e);
    assert f[..|DATA_PREFIX|] == DATA_PREFIX && f[|DATA_PREFIX|..] == enc(e);
  }

  /** The server's frames, when each event's JSON text reads back, dispatch exactly its events. */
  lemma {:induction false} DispatchedServerFrames(parse: string -> Option<Event>, enc: Event -> string, es: seq<Event>)
    requires forall k | 0 <= k < |es| :: parse(enc(es[k])) == Some(es[k])
    ensures Dispatched(parse, ServerFrames(enc, es)) == es
  {
    if es != [] {
      var init := es[..|es| - 1];
      DispatchedServerFrames(parse, enc, init);
      var fs := ServerFrames(enc, es);
      assert fs[..|fs| - 1] == ServerFrames(enc, init);
      ServerFrameEvent(parse, enc, es[|es| - 1]);
      assert es == init + [es[|es| - 1]];
    }
  }

  /** A frame without line feeds is clean. */
  lemma NoLineFeedClean(g: string)
    requires '\n' !in g
    ensures Clean(g)
  {
    if g != [] {
      assert g[|g| - 1] in g;
    }
  }

  /** The round trip with the server: when each event's JSON text has no line feed (as
      `JSON.stringify` guarantees) and reads back as the event, then however the stream is cut
      into chunks, the client hands exactly the server's events to its callback, in order, and
      nothing is left in the buffer. */
  lemma ClientReadsServer(parse: string -> Option<Event>, enc: Event -> string, es: seq<Event>, chunks: seq<string>)
    requires forall k | 0 <= k < |es| :: '\n' !in enc(es[k]) && parse(enc(es[k])) == Some(es[k])
    requires Concat(chunks) == Framed(ServerFrames(enc, es))
    ensures FeedAll(chunks).buffer == ""
    ensures Dispatched(parse, FeedAll(chunks).frames) == es
  {
    var fs := ServerFrames(enc, es);
    forall k | 0 <= k < |fs| ensures Clean(fs[k]) {
      assert '\n' !in DATA_PREFIX;
      NoLineFeedClean(fs[k]);
    }
    FeedAllSplits(chunks);
    assert Framed(fs) + "" == Framed(fs);
    SplitFramesFramed(fs, "");
    assert SplitFrames("") == [""];
    var st := FeedAll(chunks);
    assert st.frames + [st.buffer] == fs + [""];
    assert st.frames == (st.frames + [st.buffer])[..|fs|];
    DispatchedServerFrames(parse, enc, es);
  }

  /** A server stream that ends as a completed crawl does (`Completed`: the complete snapshot of
      the final set `d`, then one log line), read back as above, makes the client return `d`. */
  lemma ClientReturnsFinalSet(parse: string -> Option<Event>, enc: Event -> string, es: seq<Event>,
                              chunks: seq<string>, d: seq<string>)
    requires forall k | 0 <= k < |es| :: '\n' !in enc(es[k]) && parse(enc(es[k])) == Some(es[k])
    requires Concat(chunks) == Framed(ServerFrames(enc, es))
    requires |es| >= 2 && es[|es| - 2] == Urls(d, true) && es[|es| - 1].Log?
    ensures FinalUrls(Dispatched(parse, FeedAll(chunks).frames)) == d
  {
    calc {
      FinalUrls(Dispatched(parse, FeedAll(chunks).frames));
      == { ClientReadsServer(parse, enc, es, chunks); }
      FinalUrls(es);
      == { LastUrlsAt([], es, |es| - 2); }
      d;
    }
  }

  /** A stream holding only the server's error event makes the client return an empty list: the
      error is caught where it is thrown. */
  lemma ClientErrorStream(parse: string -> Option<Event>, enc: Event -> string, message: string, chunks: seq<string>)
    requires '\n' !in enc(Error(message)) && parse(enc(Error(message))) == Some(Error(message))
    requires Concat(chunks) == Framed(ServerFrames(enc, [Error(message)]))
    ensures Dispatched(parse, FeedAll(chunks).frames) == [Error(message)]
    ensures FinalUrls(Dispatched(parse, FeedAll(chunks).frames)) == []
  {
    ClientReadsServer(parse, enc, [Error(message)], chunks);
    LastUrlsNone([], [Error(message)]);
  }
}

=== FILE: storage.dfy ===
/** The onboarding state kept in the browser between visits: one storage slot holding the site,
    the selected pages and all pages with the time they were saved, forgotten after 24 hours.
    The clock is a parameter of each operation. */
module Storage {
  import opened Wrappers

  /** `EXPIRY_TIME`: 24 hours in milliseconds. */
  const EXPIRY_TIME: int := 24 * 60 * 60 * 1000

  /** The saved fields with the time of saving, in milliseconds. */
  datatype OnboardingState = OnboardingState(websiteUrl: string, selectedUrls: seq<string>, allUrls: seq<string>, timestamp: int)

  /** What the slot holds: a record `JSON.parse` reads back, or text it rejects. */
  datatype Stored = Record(state: OnboardingState) | Unparseable

  /** A state saved at `state.timestamp` is still good at `now`: at most 24 hours have passed. */
  predicate Unexpired(state: OnboardingState, now: int) {
    now - state.timestamp <= EXPIRY_TIME
  }

  /** What `loadOnboardingState` returns at `now` for the slot contents `slot`. */
  function LoadResult(slot: Option<Stored>, now: int): (r: Option<OnboardingState>)
    ensures r.Some? <==> slot.Some? && slot.value.Record? && Unexpired(slot.value.state, now)
    ensures r.Some? ==> r.value == slot.value.state
  {
    match slot
    case None => None
    case Some(Unparseable) => None
    case Some(Record(state)) => if Unexpired(state, now) then Some(state) else None
  }

  /** The slot after `loadOnboardingState` at `now`: an expired record is removed, anything else
      stays. */
  function SlotAfterLoad(slot: Option<Stored>, now: int): (r: Option<Stored>)
    ensures r == None || r == slot
    ensures r != slot <==> slot.Some? && slot.value.Record? && !Unexpired(slot.value.state, now)
  {
    match slot
    case Some(Record(state)) => if Unexpired(state, now) then slot else None
    case _ => slot
  }

  /** The storage slot of the onboarding state. */
  class OnboardingStore {
    var slot: Option<Stored>

    /** An empty slot. */
    constructor ()
      ensures slot == None
    {
      slot := None;
    }

    /** `saveOnboardingState` at `now`: the slot holds the fields with `timestamp = now`; when the
        browser refuses the write (`writable` false, the caught exception) nothing changes. */
    method Save(websiteUrl: string, selectedUrls: seq<string>, allUrls: seq<string>, now: int, writable: bool)
      modifies this
      ensures writable ==> slot == Some(Record(OnboardingState(websiteUrl, selectedUrls, allUrls, now)))
      ensures !writable ==> slot == old(slot)
    {
      if writable {
        var data := OnboardingState(websiteUrl, selectedUrls, allUrls, now);
        slot := Some(Record(data));
      }
    }

    /** `loadOnboardingState` at `now`: null for an empty slot or unparseable text; a record older
        than 24 hours is cleared and gives null; otherwise the record is returned and kept. */
    method Load(now: int) returns (r: Option<OnboardingState>)
      modifies this
      ensures r == LoadResult(old(slot), now)
      ensures slot == SlotAfterLoad(old(slot), now)
    {
      match slot {
        case None =>
          r := None;
        case Some(Unparseable) =>
          r := None;
        case Some(Record(state)) =>
          if now - state.timestamp > EXPIRY_TIME {
            Clear();
            r := None;
          } else {
            r := Some(state);
          }
      }
    }

    /** `clearOnboardingState`: the slot is emptied. */
    method Clear()
      modifies this
      ensures slot == None
    {
      slot := None;
    }
  }

  /** A save followed by a load at most 24 hours later gives back the saved fields and keeps
      them. */
  lemma SaveThenLoad(websiteUrl: string, selectedUrls: seq<string>, allUrls: seq<string>, saved: int, now: int)
    requires now - saved <= EXPIRY_TIME
    ensures var slot := Some(Record(OnboardingState(websiteUrl, selectedUrls, allUrls, saved)));
      && LoadResult(slot, now) == Some(OnboardingState(websiteUrl, selectedUrls, allUrls, saved))
      && SlotAfterLoad(slot, now) == slot
  {
  }

  /** More than 24 hours after saving, a load gives nothing and empties the slot; exactly 24
      hours after, it still gives the state. */
  lemma LoadAfterExpiry(state: OnboardingState, now: int)
    ensures now - state.timestamp > EXPIRY_TIME ==>
      LoadResult(Some(Record(state)), now) == None && SlotAfterLoad(Some(Record(state)), now) == None
    ensures now - state.timestamp == EXPIRY_TIME ==> LoadResult(Some(Record(state)), now) == Some(state)
  {
  }

  /** After a clear, and whatever the slot held before, a load gives nothing. */
  lemma LoadAfterClear(now: int)
    ensures LoadResult(None, now) == None && SlotAfterLoad(None, now) == None
  {
  }

  /** Loading twice at the same time gives the same as loading once, and leaves the same slot. */
  lemma LoadTwice(slot: Option<Stored>, now: int)
    ensures LoadResult(SlotAfterLoad(slot, now), now) == LoadResult(slot, now)
    ensures SlotAfterLoad(SlotAfterLoad(slot, now), now) == SlotAfterLoad(slot, now)
  {
  }

  /** Unparseable text gives nothing and stays in the slot. */
  lemma LoadUnparseable(now: int)
    ensures LoadResult(Some(Unparseable), now) == None
    ensures SlotAfterLoad(Some(Unparseable), now) == Some(Unparseable)
  {
  }
}

=== FILE: text.dfy ===
/** The string operations of JavaScript that the crawler, the chunker and the SSE client rely on:
    `trim`, `startsWith`, `endsWith`, `includes`, `toLowerCase`, `split` on one character and
    joining with a separator. Strings are sequences of characters. */
module Text {

  /** JavaScript's WhiteSpace and LineTerminator characters: what `trim()` removes and what the
      regular-expression class `\s` matches. */
  predicate IsWhitespace(c: char) {
    || c == ' ' || c == '\t' || c == '\n' || c == '\U{B}' || c == '\U{C}' || c == '\r'
    || c == '\U{A0}' || c == '\U{1680}' || ('\U{2000}' <= c <= '\U{200A}')
    || c == '\U{2028}' || c == '\U{2029}' || c == '\U{202F}' || c == '\U{205F}'
    || c == '\U{3000}' || c == '\U{FEFF}'
  }

  /** `s.startsWith(p)` */
  predicate StartsWith(s: string, p: string) {
    |p| <= |s| && s[..|p|] == p
  }

  /** `s.endsWith(x)` */
  predicate EndsWith(s: string, x: string) {
    |x| <= |s| && s[|s| - |x|..] == x
  }

  /** `s.includes(t)`: `t` occurs somewhere in `s`. */
  predicate Contains(s: string, t: string) {
    exists i | 0 <= i <= |s| :: StartsWith(s[i..], t)
  }

  /** `toLowerCase` on one character; only the ASCII letters are mapped. */
  function LowerChar(c: char): (r: char)
    ensures 'A' <= c <= 'Z' ==> r as int == c as int + 32
    ensures !('A' <= c <= 'Z') ==> r == c
  {
    if 'A' <= c <= 'Z' then (c as int + 32) as char else c
  }

  /** `s.toLowerCase()` restricted to ASCII letters. */
  function ToLower(s: string): (r: string)
    ensures |r| == |s|
    ensures forall i | 0 <= i < |s| :: r[i] == LowerChar(s[i])
  {
    seq(|s|, i requires 0 <= i < |s| => LowerChar(s[i]))
  }

  /** JavaScript's `s.length`: the number of UTF-16 code units, two for a character outside the
      Basic Multilingual Plane and one for any other. */
  function Utf16Length(s: string): (r: nat)
    ensures |s| <= r <= 2 * |s|
  {
    if s == [] then 0 else Utf16Length(s[..|s| - 1]) + if s[|s| - 1] as int > 0xFFFF then 2 else 1
  }

  /** `trimStart()` */
  function TrimStart(s: string): string {
    if s != [] && IsWhitespace(s[0]) then TrimStart(s[1..]) else s
  }

  /** `trimEnd()` */
  function TrimEnd(s: string): string {
    if s != [] && IsWhitespace(s[|s| - 1]) then TrimEnd(s[..|s| - 1]) else s
  }

  /** `trimStart()` drops the leading white space, and nothing else. */
  lemma {:induction false} TrimStartShape(s: string)
    ensures |TrimStart(s)| <= |s| && TrimStart(s) == s[|s| - |TrimStart(s)|..]
    ensures forall i | 0 <= i < |s| - |TrimStart(s)| :: IsWhitespace(s[i])
    ensures TrimStart(s) == [] || !IsWhitespace(TrimStart(s)[0])
  {
    if s != [] && IsWhitespace(s[0]) {
      TrimStartShape(s[1..]);
    }
  }

  /** `trimEnd()` drops the trailing white space, and nothing else. */
  lemma {:induction false} TrimEndShape(s: string)
    ensures |TrimEnd(s)| <= |s| && TrimEnd(s) == s[..|TrimEnd(s)|]
    ensures forall i | |TrimEnd(s)| <= i < |s| :: IsWhitespace(s[i])
    ensures TrimEnd(s) == [] || !IsWhitespace(TrimEnd(s)[|TrimEnd(s)| - 1])
  {
    if s != [] && IsWhitespace(s[|s| - 1]) {
      TrimEndShape(s[..|s| - 1]);
    }
  }

  /** `trim()` */
  function Trim(s: string): string {
    TrimEnd(TrimStart(s))
  }

  /** `Trim` yields a contiguous piece of its input with no white space at either end, and only
      white space was removed around it. */
  lemma TrimIsSlice(s: string) returns (lo: nat)
    ensures lo + |Trim(s)| <= |s| && Trim(s) == s[lo..lo + |Trim(s)|]
    ensures forall i | 0 <= i < lo :: IsWhitespace(s[i])
    ensures forall i | lo + |Trim(s)| <= i < |s| :: IsWhitespace(s[i])
    ensures Trim(s) == [] || (!IsWhitespace(Trim(s)[0]) && !IsWhitespace(Trim(s)[|Trim(s)| - 1]))
  {
    var t := TrimStart(s);
    TrimStartShape(s);
    lo := |s| - |t|;
    var r := TrimEnd(t);
    TrimEndShape(t);
    forall i | 0 <= i < |t| ensures t[i] == s[lo + i] {
    }
    forall i | 0 <= i < |r| ensures r[i] == s[lo + i] {
      assert r[i] == t[i];
    }
    assert r == s[lo..lo + |r|];
  }

  /** Trimming a string made only of white space gives the empty string. */
  lemma TrimAllWhitespace(s: string)
    requires forall i | 0 <= i < |s| :: IsWhitespace(s[i])
    ensures Trim(s) == []
  {
    TrimStartShape(s);
  }

  /** A string with no white space at either end is its own trim: trimming twice is trimming
      once. */
  lemma TrimTrimmed(s: string)
    requires s == [] || (!IsWhitespace(s[0]) && !IsWhitespace(s[|s| - 1]))
    ensures Trim(s) == s
  {
  }

  /** The parts of `s` joined back with `sep` between them (`parts.join(sep)`). */
  function Join(parts: seq<string>, sep: string): string {
    if parts == [] then ""
    else if |parts| == 1 then parts[0]
    else parts[0] + sep + Join(parts[1..], sep)
  }

  /** `s.split(c)` for a one-character separator: the maximal pieces between occurrences of `c`,
      with empty pieces kept (so `""` splits into `[""]`). */
  function SplitOn(s: string, c: char): (r: seq<string>)
    ensures |r| >= 1
  {
    if s == [] then [""]
    else
      var rest := SplitOn(s[1..], c);
      if s[0] == c then [""] + rest else [[s[0]] + rest[0]] + rest[1..]
  }

  /** Splitting on `c` loses nothing: joining the pieces with `c` gives back the input, and no piece
      contains the separator. */
  lemma {:induction false} SplitOnJoin(s: string, c: char)
    ensures Join(SplitOn(s, c), [c]) == s
    ensures forall k | 0 <= k < |SplitOn(s, c)| :: c !in SplitOn(s, c)[k]
  {
    if s != [] {
      var rest := SplitOn(s[1..], c);
      SplitOnJoin(s[1..], c);
      if s[0] == c {
        assert SplitOn(s, c) == [""] + rest;
        assert Join([""] + rest, [c]) == "" + [c] + Join(rest, [c]);
      } else {
        var r := SplitOn(s, c);
        assert r == [[s[0]] + rest[0]] + rest[1..];
        if |rest| == 1 {
          assert Join(r, [c]) == [s[0]] + rest[0];
        } else {
          assert r[1..] == rest[1..];
          assert Join(r, [c]) == [s[0]] + rest[0] + [c] + Join(rest[1..], [c]);
          assert Join(rest, [c]) == rest[0] + [c] + Join(rest[1..], [c]);
        }
        forall k | 0 <= k < |r| ensures c !in r[k] {
          if k == 0 {
            assert c !in rest[0];
          } else {
            assert r[k] == rest[k];
          }
        }
      }
    }
  }

  /** The decimal digits of `n`, as `${n}` writes a non-negative integer. */
  function NatToString(n: nat): (r: string)
    ensures r != [] && forall i | 0 <= i < |r| :: '0' <= r[i] <= '9'
  {
    var d := ['0' + (n % 10) as char];
    if n < 10 then d else NatToString(n / 10) + d
  }
}

=== FILE: web.dfy ===
/** The crawlers' view of URLs and of the network. WHATWG URL parsing and resolution, `fetch` and
    the wall clock are oracles held in an `Env`; what the source does around them is modelled. */
module Web {
  import opened Wrappers
  import opened Text

  /** A parsed URL as `new URL(...)` exposes it. `head` is everything `href` writes before the path
      (scheme, credentials, host and port). */
  datatype Url = Url(head: string, hostname: string, pathname: string, search: string, hash: string)

  /** `url.href`: the serialisation of its parts. */
  function Href(u: Url): string {
    u.head + u.pathname + u.search + u.hash
  }

  /** A completed `fetch` of a page: `response.ok`, the `content-type` header, the `href` values of
      its `a[href]` elements when the HTML parser returns a document, and the `<title>` and `<body>`
      text that the training crawler reads (after its tag stripping, which is not modelled). */
  datatype Page = Page(ok: bool, contentType: Option<string>, anchors: Option<seq<string>>,
                       title: string, bodyText: string)

  /** The outcome of fetching robots.txt or sitemap.xml: the request threw (network error, timeout,
      unreadable body), or a response arrived with its `ok` flag and its parsed body. */
  datatype Fetched<T> = Unreachable | Received(ok: bool, body: T)

  /** The oracles: `parse(s)` is `new URL(s)` (`None` when it throws), `resolve(h, b)` is
      `new URL(h, b)`, `fetch(u)` is a page request (`None` when it throws or times out), and
      `eta(remaining, processed)` is the clock-based estimate `Math.ceil(remaining / rate)`. */
  datatype Env = Env(parse: string -> Option<Url>, resolve: (string, string) -> Option<Url>,
                     fetch: string -> Option<Page>, eta: (nat, nat) -> nat)

  /** `contentType?.includes('text/html')`: a missing header does not count as HTML. */
  predicate IsHtml(p: Page) {
    p.contentType.Some? && Contains(p.contentType.value, "text/html")
  }

  /** The page the crawlers go on to read links from: the request completed, the response is ok,
      its content type is HTML and the HTML parser returned a document. */
  function HtmlPage(env: Env, url: string): (r: Option<Page>)
    ensures r.Some? ==> r.value.ok && IsHtml(r.value) && r.value.anchors.Some?
  {
    match env.fetch(url)
    case None => None
    case Some(p) => if p.ok && IsHtml(p) && p.anchors.Some? then Some(p) else None
  }

  /** The URL after `hash = ''` and, when the path is longer than "/" and ends with "/", the removal
      of that one slash. */
  function Normalized(u: Url): Url {
    var p := u.pathname;
    u.(hash := "", pathname := if EndsWith(p, "/") && |p| > 1 then p[..|p| - 1] else p)
  }

  /** `normalizeUrl(url, baseUrl)`: resolve, clear the fragment, drop one trailing slash, and give
      `href`; `null` when resolution throws. (The three copies in the repository are identical.) */
  function NormalizeUrl(env: Env, url: string, base: string): Option<string> {
    match env.resolve(url, base)
    case None => None
    case Some(u) => Some(Href(Normalized(u)))
  }

  /** `isSameDomain(url, baseDomain)`: the URL parses and its hostname is the base domain. */
  predicate IsSameDomain(env: Env, url: string, domain: string) {
    match env.parse(url)
    case None => false
    case Some(u) => u.hostname == domain
  }

  /** `new URL(url).pathname`, which the crawlers print in their log lines. */
  function PathOf(env: Env, url: string): string {
    match env.parse(url)
    case None => ""
    case Some(u) => u.pathname
  }

  /** What normalisation does to a resolved URL: the fragment is cleared, a path longer than "/"
      that ends with "/" loses exactly that one character, any other path is kept, and the rest of
      the URL is untouched. It returns `null` exactly when resolution fails. */
  lemma NormalizeUrlEffect(env: Env, url: string, base: string)
    ensures NormalizeUrl(env, url, base).None? <==> env.resolve(url, base).None?
    ensures env.resolve(url, base).Some? ==>
      var u := env.resolve(url, base).value;
      var v := Normalized(u);
      && NormalizeUrl(env, url, base) == Some(v.head + v.pathname + v.search)
      && v.head == u.head && v.hostname == u.hostname && v.search == u.search
      && (if |u.pathname| > 1 && u.pathname[|u.pathname| - 1] == '/'
          then v.pathname + "/" == u.pathname
          else v.pathname == u.pathname)
  {
    if env.resolve(url, base).Some? {
      var u := env.resolve(url, base).value;
      var p := u.pathname;
      var v := Normalized(u);
      assert Href(v) == v.head + v.pathname + v.search by { assert v.hash == ""; }
      if |p| > 1 && p[|p| - 1] == '/' {
        assert EndsWith(p, "/") by { assert p[|p| - 1..] == "/"; }
        assert p[..|p| - 1] + "/" == p;
      }
    }
  }

  /** Normalising twice gives the same string as normalising once, when the normalised URL
      re-parses to itself and its resolved path does not end with "//". */
  lemma NormalizeUrlIdempotent(env: Env, url: string, base: string, base': string)
    requires env.resolve(url, base).Some?
    requires var v := Normalized(env.resolve(url, base).value);
      env.resolve(Href(v), base') == Some(v)
    requires !EndsWith(env.resolve(url, base).value.pathname, "//")
    ensures NormalizeUrl(env, NormalizeUrl(env, url, base).value, base') == NormalizeUrl(env, url, base)
  {
    var u := env.resolve(url, base).value;
    var p := u.pathname;
    var v := Normalized(u);
    if EndsWith(p, "/") && |p| > 1 {
      var q := p[..|p| - 1];
      assert v.pathname == q;
    }
    assert Normalized(v) == v;
  }

  /** Normalisation is not idempotent: only one slash is removed, so a resolved path such as "/a//"
      still ends in "/" after one pass, and a second pass changes the string again. */
  lemma NormalizeUrlNotIdempotent(env: Env, url: string, base: string)
    requires env.resolve(url, base).Some?
    requires var v := Normalized(env.resolve(url, base).value);
      env.resolve(Href(v), base) == Some(v)
    requires EndsWith(env.resolve(url, base).value.pathname, "//")
    requires |env.resolve(url, base).value.pathname| > 2
    ensures NormalizeUrl(env, NormalizeUrl(env, url, base).value, base) != NormalizeUrl(env, url, base)
  {
    var u := env.resolve(url, base).value;
    var p := u.pathname;
    var v := Normalized(u);
    assert p[|p| - 1..] == "/" by { assert p[|p| - 2..] == "//"; }
    var q := p[..|p| - 1];
    assert v.pathname == q;
    assert q[|q| - 1..] == "/" by { assert p[|p| - 2..] == "//"; }
    assert Normalized(v).pathname == q[..|q| - 1];
    assert |Href(Normalized(v))| < |Href(v)|;
  }
}

=== FILE: words.dfy ===
/** White-space handling shared by the training crawler and the text chunker: `split(/\s+/)`,
    `replace(/\s+/g, ' ')` and the word list `split(/\s+/).filter(w => w.length > 0)`. */
module Words {
  import opened Text
  import opened Seqs

  /** `s.split(/\s+/)`: the pieces between maximal runs of white space. A leading or trailing run
      gives an empty first or last piece, and `""` gives `[""]`. */
  function SplitWs(s: string): (r: seq<string>)
    ensures |r| >= 1
  {
    if s == [] then [""]
    else
      var rest := SplitWs(s[1..]);
      if IsWhitespace(s[0]) then
        if |s| > 1 && IsWhitespace(s[1]) then rest else [""] + rest
      else [[s[0]] + rest[0]] + rest[1..]
  }

  /** `s.replace(/\s+/g, ' ')`: every maximal run of white space becomes a single space. It is empty
      exactly when `s` is, and starts with white space exactly when `s` does. */
  function CollapseRuns(s: string): (r: string)
    ensures |r| <= |s|
    ensures r == [] <==> s == []
    ensures r != [] ==> (IsWhitespace(r[0]) <==> IsWhitespace(s[0]))
  {
    if s == [] then []
    else if IsWhitespace(s[0]) then
      if |s| > 1 && IsWhitespace(s[1]) then CollapseRuns(s[1..]) else " " + CollapseRuns(s[1..])
    else [s[0]] + CollapseRuns(s[1..])
  }

  /** `s.replace(/\n+/g, '\n')`: every run of line feeds becomes one; a text without a line feed is
      left as it is. */
  function SquashNewlines(s: string): (r: string)
    ensures '\n' !in s ==> r == s
  {
    if s == [] then []
    else if s[0] == '\n' && |s| > 1 && s[1] == '\n' then SquashNewlines(s[1..])
    else [s[0]] + SquashNewlines(s[1..])
  }

  /** The white space of a text is single spaces that never touch each other. */
  predicate SingleSpaced(t: string) {
    && (forall i | 0 <= i < |t| && IsWhitespace(t[i]) :: t[i] == ' ')
    && (forall i | 0 <= i < |t| - 1 :: !(IsWhitespace(t[i]) && IsWhitespace(t[i + 1])))
  }

  /** A word is a non-empty piece. */
  predicate NonEmptyPiece(w: string) {
    |w| > 0
  }

  /** `s.split(/\s+/).filter(w => w.length > 0)`: the words of `s`. */
  function WordsOf(s: string): seq<string> {
    Filter(SplitWs(s), NonEmptyPiece)
  }

  /** After `replace(/\s+/g, ' ')` a text is single-spaced. */
  lemma {:induction false} CollapseRunsSingleSpaced(s: string)
    ensures SingleSpaced(CollapseRuns(s))
  {
    if s != [] {
      CollapseRunsSingleSpaced(s[1..]);
      var x := CollapseRuns(s[1..]);
      if IsWhitespace(s[0]) && !(|s| > 1 && IsWhitespace(s[1])) {
        assert CollapseRuns(s) == " " + x;
        assert x != [] ==> !IsWhitespace(x[0]);
        assert forall i | 1 <= i < |" " + x| :: (" " + x)[i] == x[i - 1];
      } else if !IsWhitespace(s[0]) {
        assert CollapseRuns(s) == [s[0]] + x;
        assert forall i | 1 <= i < |[s[0]] + x| :: ([s[0]] + x)[i] == x[i - 1];
      }
    }
  }

  /** A contiguous piece of a single-spaced text is single-spaced. */
  lemma SingleSpacedSlice(t: string, lo: nat, hi: nat)
    requires lo <= hi <= |t| && SingleSpaced(t)
    ensures SingleSpaced(t[lo..hi])
  {
    var u := t[lo..hi];
    assert forall i | 0 <= i < |u| :: u[i] == t[lo + i];
  }

  /** Collapsing white-space runs does not change how `split(/\s+/)` cuts the text. */
  lemma {:induction false} SplitWsCollapseRuns(s: string)
    ensures SplitWs(CollapseRuns(s)) == SplitWs(s)
  {
    if s != [] {
      SplitWsCollapseRuns(s[1..]);
      var x := CollapseRuns(s[1..]);
      if IsWhitespace(s[0]) {
        if !(|s| > 1 && IsWhitespace(s[1])) {
          var c := " " + x;
          assert c[1..] == x;
          assert SplitWs(c) == [""] + SplitWs(x);
        }
      } else {
        var c := [s[0]] + x;
        assert c[1..] == x;
      }
    }
  }

  /** Appending one white-space character to `s` adds an empty last piece, unless `s` already ends
      with white space. */
  lemma {:induction false} SplitWsSnoc(s: string, w: char)
    requires IsWhitespace(w)
    ensures SplitWs(s + [w]) ==
      if s != [] && IsWhitespace(s[|s| - 1]) then SplitWs(s) else SplitWs(s) + [""]
  {
    if s == [] {
      assert [w][1..] == [];
    } else {
      var t := s[1..];
      assert (s + [w])[1..] == t + [w];
      SplitWsSnoc(t, w);
      if t == [] {
        assert s == [s[0]];
      } else {
        assert s[|s| - 1] == t[|t| - 1];
        assert (s + [w])[1] == t[0] == s[1];
      }
    }
  }

  /** Removing trailing white space keeps the words. */
  lemma {:induction false} WordsOfTrimEnd(s: string)
    ensures WordsOf(TrimEnd(s)) == WordsOf(s)
  {
    if s != [] && IsWhitespace(s[|s| - 1]) {
      var init := s[..|s| - 1];
      assert s == init + [s[|s| - 1]];
      WordsOfTrimEnd(init);
      SplitWsSnoc(init, s[|s| - 1]);
      if !(init != [] && IsWhitespace(init[|init| - 1])) {
        FilterAppend(SplitWs(init), [""], NonEmptyPiece);
      }
    }
  }

  /** Removing leading white space keeps the words. */
  lemma {:induction false} WordsOfTrimStart(s: string)
    ensures WordsOf(TrimStart(s)) == WordsOf(s)
  {
    if s != [] && IsWhitespace(s[0]) {
      WordsOfTrimStart(s[1..]);
      if !(|s| > 1 && IsWhitespace(s[1])) {
        FilterAppend([""], SplitWs(s[1..]), NonEmptyPiece);
      }
    }
  }

  /** `trim()` keeps the words. */
  lemma WordsOfTrim(s: string)
    ensures WordsOf(Trim(s)) == WordsOf(s)
  {
    WordsOfTrimStart(s);
    WordsOfTrimEnd(TrimStart(s));
  }
}

=== FILE: wrappers.dfy ===
/** Failure-compatible wrappers for the source's `null` returns and thrown errors. */
module Wrappers {

  /** A value that may be missing: the source's `string | null`, `T | undefined`. */
  datatype Option<+T> = None | Some(value: T)

  /** The outcome of an operation that either returns a value or throws an error with a message. */
  datatype Result<+T> = Success(value: T) | Failure(error: string)
}
